=== FILE: README.md ===
# Café storefront: a Dafny model of its pricing, cart and loyalty logic

This project models the client-side logic of a café ordering web app. The
app is a React storefront backed by a hosted Postgres database. The model
covers:

- the shopping cart (`CartContext`): keyed lines that merge on re-add, a
  minus action that decrements or deletes, and totals;
- the product dialog (`ProductModal`): radio and checkbox selection of
  modifier options, required-group validity, the add-on price, the quantity
  stepper and the item handed to the cart;
- the checkout page (`Checkout`): the promotion evaluator with its fixed
  order of checks, the eligible amount per promotion scope, the percentage or
  fixed discount, the loyalty-points clamp, the final total and the points
  estimate, the `YYMMDD` + three-digit order id, form validation, the order
  and order-item records, and the per-group add-on lines;
- the profile page (`Profile`): the per-order points tally, the ledger
  totals and balance, the pending estimate, the tier, the order list's
  filter, search and sort, the normalisation of stored selections, and
  "buy again";
- the admin modifier editor (`ModifierModal`), the order detail text
  (`OrderDetailModal`), the menu card price and label (`ProductCard`), the
  category tabs (`Menu`), the admin category list and add-product guard
  (`Admin`), the sign-in page's messages and routing (`Auth`), and the older
  cart drawer with its WhatsApp checkout and its +/- buttons (`CartDrawer`).

Every operation is a pure function over immutable datatypes (`types.dfy`).
The database, the clock, the random source, `JSON.parse` and
`toLocaleString` are parameters. Money is integer rupiah throughout.

Files:

- `types.dfy`: the records of `src/types/index.ts`, plus `Option` and `Result`.
- `seqs.dfy`: sums, filter, join, trim, case mapping and substring search.
- `sorting.dfy`: a stable insertion sort.
- `decimal.dfy`: decimal text and `parseInt`.
- `selections.dfy`: the `Record<string, string[]>` of chosen option ids (`SelectionRecord`), shared by the dialog, the checkout and the order detail.
- `cart.dfy`: `src/context/CartContext.tsx` (`Cart`).
- `catalog.dfy`: two modules, `ProductCard` for `src/components/menu/ProductCard.tsx` and `Menu` for `src/pages/Menu.tsx`.
- `promotions.dfy` and `checkout.dfy`: the discount rules and the rest of `src/pages/Checkout.tsx` (`Promotions`, `Checkout`).
- `loyalty.dfy` and `order_history.dfy`: the points and the order list of `src/pages/Profile.tsx` (`Loyalty`, `OrderHistory`).
- `product_modal.dfy`, `modifier_editor.dfy`, `order_detail.dfy`, `cart_drawer.dfy`, `admin.dfy`, `auth.dfy`: one module each for `ProductModal.tsx`, `ModifierModal.tsx`, `OrderDetailModal.tsx`, `CartDrawer.tsx`, `Admin.tsx` and `Auth.tsx`.

## Model

| member | source | states |
|---|---|---|
| Cart.GenerateCartIdSeparates | src/context/CartContext.tsx:39-43 | two adds share a key exactly when they have the same product id and the same modifiers value (selections and notes alike) |
| Cart.Find | src/context/CartContext.tsx:53 | the index found holds the key and no earlier line does; no index is returned only when no line holds the key |
| Cart.AddToCart | src/context/CartContext.tsx:46-70 | an existing key raises exactly the matching line by `quantity`, with every other line and the length unchanged; a new key appends one line with that key, that quantity and `basePrice ?? price` |
| Cart.AddToCartQtyAt | src/context/CartContext.tsx:46-70 | an add raises the units held under the item's key by the added quantity and leaves the units under every other key unchanged |
| Cart.AddToCartKeeps | src/context/CartContext.tsx:46-70 | an add keeps every line's item and key in place, any appended line holds the item, the item's key is found afterwards, and no key is lost |
| Cart.FindArg | src/context/CartContext.tsx:80 | the line found matches the argument; nothing is found only when no line matches |
| Cart.RemoveFromCart | src/context/CartContext.tsx:78-89 | an absent key leaves the cart as it was; a found line of quantity > 1 drops by exactly one in place; otherwise that line alone is deleted |
| Cart.ClearCart | src/context/CartContext.tsx:91-97 | the cart is empty with total 0 and count 0 |
| Cart.AddToCartCount | src/context/CartContext.tsx:46-70 | adding `quantity` units raises `cartCount` by exactly `quantity` |
| Cart.AddToCartTotal | src/context/CartContext.tsx:46-70 | adding raises `cartTotal` by `quantity` times the merged line's price, or the new line's price |
| Cart.RemoveFromCartCount | src/context/CartContext.tsx:78-89 | removing a present key lowers `cartCount` by one unit, or by the whole quantity of a line holding at most one |
| Cart.AddToCartValid | src/context/CartContext.tsx:53-70 | adding keeps keys pairwise distinct and each line's key equal to the one its product and modifiers produce |
| Cart.RemoveFromCartValid | src/context/CartContext.tsx:78-89 | removing keeps keys distinct and consistent |
| Cart.RunValid | src/context/CartContext.tsx:46-93 | keys stay distinct and consistent across any sequence of add, remove and clear |
| Cart.AddTwiceMerges | src/context/CartContext.tsx:53-69 | adding the same item twice to a cart without its key appends one line that holds both quantities |
| Cart.AddDifferentKeysSeparate | src/context/CartContext.tsx:39-69 | two items with different keys, such as the same product with other notes, become two separate lines |
| Promotions.CheckMinQuantity | src/pages/Checkout.tsx:64-99 | skipped when `min_quantity` is falsy; order/global scope compares `cartCount`; category/product scope compares the quantity of lines matching the first target; another scope passes |
| Promotions.EligibleAmount | src/pages/Checkout.tsx:112-132 | order/global scope gives `cartTotal`; category/product scope fails on a missing target or no matching line, else gives the matching lines' total; another scope gives 0 |
| Promotions.ApplyRate | src/pages/Checkout.tsx:134-138 | a percentage is `eligible × value / 100` rounded down; a fixed amount is the smaller of value and eligible |
| Promotions.PercentageWithinEligible | src/pages/Checkout.tsx:134-135 | a percentage from 0 to 100 of a non-negative amount lies between 0 and that amount |
| Promotions.CalculateDiscount | src/pages/Checkout.tsx:101-139 | the checks run in order (inactive, not started, expired, minimum order value, minimum quantity, target) and the first failure is the result; success means every check passed and the discount is the rate applied to the eligible amount: the floor of the percentage, or the smaller of the fixed amount and the eligible amount |
| Promotions.DrawnLinesNonNegative | src/pages/Checkout.tsx:120-131 | lines drawn from a cart of non-negative lines cost at least 0 |
| Promotions.FilteredTotalWithin | src/pages/Checkout.tsx:120-131 | the lines a filter keeps cost between 0 and the whole cart |
| Promotions.EligibleWithinTotal | src/pages/Checkout.tsx:112-132 | with non-negative prices and quantities, the eligible amount lies between 0 and `cartTotal` |
| Promotions.DiscountWithinTotal | src/pages/Checkout.tsx:101-139 | a successful discount with a non-negative value (at most 100 for a percentage) lies between 0 and `cartTotal` |
| Checkout.AvailablePoints | src/pages/Checkout.tsx:60 | a missing or negative balance counts as 0; any other balance is used as is |
| Checkout.PointsToUse | src/pages/Checkout.tsx:172-175 | 0 for a guest or with the toggle off; never negative; never above the available points or the total left after the promotion, and equal to one of them when both are non-negative |
| Checkout.FinalTotal | src/pages/Checkout.tsx:177 | never negative, and equal to the subtotal less discount and points whenever that is positive |
| Checkout.EstimatedPointsEarned | src/pages/Checkout.tsx:178 | one point per whole 200 rupiah of the final total |
| Checkout.PricingBalances | src/pages/Checkout.tsx:172-178 | with a discount within the subtotal, the points never exceed the balance, discount plus points stay within the subtotal, and the floor at 0 is inactive |
| Checkout.ApplyPromo | src/pages/Checkout.tsx:141-170 | a blank code changes nothing; otherwise a promotion is applied exactly when no error is shown, a found promotion whose evaluation succeeds is applied with that discount and no error, an unknown code shows the invalid-code error and a failed evaluation shows its own reason with discount 0 |
| Checkout.ApplyPromoWithinTotal | src/pages/Checkout.tsx:141-170 | an applied promotion with a non-negative value (at most 100 for a percentage) discounts between 0 and the cart total |
| Checkout.ApplyPromoIdempotent | src/pages/Checkout.tsx:141-170 | applying the same code to the same cart twice leaves the state the first application gave |
| Checkout.Suffix | src/pages/Checkout.tsx:198 | the random suffix lies in 100–999 |
| Checkout.OrderIdTextValue | src/pages/Checkout.tsx:198 | the text built from the two-digit year, padded month and day, and suffix is all digits and spells YYMMDD × 1000 + suffix |
| Checkout.ParseIntOfDigitString | src/pages/Checkout.tsx:198 | `parseInt` of a non-empty digit string is the number it spells |
| Checkout.OrderIdParses | src/pages/Checkout.tsx:196-199 | `parseInt` reads the order id text back as YYMMDD × 1000 + suffix |
| Checkout.OrderIdReadsBack | src/pages/Checkout.tsx:196-199 | the number read back splits into the date stamp (thousands) and the suffix (remainder) |
| Checkout.ReadOrderId | src/pages/Checkout.tsx:198 | the id read from the text has the date stamp as its thousands and the suffix as its remainder |
| Checkout.GenerateOrderId | src/pages/Checkout.tsx:196-199 | `id mod 1000` is the suffix, in 100–999, and `id / 1000` is the YYMMDD stamp |
| Checkout.OrderIdDeterminesDate | src/pages/Checkout.tsx:196-199 | equal ids come from the same two-digit year, month, day and suffix |
| Checkout.DateStampInjective | src/pages/Checkout.tsx:198 | distinct calendar dates (up to the two-digit year) have distinct stamps |
| Checkout.Validate | src/pages/Checkout.tsx:201-214 | a blank name is reported first, then a blank phone, then a delivery with neither address nor map link; the form passes exactly when none of these holds |
| Checkout.BuildOrder | src/pages/Checkout.tsx:219-238 | the order row has the subtotal, discount total = discount + points, total = final total, location fields only for delivery, the order type, the notes and the applied code as `|| null`, the session's points for a signed-in user and none for a guest, the user id only when signed in, status pending |
| Checkout.OrderItems | src/pages/Checkout.tsx:244-251 | one row per cart line, in cart order, with the line's product, price and quantity; the notes are stored exactly when the line has non-empty notes, the selections exactly when it has modifiers |
| Checkout.OrderItemsTotal | src/pages/Checkout.tsx:244-251 | the item rows add up to the order's subtotal |
| Checkout.PlaceOrder | src/pages/Checkout.tsx:201-262 | a second submit does nothing; a failed check writes nothing; otherwise the order row is written, then the items, and the cart is cleared only when both inserts succeed |
| Checkout.PlacedOrderBalances | src/pages/Checkout.tsx:232-235 | discount total plus total price equals the subtotal, and the points recorded never exceed the balance |
| Checkout.Names | src/pages/Checkout.tsx:278 | the names list has one entry per option, each that option's name |
| Checkout.GroupLines | src/pages/Checkout.tsx:271-282 | at most one line per group, and none when no group has a chosen option |
| Checkout.GroupLinesAppend | src/pages/Checkout.tsx:271-282 | the lines follow the groups' order: two runs of groups give their lines one after the other |
| Checkout.OneGroupLine | src/pages/Checkout.tsx:272-281 | a group gives no line when none of its options is selected, otherwise `<group>: <chosen names joined by ", ">` with the chosen prices summed as its extra |
| Checkout.GetModifierLines | src/pages/Checkout.tsx:266-285 | no lines for an item without modifiers, and at most one per group |
| Checkout.ExtrasMatchAddons | src/pages/Checkout.tsx:266-285 | with distinct option ids and no repeated selections, the extras listed at checkout add up to the add-on price the dialog charged |
| Checkout.GroupExtra | src/pages/Checkout.tsx:275-279 | within one group, the chosen options' prices sum to the price of the selected ids |
| Checkout.IdsPriceCons | src/components/menu/ProductModal.tsx:50-54 | the first option of a group contributes its price once when its id is selected |
| Checkout.OptionPriceCons | src/components/menu/ProductModal.tsx:52-53 | an id's price is the first matching option's price |
| Checkout.PercentageRoundsDown | src/pages/Checkout.tsx:135 | 10% of 12345 is 1234 |
| Checkout.FixedAmountCapped | src/pages/Checkout.tsx:138 | a fixed 50000 on an eligible 30000 gives 30000 |
| Checkout.PointsClamped | src/pages/Checkout.tsx:172-175 | a balance of 500 against 300 left to pay uses 300 points |
| Checkout.PromotionThenPoints | src/pages/Checkout.tsx:172-178 | the points cap is the total left after the promotion; 100000 with 10% off and 20000 points charges 70000 |
| Checkout.CategoryPromotionExample | src/pages/Checkout.tsx:116-135 | a 10% "Iced" promotion on two iced drinks at 15000 and a pastry at 10000 gives 3000 off and a final total of 37000 |
| Checkout.ExpiredPromotionExample | src/pages/Checkout.tsx:105 | a promotion that ended before now is refused as expired |
| ProductModal.Toggle | src/components/menu/ProductModal.tsx:70-99 | other groups are untouched; a required radio becomes exactly `[opt]`; an optional radio clears when the option was chosen, else becomes `[opt]`; a checkbox removes the option if present, else appends it; an existing group keeps its position and every other entry stays where it was, a new group is appended after the old entries |
| ProductModal.SingleHoldsAtMostOne | src/components/menu/ProductModal.tsx:79-88 | a radio group holds at most one option after a toggle |
| ProductModal.ToggleMultiTwice | src/components/menu/ProductModal.tsx:91-97 | ticking and unticking a checkbox restores every group's selection |
| ProductModal.IsValid | src/components/menu/ProductModal.tsx:103-107 | valid exactly when every required group has at least one selected option |
| ProductModal.ToggleRequiredSingle | src/components/menu/ProductModal.tsx:79-107 | choosing an option of the only unfilled required radio group makes the dialog valid |
| ProductModal.FindOption | src/components/menu/ProductModal.tsx:52 | the first option with that id, and none exactly when no option has it |
| ProductModal.UnknownIdAddsNothing | src/components/menu/ProductModal.tsx:52-53 | a selected id that names no option adds nothing to the price |
| ProductModal.IdsPriceNonNegative | src/components/menu/ProductModal.tsx:50-54 | with non-negative option prices a group's add-ons are non-negative |
| ProductModal.AddonsNonNegative | src/components/menu/ProductModal.tsx:43-55 | with non-negative option prices the add-on total is non-negative |
| ProductModal.Open | src/components/menu/ProductModal.tsx:21-35 | the dialog opens with quantity `quantity \|\| 1`; empty choices for a new item; the line's own choices and notes when editing, and empty choices and notes when the edited line has no modifiers |
| ProductModal.TotalPrice | src/components/menu/ProductModal.tsx:40-59 | with quantity ≥ 1 and non-negative add-ons, the total is at least the base price times the quantity |
| ProductModal.StepDown | src/components/menu/ProductModal.tsx:214 | the minus button never goes below 1 and otherwise lowers by one |
| ProductModal.StepUp | src/components/menu/ProductModal.tsx:216 | the plus button raises the quantity by exactly one |
| ProductModal.StepDownUndoesStepUp | src/components/menu/ProductModal.tsx:214-216 | from any quantity of at least 1, plus then minus gives the quantity back |
| ProductModal.PressKeepsPositive | src/components/menu/ProductModal.tsx:214-216 | any sequence of presses from 1 or more stays at 1 or more |
| ProductModal.BuildItem | src/components/menu/ProductModal.tsx:112-119 | the item is the product with only its price replaced by the unit price, carries `{selections, notes}` and the groups, has `basePrice \|\| price`, and its unit price times the quantity is the dialog's total |
| ProductModal.HandleAddToCart | src/components/menu/ProductModal.tsx:109-128 | an invalid dialog changes nothing; a new item is added with the dialog's quantity; an edited line is first removed once, then added |
| ProductModal.AddFromMenu | src/components/menu/ProductModal.tsx:109-128 | adding from the menu raises `cartCount` by the dialog's quantity |
| ProductModal.EditUnchangedLine | src/components/menu/ProductModal.tsx:122-127 | re-confirming an edited line of quantity q > 1 with unchanged choices leaves it at q − 1 + the dialog's quantity |
| SelectionRecord.FindEntry | src/components/menu/ProductModal.tsx:77 | the first entry for the group, and none exactly when no entry has it |
| SelectionRecord.SetGroup | src/components/menu/ProductModal.tsx:84-97 | `{...sel, [g]: ids}` gives `g` the new ids, leaves every other key alone, keeps an existing key at its position with every other entry unchanged, appends a new one, and keeps keys unique |
| SelectionRecord.FindEntryAppend | src/components/menu/ProductModal.tsx:84-97 | after appending an entry, a group is found where it was before, or at the new entry if it was absent and matches |
| SelectionRecord.KeysDecideFind | src/components/menu/ProductModal.tsx:77 | selections with the same keys at the same positions find the same entry |
| ModifierEditor.AddCategory | src/components/common/ModifierModal.tsx:39-48 | one new group at the end (required, single choice, no options, the fixed placeholder name), the others untouched |
| ModifierEditor.SetGroupField | src/components/common/ModifierModal.tsx:51 | the named field takes the value and every other field is unchanged |
| ModifierEditor.UpdateCategory | src/components/common/ModifierModal.tsx:50-52 | groups with that id have the field set; all other groups are unchanged; the length is kept |
| ModifierEditor.UpdateCategoryLastWins | src/components/common/ModifierModal.tsx:50-52 | writing the same non-id field twice keeps only the second value |
| ModifierEditor.AddOption | src/components/common/ModifierModal.tsx:54-64 | matching groups gain `{stamp, 'Option Name', 0}` at the end of their options; other groups are unchanged |
| ModifierEditor.SetOptionField | src/components/common/ModifierModal.tsx:69 | the named option field takes the value and the others are unchanged |
| ModifierEditor.UpdateOptions | src/components/common/ModifierModal.tsx:69 | options with that id have the field set, the others are unchanged |
| ModifierEditor.UpdateOption | src/components/common/ModifierModal.tsx:66-74 | only options with that id inside groups with that id change |
| ModifierEditor.UpdateOptionLastWins | src/components/common/ModifierModal.tsx:66-74 | a second write to an option's name or price keeps only the second value |
| ModifierEditor.UpdateOptionKeepsPricesNonNegative | src/components/common/ModifierModal.tsx:66-74 | typing a non-negative price keeps every add-on price non-negative |
| ModifierEditor.RemoveOption | src/components/common/ModifierModal.tsx:76-83 | matching groups lose exactly the options with that id, keeping the rest in order and every copy of them; other groups are unchanged |
| ModifierEditor.AddThenRemoveOption | src/components/common/ModifierModal.tsx:54-83 | removing an option just added gives the same groups as the removal alone |
| ModifierEditor.RemoveCategory | src/components/common/ModifierModal.tsx:85-87 | exactly the groups with that id go, the rest keep their order and every copy, and an absent id changes nothing |
| ModifierEditor.AddThenRemoveCategory | src/components/common/ModifierModal.tsx:39-87 | removing a group just added gives the same list as the removal alone |
| ModifierEditor.AddsKeepPricesNonNegative | src/components/common/ModifierModal.tsx:39-87 | the editor's additions and removals keep every option price non-negative |
| OrderDetail.FindGroup | src/components/common/OrderDetailModal.tsx:16 | the group found has the id and comes from the list; none exactly when no group has it |
| OrderDetail.Labels | src/components/common/OrderDetailModal.tsx:19-21 | at most one label per id, none empty, each the name of an option whose id was selected |
| OrderDetail.LabelsAppend | src/components/common/OrderDetailModal.tsx:19-21 | labels follow selection order |
| OrderDetail.UnknownIdsNoLabels | src/components/common/OrderDetailModal.tsx:20-21 | ids that name no option give no labels |
| OrderDetail.EntryText | src/components/common/OrderDetailModal.tsx:15-24 | an entry whose group is unknown gives no line; a line starts with its group's name and ": " |
| OrderDetail.RenderLines | src/components/common/OrderDetailModal.tsx:14-26 | at most one line per entry, each opening with a group name, and none without groups |
| OrderDetail.RenderLinesAppend | src/components/common/OrderDetailModal.tsx:14-26 | lines follow entry order |
| OrderDetail.SkippedEntry | src/components/common/OrderDetailModal.tsx:16-17 | an entry of an unknown group is skipped |
| OrderDetail.OneEntryLine | src/components/common/OrderDetailModal.tsx:19-24 | a known group with named options renders `<group>: <labels joined by ", ">` |
| OrderDetail.FirstGroupFound | src/components/common/OrderDetailModal.tsx:16 | the first group with the id is the one found |
| OrderDetail.RenderModifierText | src/components/common/OrderDetailModal.tsx:10-27 | missing selections or missing groups give no lines; at most one line per entry |
| OrderHistory.BeforeIsTotalPreorder | src/pages/Profile.tsx:160-164 | each sort order's comparator is total and transitive |
| OrderHistory.FilteredOrders | src/pages/Profile.tsx:145-167 | the result is a permutation of the orders passing the status filter and the search, sorted by the chosen order, and holds exactly those orders; orders the sort ranks level keep their fetched order |
| OrderHistory.ShowAllIsPermutation | src/pages/Profile.tsx:148-151 | with the filter on "all" and a blank search, every order is listed |
| OrderHistory.Strings | src/pages/Profile.tsx:192 | each array element is replaced by its `String` form, position by position |
| OrderHistory.Collect | src/pages/Profile.tsx:189-194 | the collected record has no repeated keys |
| OrderHistory.CollectLookup | src/pages/Profile.tsx:189-194 | each key ends up with the array value of its last array-valued member |
| OrderHistory.ArrayValueForDistinct | src/pages/Profile.tsx:190-193 | with distinct keys, each key carries its own member's strings exactly when its value is an array |
| OrderHistory.NormalizeSelections | src/pages/Profile.tsx:174-197 | falsy input, unparsable text, and values that are not objects give `{}`; the result has unique keys |
| OrderHistory.NormalizeObject | src/pages/Profile.tsx:187-194 | an object with distinct keys keeps exactly its array-valued members, stringified |
| OrderHistory.NormalizeNoNewKeys | src/pages/Profile.tsx:189-194 | keys absent from the object are absent from the result |
| OrderHistory.AbsentKeyNoValue | src/pages/Profile.tsx:189-194 | a key no member has has no value |
| OrderHistory.AddAll | src/pages/Profile.tsx:206-229 | the added count is the sum of the addable lines' quantities; the skipped count is the rest; a valid cart stays valid and its count rises by the added count |
| OrderHistory.CartItemFor | src/pages/Profile.tsx:218-225 | the cart item is the ordered product with no base price, the normalised selections, the line's notes or `''` when absent, and the product's groups |
| OrderHistory.PutBackKeysAgree | src/pages/Profile.tsx:218-228 | two put-back lines share a cart line exactly when they have the same product id, the same normalised selections and the same `notes \|\| ''` |
| OrderHistory.AddAllUnits | src/pages/Profile.tsx:209-229 | after the loop, the units under every key are the old units plus the quantities of the addable lines whose item has that key, and every addable line's key is in the cart |
| OrderHistory.AddAllLines | src/pages/Profile.tsx:209-229 | after the loop, the old lines keep their item and key at their positions, and every further line holds the item built from some addable line |
| OrderHistory.AddKeepsValid | src/pages/Profile.tsx:227 | each add keeps the cart valid and raises its count by the quantity |
| OrderHistory.BuyAgain | src/pages/Profile.tsx:199-232 | no lines gives the no-items outcome; something is added exactly when some line is addable, and then the counts are as in the loop and the cart holds what AddAllUnits and AddAllLines state; otherwise every line is skipped |
| OrderHistory.AddedIffAddable | src/pages/Profile.tsx:211-228 | the added count is positive exactly when some line is addable |
| Loyalty.ApplyRow | src/pages/Profile.tsx:94-99 | earn adds the positive part of the delta to earned; redeem adds its size to used; a positive refund takes the delta off used and a negative one its size off earned, each floored at 0 and leaving the other field alone; a zero refund and the other entry types change nothing |
| Loyalty.RefundUndoesRedeem | src/pages/Profile.tsx:95-97 | a refund of exactly what was redeemed restores the tally |
| Loyalty.RefundUndoesEarn | src/pages/Profile.tsx:94-98 | a negative refund of exactly what was earned restores the tally |
| Loyalty.PointsByOrder | src/pages/Profile.tsx:87-105 | every tally is non-negative, and an order has one exactly when a row with that truthy order id exists |
| Loyalty.PointsByOrderPerOrder | src/pages/Profile.tsx:87-105 | each order's tally is its own rows applied in order from `{0, 0}` |
| Loyalty.OrderPoints | src/pages/Profile.tsx:359 | an order in the map shows its own tally; an order without ledger rows shows nothing earned and its own points used, at least 0 |
| Loyalty.OrderPointsFromLedger | src/pages/Profile.tsx:89-103 | an order with ledger rows shows the tally of exactly those rows applied in order; an order with none, or with the falsy id 0, shows the fallback |
| Loyalty.EarnedLessUsed | src/pages/Profile.tsx:108-109 | earned less used is the plain sum of the deltas, and both are non-negative |
| Loyalty.EarnedUsedAppend | src/pages/Profile.tsx:108-109 | a new ledger row adds the positive part of its delta to earned and the size of its negative part to used |
| Loyalty.Summarize | src/pages/Profile.tsx:107-121 | earned and used are the ledger totals, pending is the per-order estimate summed over the pending orders, the balance is the sum of the deltas floored at 0 and never above earned; all figures are non-negative |
| Loyalty.PendingMatchesCheckoutEstimate | src/pages/Profile.tsx:113 | a pending order's points equal the estimate the checkout page showed for it |
| Loyalty.LoyaltyTier | src/pages/Profile.tsx:123-127 | Gold exactly from 5000, Silver exactly from 2000 below 5000, Bronze below 2000 |
| Loyalty.TierMonotone | src/pages/Profile.tsx:123-127 | earning more never lowers the tier |
| ProductCard.OriginalPrice | src/components/menu/ProductCard.tsx:21-26 | 0 for a non-bundle or a bundle without rows; non-negative when every part is |
| ProductCard.SumOfNonNegativeParts | src/components/menu/ProductCard.tsx:23-25 | parts with non-negative prices and quantities have a non-negative total |
| ProductCard.OriginalPriceAddPart | src/components/menu/ProductCard.tsx:23-25 | a part row added to a bundle adds its own value, a missing price counting 0 |
| ProductCard.HasDiscountIff | src/components/menu/ProductCard.tsx:21-28 | with a non-negative price, the crossed-out price shows exactly for bundles with rows worth more than the bundle |
| ProductCard.ButtonLabel | src/components/menu/ProductCard.tsx:29-110 | "Customize" exactly when the product has modifiers, "Add" otherwise |
| Menu.FilteredProducts | src/pages/Menu.tsx:44-48 | the tab's products in their original order: all for "All", bundles for "Bundles", else exactly that category; every copy of a shown product stays |
| Menu.CategoryTabsPartition | src/pages/Menu.tsx:9 | a listed product whose category has a tab shows under that tab and under no other category tab |
| Menu.FilteredProductsIdempotent | src/pages/Menu.tsx:44-48 | filtering the shown list by the same tab again changes nothing |
| Admin.LexIsTotalPreorder | src/pages/Admin.tsx:34 | the default string order of `sort()` is total and transitive |
| Admin.LexAntisymmetric | src/pages/Admin.tsx:34 | two strings each at or below the other are equal |
| Admin.Distinct | src/pages/Admin.tsx:33 | `new Set` keeps each value once, loses none, and lists them in the order first seen |
| Admin.DistinctStep | src/pages/Admin.tsx:33 | a value already seen changes nothing and a new one goes last, so the first-seen order is kept |
| Admin.UniqueCategories | src/pages/Admin.tsx:33 | exactly the non-empty product categories, each once |
| Admin.CategoryList | src/pages/Admin.tsx:33-34 | every non-empty product category exactly once, sorted |
| Admin.CategoryListStrictlyAscending | src/pages/Admin.tsx:33-34 | the list is strictly ascending |
| Admin.HandleAddProduct | src/pages/Admin.tsx:43-50 | nothing is inserted exactly when the name, price or category is empty; otherwise the fields go in as typed |
| Admin.AddProductPrice | src/pages/Admin.tsx:49 | a price typed as a plain decimal number is stored as that number |
| Admin.Suggestions | src/pages/Admin.tsx:176-184 | the existing categories first, then exactly the defaults not among them, in the defaults' own order; nothing missing, and no repeats when the categories have none |
| Admin.SuggestionsIdempotent | src/pages/Admin.tsx:176-184 | the suggestions already hold every default, so building them from themselves gives them back |
| Auth.FriendlyError | src/pages/Auth.tsx:33-45 | the first known phrase found in the lower-cased message picks the wording, in fixed precedence; an unknown message is shown unchanged |
| Auth.FriendlyErrorIgnoresCase | src/pages/Auth.tsx:34 | upper-casing a message does not change a wording it gets |
| Auth.FailureToast | src/pages/Auth.tsx:87 | an empty message shows "Authentication failed."; any other is mapped |
| Auth.FallbackShownAsIs | src/pages/Auth.tsx:87 | the fallback text matches no phrase and is shown as is |
| Auth.StripTrailingSlash | src/pages/Auth.tsx:22 | one trailing slash is removed, and nothing else changes |
| Auth.EmailRedirectUrl | src/pages/Auth.tsx:18-23 | the trimmed configured URL if non-empty, else the origin, without a trailing slash, then `/email-confirmed` |
| Auth.TrailingSlashIgnored | src/pages/Auth.tsx:22 | a base with or without one trailing slash gives the same link |
| Auth.PostLoginRoute | src/pages/Auth.tsx:56-64 | `/admin` exactly for the two listed addresses, `/menu` otherwise |
| Auth.SignedInRoute | src/pages/Auth.tsx:25-31 | an already signed-in user goes to `/admin` exactly when flagged admin |
| Auth.SignUp | src/pages/Auth.tsx:66-87 | without a session the form switches to sign-in with the password cleared; with one it goes to `/menu`; an error shows its toast |
| Auth.SignIn | src/pages/Auth.tsx:52-64 | success routes by the e-mail; an error shows its toast and stays |
| Auth.FailureToastNonEmpty | src/pages/Auth.tsx:86-88 | a failed attempt always shows some text |
| Auth.SignUpOutcomes | src/pages/Auth.tsx:66-88 | for every reply to a sign-up the e-mail typed stays in the form, the page goes nowhere but `/menu`, and a refusal stays on the page with a non-empty toast |
| Auth.SignInOutcomes | src/pages/Auth.tsx:52-64 | for every reply to a sign-in the form is unchanged, the page goes nowhere but `/menu` or `/admin`, and a refusal stays on the page with a non-empty toast |
| CartDrawer.Guard | src/components/menu/CartDrawer.tsx:12-13 | a blank name is refused before an empty cart; checkout proceeds exactly when the name is non-blank and the cart non-empty |
| CartDrawer.ItemRows | src/components/menu/CartDrawer.tsx:24-29 | one row per cart line, in cart order, with the line's product id, price and quantity |
| CartDrawer.ItemRowsTotal | src/components/menu/CartDrawer.tsx:18-29 | the item rows add up to the total written on the order row |
| CartDrawer.Message | src/components/menu/CartDrawer.tsx:34-38 | the message starts with the header, ends with the footer carrying `cartTotal`, and between them holds exactly the item lines, one per cart line in cart order |
| CartDrawer.ItemLinesAppend | src/components/menu/CartDrawer.tsx:35-37 | the item lines follow cart order |
| CartDrawer.MessageNamesEveryLine | src/components/menu/CartDrawer.tsx:34-38 | every cart line's text appears in the message, line k right after the header and the item lines of the lines before it |
| CartDrawer.HandleCheckout | src/components/menu/CartDrawer.tsx:11-46 | refused exactly when a guard fails; on success the order row has `cartTotal` and status pending, the items are the line rows, the URL is the WhatsApp link with the message, and the cart and name are cleared; a rejected order insert records nothing written, a rejected item insert records the order row as written and the rows it tried |
| CartDrawer.PlusIncrementsSameLine | src/components/menu/CartDrawer.tsx:101 | the plus button raises that same line by one and leaves every other line alone |
| CartDrawer.MinusAsWrittenIsNoOp | src/components/menu/CartDrawer.tsx:99 | the minus button as written never changes the cart |
| CartDrawer.MinusAsWrittenCounterexample | src/components/menu/CartDrawer.tsx:99 | on a line of two, pressing minus leaves two |
| CartDrawer.Minus | src/components/menu/CartDrawer.tsx:99 | the corrected minus lowers a line above one by one in place, deletes a line of one, and keeps the cart valid |
| CartDrawer.PlusThenMinus | src/components/menu/CartDrawer.tsx:99-101 | plus then the corrected minus on a line gives the cart back |
| Sorting.SortBy | src/pages/Profile.tsx:160-166 | the output is sorted, has the same length, is a permutation of the input and is stable: elements the comparator ranks level keep their input order |
| Sorting.Insert | src/pages/Profile.tsx:160-166 | inserting into a sorted list keeps it sorted, adds exactly that element, and places it after the elements ranked level with it |
| Sorting.NothingLevelBelow | src/pages/Profile.tsx:160-166 | an element that sorts before the head of a sorted list has nothing ranked level with it in that list |
| Decimal.ToDecimal | src/pages/Checkout.tsx:198 | `String(n)` is a non-empty digit string without leading zeros whose value is `n` |
| Decimal.Pad2 | src/pages/Checkout.tsx:198 | `padStart(2, '0')` gives two digits worth the number |
| Decimal.Last2 | src/pages/Checkout.tsx:198 | `slice(-2)` keeps the last two characters, or all of a shorter string |
| Decimal.Last2Value | src/pages/Checkout.tsx:198 | the last two digits are worth the value modulo 100 |
| Decimal.ParseIntToDecimal | src/pages/Admin.tsx:49 | `parseInt` reads back the decimal text of every non-negative integer, whatever non-digit follows |
| Decimal.ParseIntDigits | src/pages/Checkout.tsx:198 | `parseInt` of a digit string without a hex prefix is its value |
| Seqs.TrimEmptyIffBlank | src/pages/Checkout.tsx:202-210 | a string trims to empty exactly when it is all whitespace |
| Seqs.FindFirst | src/context/CartContext.tsx:53 | the index found satisfies the test and no earlier one does; none exactly when no element does |
| Seqs.FilterIsSubsequence | src/pages/Menu.tsx:44 | `filter` keeps an order-preserving subsequence |
| Seqs.FilterCounts | src/pages/Menu.tsx:44 | `filter` keeps every copy of an element that passes and no copy of one that fails |
| Seqs.SumOfFilterSplit | src/pages/Checkout.tsx:120-123 | the kept and the dropped elements add up to the whole |

## Left out

- Database reads and writes, realtime channels and the payment edge function are left out. Each insert's outcome is an input: `orderStored`/`itemsStored`, the reply of the drawer's inserts, and the promotion `lookup`.
- The clock and `Math.random` are parameters. `now` is an integer instant, the order-id date is given as year, month and day, and the draw is a real in [0, 1). `Date.now()` ids in the modifier editor are a `stamp` string.
- JavaScript floating point is replaced by exact integer arithmetic. `Math.floor(e * (v / 100))` is modelled as `(e * v) / 100` and `Math.floor(x * 0.005)` as `x / 200`. Float rounding can differ from these by one; for example `100 * (29 / 100)` floors to 28 in JavaScript.
- `toLocaleString` is the `format` parameter of the drawer message. The URL is not percent-encoded beyond what the source writes.
- `JSON.stringify` of the modifiers is taken as injective and order-sensitive: the cart key compares the modifiers value itself. `JSON.parse` is the `parse` parameter.
- `Object.entries` lists keys in insertion order in the model. JavaScript puts integer-like keys first.
- Case mapping and whitespace are ASCII plus the JavaScript whitespace set. There is no Unicode case folding.
- `sort()` on strings compares characters as code points, not UTF-16 code units.
- `parseInt` of a price that is not a number gives `None` where JavaScript gives `NaN`.
- The 90-day expiry and "expiring within 7 days" figure of the profile page is left out. It depends on calendar date arithmetic.
- The order header and lines are two inserts with no transaction. The model records a failed second insert; it does not model retry on an id clash.
- The discount is set only when a code is applied. It is not recomputed when the cart changes later, and the model keeps that stale value.
- The order id takes the year as a non-negative number.
- Presentation, toasts, routing components, the session listener, the reservation page and the e-mail confirmation page are left out.
- The two administrator e-mail lists (sign-in page and session context) are not unified. Only the sign-in page's list and the session's admin flag appear.
- OrderDetail.RenderModifierText: its own contract bounds the line count only. The line contents are stated by `OneEntryLine`, `SkippedEntry` and `RenderLinesAppend` over `RenderLines`.
- OrderDetail.Labels: each label is stated to name some option with a selected id, not necessarily the first option with that id. `LabelsAppend` and `UnknownIdsNoLabels` give order and dropping.
- Checkout.GetModifierLines: its contract bounds the number of lines. Their texts and extras are stated group by group by `OneGroupLine` and `GroupLinesAppend`, and their total is related to the dialog's add-on price by `ExtrasMatchAddons`.
- ModifierEditor.SetOptionField: the price box's `parseInt` is modelled only when it gives a number. An emptied or non-numeric box stores `NaN` in the source, and option prices are integers throughout the model.
- ProductModal.TotalPrice: its contract gives a lower bound only. The add-on sum itself is stated by the `IdsPrice` lemmas.

Four behaviours of the code worth knowing, which the model keeps:

- the discount is not re-evaluated when the cart changes;
- checkout does not refuse an empty cart;
- the phone is required for takeaway too;
- `addToCart` accepts any quantity, including zero or a negative one.

The product dialog's edit path (`ProductModal.EditUnchangedLine`) removes one unit and then adds the full quantity. So re-confirming an unchanged line of quantity q gives 2q − 1. No caller in the source opens the dialog on a cart line, so this is recorded as a lemma and not as a finding.

## Findings

| source | as written | input that shows it | evidently intended | confidence | as-written member | corrected member |
|---|---|---|---|---|---|---|
| src/components/menu/CartDrawer.tsx:99 | the minus button calls `removeFromCart(item.id)` with the numeric product id; `removeFromCart` compares it with the string `cartId` using `===`, so no line ever matches and the cart is unchanged | a cart with one line of quantity 2: pressing minus leaves quantity 2 | `removeFromCart(item.cartId)`: lower the line by one, or delete it at one | high (not executed) | CartDrawer.MinusAsWrittenCounterexample | CartDrawer.Minus |

=== FILE: admin.dfy ===
/** The admin page's pure parts (src/pages/Admin.tsx): the category list
    built from the products, the guard in front of a product insert, and the
    category suggestions offered while typing. */
module Admin {
  import opened Types
  import opened Seqs
  import Sorting
  import Decimal

  // ---------------------------------------------------------------------
  // String order

  /** The order `Array.prototype.sort` uses without a comparator: character
      by character, a proper prefix first. */
  predicate LexLe(a: string, b: string)
    decreases |a|
  {
    |a| == 0 || (|b| > 0 && (a[0] < b[0] || (a[0] == b[0] && LexLe(a[1..], b[1..]))))
  }

  lemma {:induction false} LexTotal(a: string, b: string)
    ensures LexLe(a, b) || LexLe(b, a)
    decreases |a|
  {
    if |a| > 0 && |b| > 0 && a[0] == b[0] {
      LexTotal(a[1..], b[1..]);
    }
  }

  lemma {:induction false} LexTransitive(a: string, b: string, c: string)
    requires LexLe(a, b) && LexLe(b, c)
    ensures LexLe(a, c)
    decreases |a|
  {
    if |a| > 0 && a[0] == b[0] && b[0] == c[0] {
      LexTransitive(a[1..], b[1..], c[1..]);
    }
  }

  lemma {:induction false} LexAntisymmetric(a: string, b: string)
    requires LexLe(a, b) && LexLe(b, a)
    ensures a == b
    decreases |a|
  {
    if |a| > 0 {
      LexAntisymmetric(a[1..], b[1..]);
      assert a == [a[0]] + a[1..] && b == [b[0]] + b[1..];
    }
  }

  lemma LexIsTotalPreorder()
    ensures Sorting.TotalPreorder(LexLe)
  {
    forall a, b ensures LexLe(a, b) || LexLe(b, a) {
      LexTotal(a, b);
    }
    forall a, b, c | LexLe(a, b) && LexLe(b, c) ensures LexLe(a, c) {
      LexTransitive(a, b, c);
    }
  }

  // ---------------------------------------------------------------------
  // Category list

  /** `r` lists values in the order they are first seen in `s`: wherever a
      later value of `r` occurs in `s`, every earlier one has occurred before. */
  predicate FirstSeenOrder(r: seq<string>, s: seq<string>)
  {
    forall i, k, j :: 0 <= i < k < |r| && 0 <= j < |s| && s[j] == r[k] ==> r[i] in s[..j]
  }

  /** `Array.from(new Set(values))`: first occurrences, in order. */
  function Distinct(s: seq<string>): (r: seq<string>)
    ensures NoDuplicates(r)
    ensures forall x :: x in r <==> x in s
    ensures FirstSeenOrder(r, s)
  {
    if |s| == 0 then []
    else
      var d := Distinct(s[..|s| - 1]);
      assert forall x :: x in s <==> x in s[..|s| - 1] || x == s[|s| - 1] by {
        assert s == s[..|s| - 1] + [s[|s| - 1]];
      }
      DistinctStep(s[..|s| - 1], s[|s| - 1], d, s);
      if s[|s| - 1] in d then d else d + [s[|s| - 1]]
  }

  /** One more value keeps the first-seen order: a value already listed
      changes nothing, and a new one goes last. */
  lemma DistinctStep(init: seq<string>, last: string, d: seq<string>, s: seq<string>)
    requires s == init + [last]
    requires forall x :: x in d <==> x in init
    requires FirstSeenOrder(d, init)
    ensures FirstSeenOrder(if last in d then d else d + [last], s)
  {
    var r := if last in d then d else d + [last];
    forall i, k, j | 0 <= i < k < |r| && 0 <= j < |s| && s[j] == r[k]
      ensures r[i] in s[..j]
    {
      assert r[i] == d[i];
      if j < |init| {
        assert s[j] == init[j] && s[..j] == init[..j];
        if k < |d| {
          assert r[k] == d[k];
        }
      } else {
        assert s[..j] == init;
        assert d[i] in d;
      }
    }
  }

  function Categories(products: seq<Product>): seq<string>
  {
    seq(|products|, i requires 0 <= i < |products| => products[i].category)
  }

  predicate NonEmpty(c: string)
  {
    c != ""
  }

  /** The product categories, non-empty and without repeats, in first-seen order. */
  function UniqueCategories(products: seq<Product>): (r: seq<string>)
    ensures NoDuplicates(r)
    ensures forall c :: c in r <==> c != "" && exists i :: 0 <= i < |products| && products[i].category == c
  {
    var cats := Categories(products);
    FilterNoDuplicates(Distinct(cats), NonEmpty);
    assert forall c :: c in cats ==> exists i :: 0 <= i < |products| && products[i].category == c by {
      forall c | c in cats ensures exists i :: 0 <= i < |products| && products[i].category == c {
        var k :| 0 <= k < |cats| && cats[k] == c;
        assert products[k].category == c;
      }
    }
    assert forall i :: 0 <= i < |products| ==> products[i].category in cats by {
      forall i | 0 <= i < |products| ensures products[i].category in cats {
        assert cats[i] == products[i].category;
      }
    }
    Filter(Distinct(cats), NonEmpty)
  }

  /** The category list (`uniqueCats.sort()`): every non-empty product
      category once, in ascending order. */
  function CategoryList(products: seq<Product>): (r: seq<string>)
    ensures NoDuplicates(r)
    ensures forall c :: c in r <==> c != "" && exists i :: 0 <= i < |products| && products[i].category == c
    ensures Sorting.Sorted(r, LexLe)
  {
    var unique := UniqueCategories(products);
    LexIsTotalPreorder();
    var r := Sorting.SortBy(unique, LexLe);
    NoDuplicatesPermutation(unique, r);
    assert forall c :: c in r <==> c in unique by {
      forall c ensures c in r <==> c in unique {
        assert c in r <==> c in multiset(r);
        assert c in unique <==> c in multiset(unique);
      }
    }
    r
  }

  /** Sorted and without repeats, the list is strictly ascending. */
  lemma CategoryListStrictlyAscending(products: seq<Product>)
    ensures var r := CategoryList(products);
      forall i, j :: 0 <= i < j < |r| ==> LexLe(r[i], r[j]) && !LexLe(r[j], r[i])
  {
    var r := CategoryList(products);
    forall i, j | 0 <= i < j < |r|
      ensures LexLe(r[i], r[j]) && !LexLe(r[j], r[i])
    {
      if LexLe(r[j], r[i]) {
        LexAntisymmetric(r[i], r[j]);
        assert false;
      }
    }
  }

  // ---------------------------------------------------------------------
  // Adding a product

  /** The add-product form: every field is the text typed in. */
  datatype NewProduct = NewProduct(name: string, price: string, category: string, description: string, imageUrl: string)

  /** The row inserted; `parseInt` of the price text, `None` for `NaN`. */
  datatype ProductRow = ProductRow(name: string, price: Option<int>, category: string, description: string, imageUrl: string)

  /** `handleAddProduct`: nothing is inserted when the name, price or
      category is empty; otherwise the form's fields are inserted as typed,
      with the price parsed. */
  function HandleAddProduct(form: NewProduct): (r: Option<ProductRow>)
    ensures r.None? <==> form.name == "" || form.price == "" || form.category == ""
    ensures r.Some? ==> r.value.name == form.name && r.value.category == form.category
    ensures r.Some? ==> r.value.description == form.description && r.value.imageUrl == form.imageUrl
  {
    if form.name == "" || form.price == "" || form.category == "" then None
    else Some(ProductRow(form.name, Decimal.ParseInt(form.price), form.category, form.description, form.imageUrl))
  }

  /** A price typed as a plain decimal number is inserted as that number. */
  lemma AddProductPrice(form: NewProduct, n: nat)
    requires form.name != "" && form.category != "" && form.price == Decimal.ToDecimal(n)
    ensures HandleAddProduct(form) == Some(ProductRow(form.name, Some(n), form.category, form.description, form.imageUrl))
  {
    Decimal.ParseIntToDecimal(n, "");
    assert Decimal.ToDecimal(n) + "" == Decimal.ToDecimal(n);
  }

  // ---------------------------------------------------------------------
  // Suggestions

  const Defaults: seq<string> := ["Hot Coffee", "Iced", "Non-Coffee", "Food"]

  function NotIn(categories: seq<string>): string -> bool
  {
    (c: string) => c !in categories
  }

  /** The `<datalist>`: the existing categories, then each default that is
      not among them. */
  function Suggestions(categories: seq<string>): (r: seq<string>)
    ensures forall c :: c in r <==> c in categories || c in Defaults
    ensures |r| >= |categories| && r[..|categories|] == categories
    ensures NoDuplicates(categories) ==> NoDuplicates(r)
    ensures IsSubsequence(r[|categories|..], Defaults)
    ensures forall c :: c in r[|categories|..] <==> c in Defaults && c !in categories
  {
    var extra := Filter(Defaults, NotIn(categories));
    FilterNoDuplicates(Defaults, NotIn(categories));
    FilterIsSubsequence(Defaults, NotIn(categories));
    var r := categories + extra;
    assert r[..|categories|] == categories;
    assert r[|categories|..] == extra;
    assert forall i, j :: 0 <= i < |categories| && 0 <= j < |extra| ==> categories[i] != extra[j] by {
      forall i, j | 0 <= i < |categories| && 0 <= j < |extra| ensures categories[i] != extra[j] {
        assert extra[j] in extra;
      }
    }
    assert forall i :: 0 <= i < |extra| ==> r[|categories| + i] == extra[i];
    r
  }

  /** The suggestions already hold every default, so building them again
      from themselves adds nothing. */
  lemma SuggestionsIdempotent(categories: seq<string>)
    ensures Suggestions(Suggestions(categories)) == Suggestions(categories)
  {
    var r := Suggestions(categories);
    var extra := Filter(Defaults, NotIn(r));
    assert |extra| == 0;
    assert r + extra == r;
  }
}

=== FILE: auth.dfy ===
/** The sign-in / sign-up page (src/pages/Auth.tsx): error wording, the
    confirmation link target, where a signed-in user is sent, and what the
    form does when a sign-up needs e-mail confirmation. The auth service
    itself is a parameter: its reply is an input to each step. */
module Auth {
  import opened Types
  import opened Seqs

  const WrongCredentials: string := "Wrong email or password. Please try again."
  const NotVerified: string := "Your email is not verified yet. Please check your inbox."
  const AlreadyRegistered: string := "This email is already registered. Please sign in instead."

  /** `getFriendlyError`: the first known phrase found in the lower-cased
      message picks the wording; an unknown message is shown as it is. */
  function FriendlyError(message: string): (r: string)
    ensures Contains(Lower(message), "invalid login credentials") ==> r == WrongCredentials
    ensures (!Contains(Lower(message), "invalid login credentials")
             && Contains(Lower(message), "email not confirmed")) ==> r == NotVerified
    ensures (!Contains(Lower(message), "invalid login credentials")
             && !Contains(Lower(message), "email not confirmed")
             && Contains(Lower(message), "user already registered")) ==> r == AlreadyRegistered
    ensures (!Contains(Lower(message), "invalid login credentials")
             && !Contains(Lower(message), "email not confirmed")
             && !Contains(Lower(message), "user already registered")) ==> r == message
  {
    var lower := Lower(message);
    if Contains(lower, "invalid login credentials") then WrongCredentials
    else if Contains(lower, "email not confirmed") then NotVerified
    else if Contains(lower, "user already registered") then AlreadyRegistered
    else message
  }

  /** Upper-casing a message does not change which wording it gets, unless
      none applies (then the message itself is shown, in its own case). */
  lemma FriendlyErrorIgnoresCase(message: string)
    ensures FriendlyError(Upper(message)) == FriendlyError(message) || FriendlyError(message) == message
  {
    assert Lower(Upper(message)) == Lower(message);
  }

  /** The text shown for a failed attempt: `error.message || 'Authentication failed.'`. */
  function FailureToast(message: string): (r: string)
    ensures message == "" ==> r == "Authentication failed."
    ensures message != "" ==> r == FriendlyError(message)
  {
    FallbackShownAsIs();
    FriendlyError(if message == "" then "Authentication failed." else message)
  }

  /** The fallback text contains none of the phrases. */
  lemma FallbackShownAsIs()
    ensures FriendlyError("Authentication failed.") == "Authentication failed."
  {
    FallbackLowered();
    FallbackHasNoPhrase();
  }

  lemma FallbackLowered()
    ensures Lower("Authentication failed.") == "authentication failed."
  {
  }

  lemma FallbackHasNoPhrase()
    ensures !Contains("authentication failed.", "invalid login credentials")
    ensures !Contains("authentication failed.", "email not confirmed")
    ensures !Contains("authentication failed.", "user already registered")
  {
    ContainsNeedsRoom("authentication failed.", "invalid login credentials");
    ContainsNeedsRoom("authentication failed.", "user already registered");
    FallbackLacksM();
  }

  lemma FallbackLacksM()
    ensures !Contains("authentication failed.", "email not confirmed")
  {
    var s := "authentication failed.";
    assert 'm' !in s;
    assert "email not confirmed"[1] == 'm';
    ContainsHasChars(s, "email not confirmed", 1);
  }

  /** `baseUrl.replace(/\/$/, '')`: one trailing slash removed. */
  function StripTrailingSlash(base: string): (r: string)
    ensures r == base || r + "/" == base
    ensures |base| > 0 && base[|base| - 1] == '/' ==> r + "/" == base
  {
    if |base| > 0 && base[|base| - 1] == '/' then
      assert base == base[..|base| - 1] + "/";
      base[..|base| - 1]
    else base
  }

  /** `getEmailRedirectUrl`: the trimmed configured site URL when it is
      non-empty, else the page origin, then `/email-confirmed`. */
  function EmailRedirectUrl(configured: Option<string>, origin: string): (r: string)
    ensures var base := if configured.Some? && Trim(configured.value) != "" then Trim(configured.value) else origin;
      r == StripTrailingSlash(base) + "/email-confirmed"
    ensures |r| >= |"/email-confirmed"| && r[|r| - |"/email-confirmed"|..] == "/email-confirmed"
  {
    var base := if configured.Some? && Trim(configured.value) != "" then Trim(configured.value) else origin;
    var r := StripTrailingSlash(base) + "/email-confirmed";
    assert r[|r| - |"/email-confirmed"|..] == "/email-confirmed";
    r
  }

  /** A base with or without one trailing slash gives the same link. */
  lemma TrailingSlashIgnored(base: string)
    requires |base| == 0 || base[|base| - 1] != '/'
    ensures StripTrailingSlash(base + "/") + "/email-confirmed" == StripTrailingSlash(base) + "/email-confirmed"
  {
    assert (base + "/")[..|base|] == base;
  }

  const AdminEmails: seq<string> := ["jarulun04@gmail.com", "sbstn.stp@gmail.com"]

  /** Where a successful sign-in goes: `/admin` exactly for the two listed
      addresses, `/menu` otherwise (also when the reply has no e-mail). */
  function PostLoginRoute(email: Option<string>): (r: string)
    ensures r == "/admin" <==> email.Some? && email.value in AdminEmails
    ensures r == "/admin" || r == "/menu"
  {
    if email.Some? && email.value != "" && email.value in AdminEmails then "/admin" else "/menu"
  }

  /** The page's own redirect for a user already signed in, driven by the
      session's admin flag rather than the list above. */
  function SignedInRoute(isAdmin: bool): (r: string)
    ensures r == "/admin" <==> isAdmin
    ensures r == "/admin" || r == "/menu"
  {
    if isAdmin then "/admin" else "/menu"
  }

  datatype AuthForm = AuthForm(isLogin: bool, email: string, password: string)

  /** The reply to a sign-up: an error message, or whether a session came back. */
  datatype SignUpReply = SignUpFailed(message: string) | SignedUp(hasSession: bool)

  datatype AuthOutcome = AuthOutcome(form: AuthForm, route: Option<string>, toast: string)

  /** The sign-up branch of `handleAuth`. */
  function SignUp(form: AuthForm, reply: SignUpReply): (r: AuthOutcome)
    ensures reply == SignedUp(false) ==>
      r.form == AuthForm(true, form.email, "") && r.route.None?
    ensures reply == SignedUp(true) ==> r.form == form && r.route == Some("/menu")
    ensures reply.SignUpFailed? ==> r.form == form && r.route.None? && r.toast == FailureToast(reply.message)
  {
    match reply
    case SignUpFailed(m) => AuthOutcome(form, None, FailureToast(m))
    case SignedUp(false) =>
      AuthOutcome(form.(isLogin := true, password := ""), None,
        "Confirmation sent to your email. Please verify, then sign in.")
    case SignedUp(true) => AuthOutcome(form, Some("/menu"), "Account created. You are now signed in.")
  }

  /** The reply to a sign-in: an error message, or the user's e-mail if any. */
  datatype SignInReply = SignInFailed(message: string) | SignedIn(email: Option<string>)

  /** The sign-in branch of `handleAuth`. */
  function SignIn(form: AuthForm, reply: SignInReply): (r: AuthOutcome)
    ensures r.form == form
    ensures reply.SignedIn? ==> r.route == Some(PostLoginRoute(reply.email))
    ensures reply.SignInFailed? ==> r.route.None? && r.toast == FailureToast(reply.message)
  {
    match reply
    case SignInFailed(m) => AuthOutcome(form, None, FailureToast(m))
    case SignedIn(e) => AuthOutcome(form, Some(PostLoginRoute(e)), "Signed in successfully.")
  }

  /** A failed attempt always shows some text. */
  lemma FailureToastNonEmpty(message: string)
    ensures FailureToast(message) != ""
  {
    FallbackShownAsIs();
  }

  /** Whatever the service replies to a sign-up, the form keeps the e-mail
      typed in, the page goes nowhere but `/menu`, and a refusal stays on
      the page with a non-empty toast. */
  lemma SignUpOutcomes(form: AuthForm, reply: SignUpReply)
    ensures SignUp(form, reply).form.email == form.email
    ensures SignUp(form, reply).route in {None, Some("/menu")}
    ensures reply.SignUpFailed? ==> SignUp(form, reply).route.None? && SignUp(form, reply).toast != ""
  {
    if reply.SignUpFailed? {
      FailureToastNonEmpty(reply.message);
    }
  }

  /** Whatever the service replies to a sign-in, the form is unchanged, the
      page goes nowhere but `/menu` or `/admin`, and a refusal stays on the
      page with a non-empty toast. */
  lemma SignInOutcomes(form: AuthForm, reply: SignInReply)
    ensures SignIn(form, reply).form == form
    ensures SignIn(form, reply).route in {None, Some("/menu"), Some("/admin")}
    ensures reply.SignInFailed? ==> SignIn(form, reply).route.None? && SignIn(form, reply).toast != ""
  {
    if reply.SignInFailed? {
      FailureToastNonEmpty(reply.message);
    }
  }
}

=== FILE: cart.dfy ===
/** The cart ledger of src/context/CartContext.tsx: an ordered list of lines,
    each identified by a key built from the product id and the serialised
    modifiers; totals are always recomputed from the lines. */
module Cart {
  import opened Types
  import opened Seqs

  /** `${product.id}-${JSON.stringify(modifiers)}`. The serialisation is kept
      abstract: two keys are equal exactly when the product ids are equal and the
      modifiers values are equal entry by entry, in order (notes included). */
  datatype Key = Key(productId: int, fingerprint: Option<Modifiers>)

  /** What a caller hands to `addToCart`: the product record (its `price`
      already the unit price the caller wants billed), and the optional
      `basePrice`, `modifiers` and `modifiersData` fields. */
  datatype Item = Item(
    product: Product,
    basePrice: Option<int>,
    modifiers: Option<Modifiers>,
    groups: seq<ModifierGroup>)

  /** A cart line: the item's fields plus `cartId`, `quantity` and `basePrice`. */
  datatype Line = Line(item: Item, cartId: Key, quantity: int, basePrice: int)

  function Price(l: Line): int
  {
    l.item.product.price
  }

  function LineTotal(l: Line): int
  {
    Price(l) * l.quantity
  }

  function Quantity(l: Line): int
  {
    l.quantity
  }

  /** `generateCartId(product, modifiers)` */
  function GenerateCartId(product: Product, modifiers: Option<Modifiers>): Key
  {
    Key(product.id, modifiers)
  }

  /** Two adds share a line exactly when they have the same product id and
      the same modifiers value; differing notes or a differing entry order
      give different keys. */
  lemma GenerateCartIdSeparates(p1: Product, m1: Option<Modifiers>, p2: Product, m2: Option<Modifiers>)
    ensures GenerateCartId(p1, m1) == GenerateCartId(p2, m2) <==> p1.id == p2.id && m1 == m2
  {
  }

  function KeyOf(item: Item): Key
  {
    GenerateCartId(item.product, item.modifiers)
  }

  /** `cart.find(item => item.cartId === key)`, as the index of the first match. */
  function Find(cart: seq<Line>, key: Key): (r: Option<nat>)
    ensures r.Some? ==> r.value < |cart| && cart[r.value].cartId == key
    ensures r.Some? ==> forall j :: 0 <= j < r.value ==> cart[j].cartId != key
    ensures r.None? <==> forall j :: 0 <= j < |cart| ==> cart[j].cartId != key
  {
    FindFirst(cart, KeyedBy(key))
  }

  function KeyedBy(key: Key): Line -> bool
  {
    (l: Line) => l.cartId == key
  }

  predicate DistinctKeys(cart: seq<Line>)
  {
    forall i, j :: 0 <= i < j < |cart| ==> cart[i].cartId != cart[j].cartId
  }

  /** Every line's key is the one its own product and modifiers produce. */
  predicate KeysConsistent(cart: seq<Line>)
  {
    forall i :: 0 <= i < |cart| ==> cart[i].cartId == KeyOf(cart[i].item)
  }

  predicate Valid(cart: seq<Line>)
  {
    DistinctKeys(cart) && KeysConsistent(cart)
  }

  /** `cartTotal`: Σ price × quantity. */
  function CartTotal(cart: seq<Line>): int
  {
    SumOf(cart, LineTotal)
  }

  /** `cartCount`: Σ quantity. */
  function CartCount(cart: seq<Line>): int
  {
    SumOf(cart, Quantity)
  }

  /** `addToCart(product, quantity)`: merge into the line with the same key,
      or append a new line capturing `basePrice ?? price`. */
  function AddToCart(cart: seq<Line>, item: Item, quantity: int): (r: seq<Line>)
    // an existing key: same length, matching lines raised by `quantity`, others untouched
    ensures Find(cart, KeyOf(item)).Some? ==>
      && |r| == |cart|
      && (forall i :: 0 <= i < |cart| && cart[i].cartId == KeyOf(item) ==>
            r[i] == cart[i].(quantity := cart[i].quantity + quantity))
      && (forall i :: 0 <= i < |cart| && cart[i].cartId != KeyOf(item) ==> r[i] == cart[i])
    // a new key: exactly one line appended at the end
    ensures Find(cart, KeyOf(item)).None? ==>
      && |r| == |cart| + 1
      && r[..|cart|] == cart
      && r[|cart|].item == item
      && r[|cart|].cartId == KeyOf(item)
      && r[|cart|].quantity == quantity
      && r[|cart|].basePrice == item.basePrice.GetOr(item.product.price)
  {
    var key := KeyOf(item);
    if Find(cart, key).Some? then
      seq(|cart|, i requires 0 <= i < |cart| =>
        if cart[i].cartId == key then cart[i].(quantity := cart[i].quantity + quantity) else cart[i])
    else
      cart + [Line(item, key, quantity, item.basePrice.GetOr(item.product.price))]
  }

  /** The units the cart holds under `key`: the first matching line's
      quantity, or 0 when no line has the key. */
  function QtyAt(cart: seq<Line>, key: Key): int
  {
    match Find(cart, key)
    case None => 0
    case Some(i) => cart[i].quantity
  }

  /** Two carts with the same keys at the same positions find the same line. */
  lemma FindSameKeys(a: seq<Line>, b: seq<Line>, key: Key)
    requires |a| == |b| && forall j :: 0 <= j < |a| ==> a[j].cartId == b[j].cartId
    ensures Find(a, key) == Find(b, key)
  {
    match Find(a, key)
    case None =>
    case Some(k) =>
      assert Find(b, key).Some?;
  }

  /** Where `Find` lands once line `l` is appended. */
  lemma FindAppendLine(cart: seq<Line>, l: Line, key: Key)
    ensures Find(cart, key).Some? ==> Find(cart + [l], key) == Find(cart, key)
    ensures Find(cart, key).None? && l.cartId == key ==> Find(cart + [l], key) == Some(|cart|)
    ensures Find(cart, key).None? && l.cartId != key ==> Find(cart + [l], key).None?
  {
    var r := cart + [l];
    match Find(cart, key)
    case Some(k) =>
      assert r[k] == cart[k];
      assert Find(r, key).Some?;
    case None =>
      if l.cartId == key {
        assert r[|cart|] == l;
        assert Find(r, key).Some?;
      }
  }

  /** Adding raises the units under the item's key by the added quantity and
      leaves the units under every other key alone. */
  lemma AddToCartQtyAt(cart: seq<Line>, item: Item, quantity: int, key: Key)
    ensures QtyAt(AddToCart(cart, item, quantity), key) ==
      QtyAt(cart, key) + (if key == KeyOf(item) then quantity else 0)
  {
    var r := AddToCart(cart, item, quantity);
    if Find(cart, KeyOf(item)).Some? {
      FindSameKeys(cart, r, key);
    } else {
      assert r == cart + [r[|cart|]];
      FindAppendLine(cart, r[|cart|], key);
    }
  }

  /** Adding keeps every line's item and key in place, finds the item's key
      afterwards, keeps every key that was there, and any line it appends
      holds the item. */
  lemma AddToCartKeeps(cart: seq<Line>, item: Item, quantity: int)
    ensures var r := AddToCart(cart, item, quantity);
      && |cart| <= |r|
      && (forall j :: 0 <= j < |cart| ==> r[j].item == cart[j].item && r[j].cartId == cart[j].cartId)
      && (forall j :: |cart| <= j < |r| ==> r[j].item == item)
      && Find(r, KeyOf(item)).Some?
      && (forall key :: Find(cart, key).Some? ==> Find(r, key).Some?)
  {
    var r := AddToCart(cart, item, quantity);
    if Find(cart, KeyOf(item)).Some? {
      forall key ensures Find(r, key) == Find(cart, key) {
        FindSameKeys(cart, r, key);
      }
    } else {
      assert r == cart + [r[|cart|]];
      forall key ensures Find(cart, key).Some? ==> Find(r, key).Some? {
        FindAppendLine(cart, r[|cart|], key);
      }
      FindAppendLine(cart, r[|cart|], KeyOf(item));
    }
  }

  /** The value handed to `removeFromCart`. Its parameter is compared with
      `===` against the string `cartId`s, so a number never matches. */
  datatype RemoveArg = ByCartId(key: Key) | ByNumber(n: int)

  predicate Matches(l: Line, arg: RemoveArg)
  {
    arg.ByCartId? && l.cartId == arg.key
  }

  function FindArg(cart: seq<Line>, arg: RemoveArg): (r: Option<nat>)
    ensures r.Some? ==> r.value < |cart| && Matches(cart[r.value], arg)
    ensures r.None? <==> forall j :: 0 <= j < |cart| ==> !Matches(cart[j], arg)
  {
    match arg
    case ByCartId(key) => Find(cart, key)
    case ByNumber(_) => None
  }

  /** `removeFromCart(cartId)`: decrement the first matching line when its
      quantity exceeds 1, otherwise drop every matching line. */
  function RemoveFromCart(cart: seq<Line>, arg: RemoveArg): (r: seq<Line>)
    // absent key (or a non-string argument): nothing changes
    ensures FindArg(cart, arg).None? ==> r == cart
    // present with quantity > 1: that line loses exactly one unit
    ensures DistinctKeys(cart) && FindArg(cart, arg).Some? && cart[FindArg(cart, arg).value].quantity > 1 ==>
      var k := FindArg(cart, arg).value;
      && |r| == |cart|
      && r[k] == cart[k].(quantity := cart[k].quantity - 1)
      && (forall j :: 0 <= j < |cart| && j != k ==> r[j] == cart[j])
    // present with quantity <= 1: that line is deleted, the others keep their order
    ensures DistinctKeys(cart) && FindArg(cart, arg).Some? && cart[FindArg(cart, arg).value].quantity <= 1 ==>
      var k := FindArg(cart, arg).value;
      r == cart[..k] + cart[k + 1..]
  {
    var first := FindArg(cart, arg);
    if first.Some? && cart[first.value].quantity > 1 then
      seq(|cart|, i requires 0 <= i < |cart| =>
        if Matches(cart[i], arg) then cart[i].(quantity := cart[i].quantity - 1) else cart[i])
    else
      var p := (l: Line) => !Matches(l, arg);
      if first.None? then
        FilterAll(cart, p);
        Filter(cart, p)
      else
        FilterDropsOne(cart, p, first.value);
        Filter(cart, p)
  }

  /** `clearCart()` */
  function ClearCart(): (r: seq<Line>)
    ensures |r| == 0 && CartTotal(r) == 0 && CartCount(r) == 0
  {
    []
  }

  /** Adding `quantity` units raises the item count by exactly `quantity`. */
  lemma AddToCartCount(cart: seq<Line>, item: Item, quantity: int)
    requires DistinctKeys(cart)
    ensures CartCount(AddToCart(cart, item, quantity)) == CartCount(cart) + quantity
  {
    var r := AddToCart(cart, item, quantity);
    match Find(cart, KeyOf(item))
    case Some(k) =>
      SumOfPointUpdate(cart, r, Quantity, k);
    case None =>
      assert r == cart + [r[|cart|]];
      SumOfAppend(cart, [r[|cart|]], Quantity);
  }

  /** Adding raises the total by `quantity` units at the price of the line
      that receives them: the existing line's captured price on a merge, the
      item's price on a new line. */
  lemma AddToCartTotal(cart: seq<Line>, item: Item, quantity: int)
    requires DistinctKeys(cart)
    ensures CartTotal(AddToCart(cart, item, quantity)) == CartTotal(cart) +
      (match Find(cart, KeyOf(item))
       case Some(k) => Price(cart[k]) * quantity
       case None => item.product.price * quantity)
  {
    var r := AddToCart(cart, item, quantity);
    match Find(cart, KeyOf(item))
    case Some(k) =>
      SumOfPointUpdate(cart, r, LineTotal, k);
      assert LineTotal(r[k]) == Price(cart[k]) * (cart[k].quantity + quantity);
    case None =>
      assert r == cart + [r[|cart|]];
      SumOfAppend(cart, [r[|cart|]], LineTotal);
  }

  /** Removing a present key lowers the count by one unit, or by the whole
      line's quantity when the line is deleted. */
  lemma RemoveFromCartCount(cart: seq<Line>, key: Key)
    requires DistinctKeys(cart) && Find(cart, key).Some?
    ensures var k := Find(cart, key).value;
      CartCount(RemoveFromCart(cart, ByCartId(key))) ==
        CartCount(cart) - (if cart[k].quantity > 1 then 1 else cart[k].quantity)
  {
    var k := Find(cart, key).value;
    var r := RemoveFromCart(cart, ByCartId(key));
    if cart[k].quantity > 1 {
      SumOfPointUpdate(cart, r, Quantity, k);
    } else {
      assert cart == cart[..k] + [cart[k]] + cart[k + 1..];
      SumOfAppend(cart[..k] + [cart[k]], cart[k + 1..], Quantity);
      SumOfAppend(cart[..k], [cart[k]], Quantity);
      SumOfAppend(cart[..k], cart[k + 1..], Quantity);
    }
  }

  lemma AddToCartValid(cart: seq<Line>, item: Item, quantity: int)
    requires Valid(cart)
    ensures Valid(AddToCart(cart, item, quantity))
  {
  }

  lemma RemoveFromCartValid(cart: seq<Line>, arg: RemoveArg)
    requires Valid(cart)
    ensures Valid(RemoveFromCart(cart, arg))
  {
    var r := RemoveFromCart(cart, arg);
    var first := FindArg(cart, arg);
    if first.Some? && cart[first.value].quantity <= 1 {
      var k := first.value;
      assert r == cart[..k] + cart[k + 1..];
      assert forall i :: 0 <= i < |r| ==> r[i] == cart[if i < k then i else i + 1];
    }
  }

  /** A user action on the cart. */
  datatype CartOp = Add(item: Item, quantity: int) | Remove(arg: RemoveArg) | Clear

  function Step(cart: seq<Line>, op: CartOp): seq<Line>
  {
    match op
    case Add(item, q) => AddToCart(cart, item, q)
    case Remove(arg) => RemoveFromCart(cart, arg)
    case Clear => ClearCart()
  }

  function Run(cart: seq<Line>, ops: seq<CartOp>): seq<Line>
    decreases |ops|
  {
    if |ops| == 0 then cart else Run(Step(cart, ops[0]), ops[1..])
  }

  /** Keys stay pairwise distinct (and consistent) across any sequence of
      adds, removes and clears, starting from any valid cart. */
  lemma {:induction false} RunValid(cart: seq<Line>, ops: seq<CartOp>)
    requires Valid(cart)
    ensures Valid(Run(cart, ops))
    decreases |ops|
  {
    if |ops| > 0 {
      match ops[0] {
        case Add(item, q) => AddToCartValid(cart, item, q);
        case Remove(arg) => RemoveFromCartValid(cart, arg);
        case Clear =>
      }
      RunValid(Step(cart, ops[0]), ops[1..]);
    }
  }

  /** Adding the same item twice to a cart without its key gives one new
      line holding both quantities. */
  lemma AddTwiceMerges(cart: seq<Line>, item: Item, q1: int, q2: int)
    requires Find(cart, KeyOf(item)).None?
    ensures var r := AddToCart(AddToCart(cart, item, q1), item, q2);
      |r| == |cart| + 1 && r[..|cart|] == cart && r[|cart|].quantity == q1 + q2
  {
    var r1 := AddToCart(cart, item, q1);
    assert Find(r1, KeyOf(item)) == Some(|cart|) by {
      assert forall j :: 0 <= j < |cart| ==> r1[j] == cart[j];
    }
  }

  /** Adding two items whose keys differ (e.g. the same product with
      different notes) to a cart holding neither gives two separate lines. */
  lemma AddDifferentKeysSeparate(cart: seq<Line>, a: Item, b: Item)
    requires KeyOf(a) != KeyOf(b)
    requires Find(cart, KeyOf(a)).None? && Find(cart, KeyOf(b)).None?
    ensures var r := AddToCart(AddToCart(cart, a, 1), b, 1);
      |r| == |cart| + 2 && r[|cart|].cartId == KeyOf(a) && r[|cart| + 1].cartId == KeyOf(b)
  {
    var r1 := AddToCart(cart, a, 1);
    assert Find(r1, KeyOf(b)).None? by {
      assert forall j :: 0 <= j < |cart| ==> r1[j] == cart[j];
    }
  }
}

=== FILE: cart_drawer.dfy ===
/** The older slide-in cart (src/components/menu/CartDrawer.tsx): its
    quick checkout that writes the order and builds a WhatsApp message, and
    the +/- buttons on each line. `toLocaleString` is the `format`
    parameter; the two inserts' replies are inputs. */
module CartDrawer {
  import opened Types
  import opened Seqs
  import opened Cart
  import Decimal
  import Checkout

  datatype DrawerError = NameRequired | EmptyCart

  /** The two guards of `handleCheckout`, the name first. */
  function Guard(customerName: string, cart: seq<Line>): (r: Option<DrawerError>)
    ensures Checkout.Blank(customerName) ==> r == Some(NameRequired)
    ensures !Checkout.Blank(customerName) && |cart| == 0 ==> r == Some(EmptyCart)
    ensures r.None? <==> !Checkout.Blank(customerName) && |cart| > 0
  {
    if Checkout.Blank(customerName) then Some(NameRequired)
    else if |cart| == 0 then Some(EmptyCart)
    else None
  }

  /** The `orders` row: the name as typed, the cart total, status pending. */
  datatype DrawerOrder = DrawerOrder(customerName: string, totalPrice: int, status: string)

  /** An `order_items` row. */
  datatype DrawerItemRow = DrawerItemRow(orderId: int, productId: int, priceAtTime: int, quantity: int)

  /** `cart.map(...)`: one row per line, in cart order. */
  function ItemRows(orderId: int, cart: seq<Line>): (r: seq<DrawerItemRow>)
    ensures |r| == |cart|
    ensures forall i :: 0 <= i < |cart| ==>
      r[i] == DrawerItemRow(orderId, cart[i].item.product.id, Price(cart[i]), cart[i].quantity)
  {
    seq(|cart|, i requires 0 <= i < |cart| =>
      DrawerItemRow(orderId, cart[i].item.product.id, Price(cart[i]), cart[i].quantity))
  }

  function RowTotal(row: DrawerItemRow): int
  {
    row.priceAtTime * row.quantity
  }

  /** The item rows add up to the total written on the order row. */
  lemma {:induction false} ItemRowsTotal(orderId: int, cart: seq<Line>)
    ensures SumOf(ItemRows(orderId, cart), RowTotal) == CartTotal(cart)
  {
    if |cart| > 0 {
      ItemRowsTotal(orderId, cart[1..]);
      assert ItemRows(orderId, cart)[1..] == ItemRows(orderId, cart[1..]);
    }
  }

  function Header(customerName: string, orderId: int): string
  {
    "Halo Kak, saya *" + customerName + "* mau pesan (Order #" + Decimal.IntToString(orderId) + "):%0A%0A"
  }

  /** `- name xqty (Rp price×qty)` and a line break. */
  function ItemLine(l: Line, format: int -> string): string
  {
    "- " + l.item.product.name + " x" + Decimal.IntToString(l.quantity) + " (Rp " + format(LineTotal(l)) + ")%0A"
  }

  /** The `forEach` appending one item line per cart line. */
  function ItemLines(cart: seq<Line>, format: int -> string): string
  {
    if |cart| == 0 then "" else ItemLine(cart[0], format) + ItemLines(cart[1..], format)
  }

  function Footer(total: int, format: int -> string): string
  {
    "%0A*Total: Rp " + format(total) + "*%0A%0ATerima Kasih!"
  }

  /** The message: header, the item lines, and the footer with `cartTotal`. */
  function Message(customerName: string, orderId: int, cart: seq<Line>, format: int -> string): (r: string)
    ensures StartsWith(r, Header(customerName, orderId))
    ensures var f := Footer(CartTotal(cart), format);
      |f| <= |r| && r[|r| - |f|..] == f
    ensures var h, f := Header(customerName, orderId), Footer(CartTotal(cart), format);
      |h| + |f| <= |r| && r[|h|..|r| - |f|] == ItemLines(cart, format)
  {
    var h := Header(customerName, orderId);
    var f := Footer(CartTotal(cart), format);
    var r := h + ItemLines(cart, format) + f;
    assert r[..|h|] == h;
    assert r[|r| - |f|..] == f;
    assert r[|h|..|r| - |f|] == ItemLines(cart, format);
    r
  }

  /** The item lines follow the cart: two runs of lines give their texts in order. */
  lemma {:induction false} ItemLinesAppend(a: seq<Line>, b: seq<Line>, format: int -> string)
    ensures ItemLines(a + b, format) == ItemLines(a, format) + ItemLines(b, format)
  {
    if |a| == 0 {
      assert a + b == b;
    } else {
      assert (a + b)[0] == a[0] && (a + b)[1..] == a[1..] + b;
      ItemLinesAppend(a[1..], b, format);
    }
  }

  /** A string contains whatever sits between a prefix and a suffix of it. */
  lemma ContainsMiddle(a: string, x: string, b: string)
    ensures Contains(a + x + b, x)
  {
    var m := a + x + b;
    assert m[|a|..][..|x|] == x;
    ContainsAt(m, x, |a|);
  }

  lemma SplitAround(h: string, before: string, line: string, after: string, f: string)
    ensures h + (before + line + after) + f == (h + before) + line + (after + f)
  {
  }

  /** The item lines split around line `k`. */
  lemma ItemLinesAround(cart: seq<Line>, format: int -> string, k: nat)
    requires k < |cart|
    ensures ItemLines(cart, format)
      == ItemLines(cart[..k], format) + ItemLine(cart[k], format) + ItemLines(cart[k + 1..], format)
  {
    var a, b := cart[..k], cart[k..];
    assert cart == a + b;
    ItemLinesAppend(a, b, format);
    assert b[0] == cart[k] && b[1..] == cart[k + 1..];
    ItemLinesCons(b, format);
    ConcatAssoc(ItemLines(a, format), ItemLine(cart[k], format), ItemLines(cart[k + 1..], format));
  }

  lemma ItemLinesCons(b: seq<Line>, format: int -> string)
    requires |b| > 0
    ensures ItemLines(b, format) == ItemLine(b[0], format) + ItemLines(b[1..], format)
  {
  }

  /** Every cart line's text appears in the message, line `k` right after
      the header and the lines before it: one line per cart line, in cart order. */
  lemma MessageNamesEveryLine(customerName: string, orderId: int, cart: seq<Line>, format: int -> string, k: nat)
    requires k < |cart|
    ensures Contains(Message(customerName, orderId, cart, format), ItemLine(cart[k], format))
    ensures var m, line := Message(customerName, orderId, cart, format), ItemLine(cart[k], format);
      var at := |Header(customerName, orderId)| + |ItemLines(cart[..k], format)|;
      at + |line| <= |m| && m[at..at + |line|] == line
  {
    var h := Header(customerName, orderId);
    var f := Footer(CartTotal(cart), format);
    var line := ItemLine(cart[k], format);
    var before := ItemLines(cart[..k], format);
    var after := ItemLines(cart[k + 1..], format);
    ItemLinesAround(cart, format, k);
    var m := Message(customerName, orderId, cart, format);
    assert m == h + ItemLines(cart, format) + f;
    SplitAround(h, before, line, after, f);
    ContainsMiddle(h + before, line, after + f);
    LineAt(h + before, line, after + f);
  }

  /** The middle of `a + x + b` sits at offset `|a|`. */
  lemma LineAt(a: string, x: string, b: string)
    ensures (a + x + b)[|a|..|a| + |x|] == x
  {
  }

  const WhatsAppPrefix: string := "https://wa.me/6282325255305?text="

  /** What the store did with each insert: the id of the new order row (or
      nothing when that insert failed), and whether the item rows went in. */
  datatype StoreReplies = StoreReplies(orderId: Option<int>, itemsStored: bool)

  datatype DrawerOutcome =
    | Refused(reason: DrawerError)
    | Failed(orderWritten: Option<DrawerOrder>, itemsTried: seq<DrawerItemRow>)
    | Sent(order: DrawerOrder, items: seq<DrawerItemRow>, url: string, cartAfter: seq<Line>, nameAfter: string)

  /** `handleCheckout`. A failed item insert leaves the order row written:
      the two inserts are not one transaction. */
  function HandleCheckout(customerName: string, cart: seq<Line>, replies: StoreReplies, format: int -> string): (r: DrawerOutcome)
    ensures r.Refused? <==> Guard(customerName, cart).Some?
    ensures r.Refused? ==> r.reason == Guard(customerName, cart).value
    ensures r.Sent? ==> r.order == DrawerOrder(customerName, CartTotal(cart), "pending")
    ensures r.Sent? ==> replies.orderId.Some? && r.items == ItemRows(replies.orderId.value, cart)
    ensures r.Sent? ==> r.cartAfter == [] && r.nameAfter == ""
    ensures r.Sent? && replies.orderId.Some? ==> r.url == WhatsAppPrefix + Message(customerName, replies.orderId.value, cart, format)
    ensures r.Sent? <==> Guard(customerName, cart).None? && replies.orderId.Some? && replies.itemsStored
    ensures r.Failed? && replies.orderId.None? ==> r.orderWritten.None? && r.itemsTried == []
    ensures r.Failed? && replies.orderId.Some? ==>
      && r.orderWritten == Some(DrawerOrder(customerName, CartTotal(cart), "pending"))
      && r.itemsTried == ItemRows(replies.orderId.value, cart)
  {
    match Guard(customerName, cart)
    case Some(e) => Refused(e)
    case None =>
      var order := DrawerOrder(customerName, CartTotal(cart), "pending");
      match replies.orderId
      case None => Failed(None, [])
      case Some(id) =>
        if !replies.itemsStored then Failed(Some(order), ItemRows(id, cart))
        else Sent(order, ItemRows(id, cart), WhatsAppPrefix + Message(customerName, id, cart, format), ClearCart(), "")
  }

  // ---------------------------------------------------------------------
  // The +/- buttons

  /** What the plus button hands to `addToCart`: the line itself, whose
      `modifiers` are the ones its key was made from. */
  function PlusItem(l: Line): Item
  {
    l.item.(basePrice := Some(l.basePrice))
  }

  /** The plus button raises that same line by one and leaves the rest alone. */
  lemma PlusIncrementsSameLine(cart: seq<Line>, k: nat)
    requires Valid(cart) && k < |cart|
    ensures AddToCart(cart, PlusItem(cart[k]), 1) == cart[k := cart[k].(quantity := cart[k].quantity + 1)]
  {
    assert KeyOf(PlusItem(cart[k])) == cart[k].cartId;
    assert Find(cart, cart[k].cartId).Some?;
  }

  /** The minus button as written: `removeFromCart(item.id)` passes the
      numeric product id where a string `cartId` is expected. */
  function MinusAsWritten(cart: seq<Line>, k: nat): seq<Line>
    requires k < |cart|
  {
    RemoveFromCart(cart, ByNumber(cart[k].item.product.id))
  }

  /** The number matches no `cartId`, so the button never changes the cart. */
  lemma MinusAsWrittenIsNoOp(cart: seq<Line>, k: nat)
    requires k < |cart|
    ensures MinusAsWritten(cart, k) == cart
  {
  }

  /** A concrete cart where pressing minus on a line of two leaves two. */
  lemma MinusAsWrittenCounterexample()
    ensures var l := Line(Item(Product(7, "Latte", 25000, "Hot Coffee", None, false, None, []), None, None, []),
                          Key(7, None), 2, 25000);
      MinusAsWritten([l], 0)[0].quantity == 2
  {
  }

  /** The minus button as evidently intended: `removeFromCart(item.cartId)`. */
  function Minus(cart: seq<Line>, k: nat): (r: seq<Line>)
    requires Valid(cart) && k < |cart|
    ensures cart[k].quantity > 1 ==> r == cart[k := cart[k].(quantity := cart[k].quantity - 1)]
    ensures cart[k].quantity <= 1 ==> r == cart[..k] + cart[k + 1..]
    ensures Valid(r)
  {
    FirstIsOnly(cart, k);
    RemoveFromCartValid(cart, ByCartId(cart[k].cartId));
    var r := RemoveFromCart(cart, ByCartId(cart[k].cartId));
    assert cart[k].quantity > 1 ==> r == cart[k := cart[k].(quantity := cart[k].quantity - 1)];
    r
  }

  /** With distinct keys, a line's key is found at that line. */
  lemma FirstIsOnly(cart: seq<Line>, k: nat)
    requires DistinctKeys(cart) && k < |cart|
    ensures Find(cart, cart[k].cartId) == Some(k)
    ensures FindArg(cart, ByCartId(cart[k].cartId)) == Some(k)
  {
  }

  /** Pressing plus and then the intended minus on a line gives the cart back. */
  lemma PlusThenMinus(cart: seq<Line>, k: nat)
    requires Valid(cart) && k < |cart| && cart[k].quantity >= 1
    ensures Minus(AddToCart(cart, PlusItem(cart[k]), 1), k) == cart
  {
    PlusIncrementsSameLine(cart, k);
    AddToCartValid(cart, PlusItem(cart[k]), 1);
  }
}

=== FILE: catalog.dfy ===
/** The price shown on a menu card (src/components/menu/ProductCard.tsx):
    a bundle is shown with the crossed-out price of its parts when that is
    higher than the bundle's own price. */
module ProductCard {
  import opened Types
  import opened Seqs

  /** `(curr.products?.price || 0) * curr.quantity` */
  function PartValue(b: BundleItem): int
  {
    b.childPrice.GetOr(0) * b.quantity
  }

  /** `originalPrice`: the parts' value for a bundle that has bundle rows
      (an empty list counts), 0 otherwise. */
  function OriginalPrice(p: Product): (r: int)
    ensures !p.isBundle || p.bundles.None? ==> r == 0
    ensures (forall b :: b in p.bundles.GetOr([]) ==> b.childPrice.GetOr(0) >= 0 && b.quantity >= 0) ==> r >= 0
  {
    if p.isBundle && p.bundles.Some? then
      SumOfNonNegativeParts(p.bundles.value);
      SumOf(p.bundles.value, PartValue)
    else 0
  }

  lemma SumOfNonNegativeParts(parts: seq<BundleItem>)
    ensures (forall b :: b in parts ==> b.childPrice.GetOr(0) >= 0 && b.quantity >= 0) ==> SumOf(parts, PartValue) >= 0
  {
    if forall b :: b in parts ==> b.childPrice.GetOr(0) >= 0 && b.quantity >= 0 {
      forall i | 0 <= i < |parts|
        ensures PartValue(parts[i]) >= 0
      {
        assert parts[i] in parts;
      }
      SumOfNonNegative(parts, PartValue);
    }
  }

  /** A part row added to a bundle adds its own value to the original price. */
  lemma OriginalPriceAddPart(p: Product, b: BundleItem)
    requires p.isBundle && p.bundles.Some?
    ensures OriginalPrice(p.(bundles := Some(p.bundles.value + [b]))) == OriginalPrice(p) + PartValue(b)
  {
    SumOfAppend(p.bundles.value, [b], PartValue);
    assert [b][1..] == [];
  }

  /** `hasDiscount` */
  predicate HasDiscount(p: Product)
  {
    p.isBundle && OriginalPrice(p) > p.price
  }

  /** For a product with a non-negative price, the crossed-out price shows
      exactly for bundles with rows whose parts are worth more than the bundle. */
  lemma HasDiscountIff(p: Product)
    requires p.price >= 0
    ensures HasDiscount(p) <==> p.isBundle && p.bundles.Some? && SumOf(p.bundles.value, PartValue) > p.price
  {
  }

  /** `hasModifiers`: a non-empty modifier list. */
  predicate HasModifiers(p: Product)
  {
    |p.modifiers| > 0
  }

  /** The card's button text. */
  function ButtonLabel(p: Product): (r: string)
    ensures r == "Customize" <==> HasModifiers(p)
    ensures r == "Add" <==> !HasModifiers(p)
  {
    if HasModifiers(p) then "Customize" else "Add"
  }
}

/** The category tabs of the menu page (src/pages/Menu.tsx). */
module Menu {
  import opened Types
  import opened Seqs

  const Categories: seq<string> := ["All", "Bundles", "Signatures", "Hot Coffee", "Iced", "Tea", "Pastry"]

  /** "All" shows everything, "Bundles" the bundles, any other tab the
      products of exactly that category. */
  predicate Shown(p: Product, active: string)
  {
    if active == "All" then true
    else if active == "Bundles" then p.isBundle
    else p.category == active
  }

  function ShownIn(active: string): Product -> bool
  {
    (p: Product) => Shown(p, active)
  }

  /** `filteredProducts`: every copy of a shown product, in list order. */
  function FilteredProducts(products: seq<Product>, active: string): (r: seq<Product>)
    ensures IsSubsequence(r, products)
    ensures forall p :: p in r <==> p in products && Shown(p, active)
    ensures forall p :: multiset(r)[p] == if Shown(p, active) then multiset(products)[p] else 0
    ensures active == "All" ==> r == products
  {
    FilterIsSubsequence(products, ShownIn(active));
    FilterCounts(products, ShownIn(active));
    if active == "All" then
      FilterAll(products, ShownIn(active));
      Filter(products, ShownIn(active))
    else
      Filter(products, ShownIn(active))
  }

  /** The tabs that name a category. */
  const CategoryTabs: seq<string> := Categories[2..]

  /** The category tabs partition the listed products whose category has a
      tab: each shows under its own category's tab and under no other. */
  lemma CategoryTabsPartition(products: seq<Product>, p: Product)
    requires p in products && p.category in CategoryTabs
    ensures p in FilteredProducts(products, p.category)
    ensures forall c :: c in CategoryTabs && c != p.category ==> p !in FilteredProducts(products, c)
  {
    assert "All" !in CategoryTabs && "Bundles" !in CategoryTabs;
    forall c | c in CategoryTabs && c != p.category
      ensures p !in FilteredProducts(products, c)
    {
      assert !Shown(p, c);
    }
  }

  /** Choosing the same tab again shows the same list. */
  lemma FilteredProductsIdempotent(products: seq<Product>, active: string)
    ensures FilteredProducts(FilteredProducts(products, active), active) == FilteredProducts(products, active)
  {
    var once := FilteredProducts(products, active);
    FilterAll(once, ShownIn(active));
  }
}

=== FILE: checkout.dfy ===
/** The checkout page of src/pages/Checkout.tsx: applying a promotion code,
    the points clamp, the final total and earn estimate, the order id, the
    validation and record building of `placeOrder`, and the per-group
    add-on lines shown for each cart line. */
module Checkout {
  import opened Types
  import opened Seqs
  import opened SelectionRecord
  import opened Cart
  import opened Promotions
  import opened ProductModal
  import opened Decimal

  // ---------------------------------------------------------------------
  // Points and totals
  // ---------------------------------------------------------------------

  /** `Math.max(0, Number(points_balance || 0))`: a missing or negative balance counts as 0. */
  function AvailablePoints(balance: Option<int>): (r: int)
    ensures r >= 0
    ensures balance.Some? && balance.value >= 0 ==> r == balance.value
    ensures balance.None? || balance.value < 0 ==> r == 0
  {
    if balance.Some? && balance.value > 0 then balance.value else 0
  }

  /** `pointsToUse`: nothing for a guest or with the toggle off; otherwise
      the largest amount that neither exceeds the available points nor the
      total left after the promotion. */
  function PointsToUse(signedIn: bool, useAll: bool, available: int, cartTotal: int, discount: int): (r: int)
    ensures r >= 0
    ensures !signedIn || !useAll ==> r == 0
    ensures r > 0 ==> r <= available && r <= cartTotal - discount
    ensures signedIn && useAll && available >= 0 && cartTotal - discount >= 0 ==>
      r == available || r == cartTotal - discount
  {
    if !signedIn || !useAll then 0
    else
      var cap := if available < cartTotal - discount then available else cartTotal - discount;
      if cap > 0 then cap else 0
  }

  /** `finalTotal = Math.max(0, cartTotal - discountAmount - pointsToUse)` */
  function FinalTotal(cartTotal: int, discount: int, points: int): (r: int)
    ensures r >= 0 && r >= cartTotal - discount - points
    ensures r == 0 || r == cartTotal - discount - points
  {
    if cartTotal - discount - points > 0 then cartTotal - discount - points else 0
  }

  /** `Math.floor(finalTotal * 0.005)`: one point per 200 rupiah, rounded down. */
  function EstimatedPointsEarned(finalTotal: int): (r: int)
    ensures r * 200 <= finalTotal < r * 200 + 200
  {
    finalTotal / 200
  }

  /** When the discount does not exceed the cart total, the points spent
      never overdraw the balance, discount and points together stay within
      the cart total, and the floor at 0 in the final total is inactive. */
  lemma PricingBalances(signedIn: bool, useAll: bool, balance: Option<int>, cartTotal: int, discount: int)
    requires 0 <= discount <= cartTotal
    ensures var points := PointsToUse(signedIn, useAll, AvailablePoints(balance), cartTotal, discount);
      && 0 <= points <= AvailablePoints(balance)
      && discount + points <= cartTotal
      && FinalTotal(cartTotal, discount, points) == cartTotal - discount - points
  {
  }

  // ---------------------------------------------------------------------
  // Applying a promotion code
  // ---------------------------------------------------------------------

  /** The promotion part of the page state: `discountAmount`, `appliedPromo`
      and `promoError` (`None` for the empty message). */
  datatype PromoState = PromoState(discount: int, applied: Option<Promotion>, error: Option<PromoError>)

  /** `handleApplyPromo`. A blank code changes nothing. Otherwise the discount
      and the applied promotion are reset, the promotion stored under the
      upper-cased code is looked up (`lookup` stands for the database query),
      and either it is applied with its computed discount or the reason it
      failed is shown. The discount is not recomputed when the cart changes
      afterwards. */
  function ApplyPromo(st: PromoState, code: string, lookup: string -> Option<Promotion>,
                      cart: seq<Line>, now: int): (r: PromoState)
    ensures Trim(code) == "" ==> r == st
    ensures Trim(code) != "" ==> (r.applied.Some? <==> r.error.None?)
    ensures Trim(code) != "" && r.applied.Some? ==>
      r.applied == lookup(Upper(code)) && CalculateDiscount(r.applied.value, cart, now) == Ok(r.discount)
    ensures Trim(code) != "" && r.applied.None? ==> r.discount == 0
    ensures Trim(code) != "" && lookup(Upper(code)).None? ==> r.error == Some(InvalidCode)
    ensures Trim(code) != "" && lookup(Upper(code)).Some? ==>
      var outcome := CalculateDiscount(lookup(Upper(code)).value, cart, now);
      outcome.Err? ==> r.error == Some(outcome.error)
    ensures Trim(code) != "" && lookup(Upper(code)).Some? ==>
      var outcome := CalculateDiscount(lookup(Upper(code)).value, cart, now);
      outcome.Ok? ==> r == PromoState(outcome.value, lookup(Upper(code)), None)
  {
    if Trim(code) == "" then st
    else
      match lookup(Upper(code))
      case None => PromoState(0, None, Some(InvalidCode))
      case Some(p) =>
        match CalculateDiscount(p, cart, now)
        case Ok(d) => PromoState(d, Some(p), None)
        case Err(e) => PromoState(0, None, Some(e))
  }

  /** The conditions under which a stored promotion's discount stays
      within the cart: a non-negative value, at most 100 for a percentage. */
  predicate WellFormedPromotion(p: Promotion)
  {
    0 <= p.value && (p.kind == Percentage ==> p.value <= 100)
  }

  /** An applied promotion never discounts more than the cart is worth. */
  lemma ApplyPromoWithinTotal(st: PromoState, code: string, lookup: string -> Option<Promotion>,
                              cart: seq<Line>, now: int)
    requires Trim(code) != "" && NonNegativeLines(cart)
    ensures var r := ApplyPromo(st, code, lookup, cart, now);
      r.applied.Some? && WellFormedPromotion(r.applied.value) ==> 0 <= r.discount <= CartTotal(cart)
  {
    var r := ApplyPromo(st, code, lookup, cart, now);
    if r.applied.Some? && WellFormedPromotion(r.applied.value) {
      DiscountWithinTotal(r.applied.value, cart, now);
    }
  }

  /** Pressing "apply" twice with the same code and cart gives the state
      the first press gave: the outcome does not depend on the state before. */
  lemma ApplyPromoIdempotent(st: PromoState, code: string, lookup: string -> Option<Promotion>,
                             cart: seq<Line>, now: int)
    ensures var once := ApplyPromo(st, code, lookup, cart, now);
      ApplyPromo(once, code, lookup, cart, now) == once
  {
  }

  // ---------------------------------------------------------------------
  // Order id
  // ---------------------------------------------------------------------

  /** `Math.floor(100 + Math.random() * 900)` for a random `r` in [0, 1). */
  function Suffix(r: real): (s: int)
    requires 0.0 <= r < 1.0
    ensures 100 <= s <= 999
  {
    (100.0 + r * 900.0).Floor
  }

  /** The text handed to `parseInt`: the last two characters of the year,
      the zero-padded month and day, then the three-digit suffix. */
  function OrderIdText(year: nat, month: nat, day: nat, suffix: nat): string
    requires month < 100 && day < 100
  {
    Last2(ToDecimal(year)) + Pad2(month) + Pad2(day) + ToDecimal(suffix)
  }

  /** The date as the number YYMMDD: two-digit year, month, day. */
  function DateStamp(year: nat, month: nat, day: nat): nat
  {
    (year % 100) * 10000 + month * 100 + day
  }

  /** A number from 100 to 999 has three decimal digits. */
  lemma ThreeDigits(n: nat)
    requires 100 <= n <= 999
    ensures |ToDecimal(n)| == 3
  {
    assert |ToDecimal(n / 100)| == 1;
    assert |ToDecimal(n / 10)| == 2;
  }

  lemma SplitThousands(x: nat, s: nat)
    requires s < 1000
    ensures (x * 1000 + s) / 1000 == x && (x * 1000 + s) % 1000 == s
  {
  }

  /** The order id text is all digits and is worth
      `((yy * 100 + month) * 100 + day) * 1000 + suffix`. */
  lemma OrderIdTextValue(year: nat, month: nat, day: nat, suffix: nat)
    requires month < 100 && day < 100 && 100 <= suffix <= 999
    ensures AllDigitsIn(OrderIdText(year, month, day, suffix), 10)
    ensures |OrderIdText(year, month, day, suffix)| > 0
    ensures ValueIn(OrderIdText(year, month, day, suffix), 10) == DateStamp(year, month, day) * 1000 + suffix
  {
    var y := Last2(ToDecimal(year));
    var m, d, s := Pad2(month), Pad2(day), ToDecimal(suffix);
    Last2Value(ToDecimal(year));
    ThreeDigits(suffix);
    assert Pow(10, 2) == 100 by {
      assert Pow(10, 2) == 10 * Pow(10, 1) == 10 * 10;
    }
    assert Pow(10, 3) == 1000 by {
      assert Pow(10, 3) == 10 * Pow(10, 2);
    }
    ValueInAppend(y, m, 10);
    ValueInAppend(y + m, d, 10);
    ValueInAppend(y + m + d, s, 10);
    DateNumber(year % 100, month, day, suffix);
  }

  lemma DateNumber(y: nat, m: nat, d: nat, s: nat)
    ensures ((y * 100 + m) * 100 + d) * 1000 + s == (y * 10000 + m * 100 + d) * 1000 + s
  {
  }

  /** A non-empty string of decimal digits is read back by `parseInt` as its value. */
  lemma ParseIntOfDigitString(text: string, v: int)
    requires |text| > 0 && AllDigitsIn(text, 10) && ValueIn(text, 10) == v
    ensures ParseInt(text) == Some(v)
  {
    if |text| >= 2 {
      DecimalDigitIsPlain(text[1]);
    }
    ParseIntDigits(text);
  }

  /** `parseInt` reads the order id text back as the number it spells. */
  lemma OrderIdParses(year: nat, month: nat, day: nat, suffix: nat, text: string, v: int)
    requires month < 100 && day < 100 && 100 <= suffix <= 999
    requires text == OrderIdText(year, month, day, suffix)
    requires v == DateStamp(year, month, day) * 1000 + suffix
    ensures ParseInt(text) == Some(v)
  {
    OrderIdTextValue(year, month, day, suffix);
    ParseIntOfDigitString(text, v);
  }

  lemma OrderIdReadsBack(year: nat, month: int, day: int, s: int, text: string)
    requires 1 <= month <= 12 && 1 <= day <= 31 && 100 <= s <= 999
    requires text == OrderIdText(year, month, day, s)
    ensures ParseInt(text).Some?
    ensures ParseInt(text).value / 1000 == DateStamp(year, month, day)
    ensures ParseInt(text).value % 1000 == s
  {
    var stamp := DateStamp(year, month, day);
    OrderIdParses(year, month, day, s, text, stamp * 1000 + s);
    SplitThousands(stamp, s);
  }

  /** `parseInt` applied to the order id text. */
  function ReadOrderId(year: nat, month: int, day: int, s: int, text: string): (id: int)
    requires 1 <= month <= 12 && 1 <= day <= 31 && 100 <= s <= 999
    requires text == OrderIdText(year, month, day, s)
    ensures id / 1000 == DateStamp(year, month, day) && id % 1000 == s
  {
    OrderIdReadsBack(year, month, day, s, text);
    ParseInt(text).value
  }

  /** `generateOrderId()` on the given calendar date (month 1–12 and day
      1–31 as `getMonth() + 1` and `getDate()` give them) and random draw:
      the decimal YYMMDD followed by a three-digit suffix. */
  function GenerateOrderId(year: nat, month: int, day: int, r: real): (id: int)
    requires 1 <= month <= 12 && 1 <= day <= 31 && 0.0 <= r < 1.0
    ensures 100 <= id % 1000 <= 999
    ensures id % 1000 == Suffix(r)
    ensures id / 1000 == DateStamp(year, month, day)
  {
    var s := Suffix(r);
    ReadOrderId(year, month, day, s, OrderIdText(year, month, day, s))
  }

  /** Two ids are equal only for the same two-digit year, month, day and
      suffix: the id determines the date it was made on. */
  lemma OrderIdDeterminesDate(y1: nat, m1: int, d1: int, r1: real, y2: nat, m2: int, d2: int, r2: real)
    requires 1 <= m1 <= 12 && 1 <= d1 <= 31 && 0.0 <= r1 < 1.0
    requires 1 <= m2 <= 12 && 1 <= d2 <= 31 && 0.0 <= r2 < 1.0
    ensures GenerateOrderId(y1, m1, d1, r1) == GenerateOrderId(y2, m2, d2, r2) ==>
      y1 % 100 == y2 % 100 && m1 == m2 && d1 == d2 && Suffix(r1) == Suffix(r2)
  {
    var id := GenerateOrderId(y1, m1, d1, r1);
    if id == GenerateOrderId(y2, m2, d2, r2) {
      assert id / 1000 == DateStamp(y1, m1, d1) && id / 1000 == DateStamp(y2, m2, d2);
      DateStampInjective(y1, m1, d1, y2, m2, d2);
    }
  }

  /** Distinct dates (up to the two-digit year) have distinct stamps. */
  lemma DateStampInjective(y1: nat, m1: int, d1: int, y2: nat, m2: int, d2: int)
    requires 1 <= m1 <= 12 && 1 <= d1 <= 31 && 1 <= m2 <= 12 && 1 <= d2 <= 31
    requires DateStamp(y1, m1, d1) == DateStamp(y2, m2, d2)
    ensures y1 % 100 == y2 % 100 && m1 == m2 && d1 == d2
  {
    SplitHundreds(y1 % 100, m1 * 100 + d1, 10000);
    SplitHundreds(y2 % 100, m2 * 100 + d2, 10000);
    SplitHundreds(m1, d1, 100);
    SplitHundreds(m2, d2, 100);
  }

  lemma SplitHundreds(hi: nat, lo: nat, base: nat)
    requires base == 100 || base == 10000
    requires lo < base
    ensures (hi * base + lo) / base == hi && (hi * base + lo) % base == lo
  {
    if base == 100 {
      assert (hi * 100 + lo) / 100 == hi;
    } else {
      assert (hi * 10000 + lo) / 10000 == hi;
    }
  }

  // ---------------------------------------------------------------------
  // Placing an order
  // ---------------------------------------------------------------------

  datatype OrderType = Delivery | Takeaway

  /** The checkout form fields. */
  datatype Form = Form(
    name: string,
    phone: string,
    orderType: OrderType,
    address: string,
    mapsLink: string,
    notes: string)

  /** The reasons `placeOrder` stops before writing. */
  datatype CheckoutError = MissingName | MissingPhone | MissingDeliveryLocation

  /** Everything else the page knows at submission time. */
  datatype Session = Session(
    user: Option<string>,
    availablePoints: int,
    useAllPoints: bool,
    promo: PromoState)

  /** The `orders` row `placeOrder` inserts. */
  datatype OrderRecord = OrderRecord(
    id: int,
    customerName: string,
    customerPhone: string,
    address: Option<string>,
    mapsLink: Option<string>,
    orderType: OrderType,
    notes: Option<string>,
    subtotal: int,
    discountTotal: int,
    totalPrice: int,
    promoCodeUsed: Option<string>,
    pointsUsed: int,
    status: string,
    userId: Option<string>)

  /** One `order_items` row. */
  datatype OrderItemRow = OrderItemRow(
    orderId: int,
    productId: int,
    priceAtTime: int,
    quantity: int,
    notes: Option<string>,
    modifiers: Option<Selections>)

  predicate Blank(s: string)
  {
    Trim(s) == ""
  }

  /** `value || null` for a string. */
  function OrNull(s: string): Option<string>
  {
    if s == "" then None else Some(s)
  }

  /** The checks of `placeOrder`, in order: name, phone, then for delivery
      an address or a map link. */
  function Validate(f: Form): (r: Result<(), CheckoutError>)
    ensures Blank(f.name) ==> r == Err(MissingName)
    ensures !Blank(f.name) && Blank(f.phone) ==> r == Err(MissingPhone)
    ensures !Blank(f.name) && !Blank(f.phone) && f.orderType == Delivery && Blank(f.address) && Blank(f.mapsLink) ==>
      r == Err(MissingDeliveryLocation)
    ensures r.Ok? <==>
      (!Blank(f.name) && !Blank(f.phone) && (f.orderType == Takeaway || !Blank(f.address) || !Blank(f.mapsLink)))
  {
    if Blank(f.name) then Err(MissingName)
    else if Blank(f.phone) then Err(MissingPhone)
    else if f.orderType == Takeaway || !Blank(f.address) || !Blank(f.mapsLink) then Ok(())
    else Err(MissingDeliveryLocation)
  }

  /** The points this session spends on `cart`. */
  function SessionPoints(s: Session, cart: seq<Line>): int
  {
    PointsToUse(s.user.Some?, s.useAllPoints, s.availablePoints, CartTotal(cart), s.promo.discount)
  }

  /** The order row: location fields only for delivery, the promotion's
      discount and the points spent together as `discount_total`, the final
      total as `total_price`, no points recorded for a guest, and status
      `pending`. */
  function BuildOrder(f: Form, s: Session, cart: seq<Line>, id: int): (o: OrderRecord)
    ensures o.id == id && o.customerName == f.name && o.customerPhone == f.phone
    ensures f.orderType == Takeaway ==> o.address.None? && o.mapsLink.None?
    ensures f.orderType == Delivery ==> o.address == Some(f.address) && o.mapsLink == Some(f.mapsLink)
    ensures o.subtotal == CartTotal(cart)
    ensures o.discountTotal == s.promo.discount + SessionPoints(s, cart)
    ensures o.totalPrice == FinalTotal(CartTotal(cart), s.promo.discount, SessionPoints(s, cart))
    ensures o.totalPrice >= 0
    ensures s.user.None? ==> o.pointsUsed == 0
    ensures s.user.Some? ==> o.pointsUsed == SessionPoints(s, cart)
    ensures o.pointsUsed >= 0
    ensures o.status == "pending"
    ensures o.orderType == f.orderType
    ensures o.notes == OrNull(f.notes)
    ensures s.promo.applied.None? ==> o.promoCodeUsed.None?
    ensures s.promo.applied.Some? ==> o.promoCodeUsed == OrNull(s.promo.applied.value.code)
    ensures o.userId == (if s.user.Some? then OrNull(s.user.value) else None)
  {
    var points := SessionPoints(s, cart);
    var delivery := f.orderType == Delivery;
    OrderRecord(
      id, f.name, f.phone,
      if delivery then Some(f.address) else None,
      if delivery then Some(f.mapsLink) else None,
      f.orderType,
      OrNull(f.notes),
      CartTotal(cart),
      s.promo.discount + points,
      FinalTotal(CartTotal(cart), s.promo.discount, points),
      if s.promo.applied.Some? then OrNull(s.promo.applied.value.code) else None,
      if s.user.Some? then points else 0,
      "pending",
      if s.user.Some? then OrNull(s.user.value) else None)
  }

  /** One `order_items` row for a cart line. */
  function ItemRow(id: int, l: Line): OrderItemRow
  {
    OrderItemRow(
      id, l.item.product.id, Price(l), l.quantity,
      if l.item.modifiers.Some? then OrNull(l.item.modifiers.value.notes) else None,
      if l.item.modifiers.Some? then Some(l.item.modifiers.value.selections) else None)
  }

  /** `cart.map(...)`: one row per line, in cart order, each priced at the
      line's price; the notes are stored only when the line has non-empty
      notes, the selections whenever the line has modifiers. */
  function OrderItems(id: int, cart: seq<Line>): (rows: seq<OrderItemRow>)
    ensures |rows| == |cart|
    ensures forall i :: 0 <= i < |cart| ==>
      && rows[i].orderId == id
      && rows[i].productId == cart[i].item.product.id
      && rows[i].priceAtTime == Price(cart[i])
      && rows[i].quantity == cart[i].quantity
    ensures forall i :: 0 <= i < |cart| ==>
      && (rows[i].notes.Some? <==> cart[i].item.modifiers.Some? && cart[i].item.modifiers.value.notes != "")
      && (rows[i].notes.Some? ==> rows[i].notes.value == cart[i].item.modifiers.value.notes)
    ensures forall i :: 0 <= i < |cart| ==>
      && (rows[i].modifiers.Some? <==> cart[i].item.modifiers.Some?)
      && (rows[i].modifiers.Some? ==> rows[i].modifiers.value == cart[i].item.modifiers.value.selections)
  {
    seq(|cart|, i requires 0 <= i < |cart| => ItemRow(id, cart[i]))
  }

  function RowTotal(row: OrderItemRow): int
  {
    row.priceAtTime * row.quantity
  }

  /** The written item rows add up to the order's subtotal. */
  lemma {:induction false} OrderItemsTotal(id: int, cart: seq<Line>)
    ensures SumOf(OrderItems(id, cart), RowTotal) == CartTotal(cart)
  {
    if |cart| > 0 {
      OrderItemsTotal(id, cart[1..]);
      assert OrderItems(id, cart)[1..] == OrderItems(id, cart[1..]);
    }
  }

  /** What a submission leads to. `Submitted` lists the rows actually
      stored: the order row is written first, the item rows second, with no
      transaction between them. */
  datatype PlaceOutcome =
    | AlreadySubmitting
    | Rejected(reason: CheckoutError)
    | Submitted(orders: seq<OrderRecord>, items: seq<OrderItemRow>, cartAfter: seq<Line>)

  /** `placeOrder()`. `id` is the generated order id; `orderStored` and
      `itemsStored` stand for the outcome of the two inserts. The cart is
      cleared only when both succeed. */
  function PlaceOrder(submitting: bool, f: Form, s: Session, cart: seq<Line>, id: int,
                      orderStored: bool, itemsStored: bool): (r: PlaceOutcome)
    ensures submitting ==> r == AlreadySubmitting
    ensures !submitting && Validate(f).Err? ==> r == Rejected(Validate(f).error)
    ensures !submitting && Validate(f).Ok? ==> r.Submitted?
    ensures r.Submitted? ==> r.orders == (if orderStored then [BuildOrder(f, s, cart, id)] else [])
    ensures r.Submitted? ==> r.items == (if orderStored && itemsStored then OrderItems(id, cart) else [])
    ensures r.Submitted? ==> r.cartAfter == (if orderStored && itemsStored then [] else cart)
  {
    if submitting then AlreadySubmitting
    else match Validate(f)
      case Err(e) => Rejected(e)
      case Ok(_) =>
        if !orderStored then Submitted([], [], cart)
        else if !itemsStored then Submitted([BuildOrder(f, s, cart, id)], [], cart)
        else Submitted([BuildOrder(f, s, cart, id)], OrderItems(id, cart), ClearCart())
  }

  /** A placed order balances: with a discount between 0 and the subtotal,
      the discount total plus the amount charged is the subtotal, and the
      points recorded never exceed the available points. */
  lemma PlacedOrderBalances(f: Form, s: Session, cart: seq<Line>, id: int)
    requires 0 <= s.promo.discount <= CartTotal(cart)
    ensures var o := BuildOrder(f, s, cart, id);
      && o.discountTotal + o.totalPrice == o.subtotal
      && (s.availablePoints >= 0 ==> o.pointsUsed <= s.availablePoints)
  {
  }

  // ---------------------------------------------------------------------
  // Add-on lines per cart line
  // ---------------------------------------------------------------------

  /** `{ label, extra }`: the label is kept as `text`. */
  datatype ModifierLine = ModifierLine(text: string, extra: int)

  /** `opt => selectedIds.includes(opt.id)` */
  function ChosenBy(ids: seq<string>): ModifierOption -> bool
  {
    (o: ModifierOption) => o.id in ids
  }

  function OptionPriceOf(o: ModifierOption): int
  {
    o.price
  }

  function Names(opts: seq<ModifierOption>): (r: seq<string>)
    ensures |r| == |opts| && forall i :: 0 <= i < |opts| ==> r[i] == opts[i].name
  {
    seq(|opts|, i requires 0 <= i < |opts| => opts[i].name)
  }

  /** The options of group `g` that `sel` picks, in the group's own order. */
  function Chosen(g: ModifierGroup, sel: Selections): seq<ModifierOption>
  {
    Filter(g.options, ChosenBy(Selected(sel, g.id)))
  }

  /** The `forEach` over the groups: a line for each group with at least one
      selected id that names one of its options, labelled with the group
      name and the chosen option names, priced at their sum. */
  function GroupLines(groups: seq<ModifierGroup>, sel: Selections): (r: seq<ModifierLine>)
    ensures |r| <= |groups|
    ensures (forall i :: 0 <= i < |groups| ==> |Chosen(groups[i], sel)| == 0) ==> r == []
  {
    if |groups| == 0 then []
    else
      var g := groups[0];
      var rest := GroupLines(groups[1..], sel);
      if |Selected(sel, g.id)| == 0 || |Chosen(g, sel)| == 0 then rest
      else
        var chosen := Chosen(g, sel);
        [ModifierLine(g.name + ": " + Join(Names(chosen), ", "), SumOf(chosen, OptionPriceOf))] + rest
  }

  /** The lines follow the groups: two runs of groups give their lines in order. */
  lemma {:induction false} GroupLinesAppend(a: seq<ModifierGroup>, b: seq<ModifierGroup>, sel: Selections)
    ensures GroupLines(a + b, sel) == GroupLines(a, sel) + GroupLines(b, sel)
  {
    if |a| == 0 {
      assert a + b == b;
    } else {
      assert (a + b)[0] == a[0] && (a + b)[1..] == a[1..] + b;
      GroupLinesAppend(a[1..], b, sel);
    }
  }

  /** One group gives no line when none of its options is selected, and
      otherwise the line `<group>: <chosen names joined by ", ">` whose
      extra is the sum of the chosen options' prices. */
  lemma OneGroupLine(g: ModifierGroup, sel: Selections)
    ensures |Chosen(g, sel)| == 0 ==> GroupLines([g], sel) == []
    ensures |Chosen(g, sel)| > 0 ==>
      GroupLines([g], sel) == [ModifierLine(g.name + ": " + Join(Names(Chosen(g, sel)), ", "), SumOf(Chosen(g, sel), OptionPriceOf))]
  {
    assert [g][1..] == [];
    if |Chosen(g, sel)| > 0 {
      assert Chosen(g, sel)[0] in Chosen(g, sel);
    }
  }

  /** `getModifierLines(item)`: nothing without modifiers; otherwise the
      lines over the item's groups. */
  function GetModifierLines(item: Item): (r: seq<ModifierLine>)
    ensures item.modifiers.None? ==> r == []
    ensures |r| <= |item.groups|
  {
    if item.modifiers.None? then [] else GroupLines(item.groups, item.modifiers.value.selections)
  }

  function Extra(l: ModifierLine): int
  {
    l.extra
  }

  /** Every group's options have distinct ids. */
  predicate DistinctOptionIds(groups: seq<ModifierGroup>)
  {
    forall i, j, k :: 0 <= i < |groups| && 0 <= j < k < |groups[i].options| ==>
      groups[i].options[j].id != groups[i].options[k].id
  }

  /** No group's selection repeats an id (as the dialog's toggles guarantee). */
  predicate SelectionsWithoutRepeats(groups: seq<ModifierGroup>, sel: Selections)
  {
    forall i :: 0 <= i < |groups| ==> NoDuplicates(Selected(sel, groups[i].id))
  }

  /** The extras listed at checkout add up to the add-on price the dialog
      charged, when option ids are distinct within each group and no
      selection repeats an id. */
  lemma {:induction false} ExtrasMatchAddons(groups: seq<ModifierGroup>, sel: Selections)
    requires DistinctOptionIds(groups) && SelectionsWithoutRepeats(groups, sel)
    ensures SumOf(GroupLines(groups, sel), Extra) == Addons(groups, sel)
  {
    if |groups| > 0 {
      var g := groups[0];
      ConditionsOnTail(groups, sel);
      ExtrasMatchAddons(groups[1..], sel);
      GroupExtra(g.options, Selected(sel, g.id));
      GroupLinesExtraCons(groups, sel);
    }
  }

  /** The conditions of `ExtrasMatchAddons` hold of the first group and of the rest. */
  lemma ConditionsOnTail(groups: seq<ModifierGroup>, sel: Selections)
    requires |groups| > 0
    requires DistinctOptionIds(groups) && SelectionsWithoutRepeats(groups, sel)
    ensures DistinctOptionIds(groups[1..]) && SelectionsWithoutRepeats(groups[1..], sel)
    ensures NoDuplicates(Selected(sel, groups[0].id))
    ensures forall j, k :: 0 <= j < k < |groups[0].options| ==> groups[0].options[j].id != groups[0].options[k].id
  {
    assert DistinctOptionIds(groups[1..]) by {
      forall i, j, k | 0 <= i < |groups[1..]| && 0 <= j < k < |groups[1..][i].options|
        ensures groups[1..][i].options[j].id != groups[1..][i].options[k].id
      {
        assert groups[1..][i] == groups[i + 1];
      }
    }
    assert SelectionsWithoutRepeats(groups[1..], sel) by {
      forall i | 0 <= i < |groups[1..]| ensures NoDuplicates(Selected(sel, groups[1..][i].id)) {
        assert groups[1..][i] == groups[i + 1];
      }
    }
  }

  /** The extras of the first group's line, if any, come first. */
  lemma GroupLinesExtraCons(groups: seq<ModifierGroup>, sel: Selections)
    requires |groups| > 0
    ensures SumOf(GroupLines(groups, sel), Extra)
      == SumOf(Chosen(groups[0], sel), OptionPriceOf) + SumOf(GroupLines(groups[1..], sel), Extra)
  {
    var g := groups[0];
    var c := Chosen(g, sel);
    var rest := GroupLines(groups[1..], sel);
    if |c| > 0 {
      assert c[0] in c;
      var line := ModifierLine(g.name + ": " + Join(Names(c), ", "), SumOf(c, OptionPriceOf));
      assert GroupLines(groups, sel) == [line] + rest;
      assert ([line] + rest)[1..] == rest;
    } else {
      assert GroupLines(groups, sel) == rest;
    }
  }

  /** Within one group with distinct option ids, the chosen options' prices
      add up to the prices of the (distinct) selected ids. */
  lemma {:induction false} GroupExtra(opts: seq<ModifierOption>, ids: seq<string>)
    requires forall j, k :: 0 <= j < k < |opts| ==> opts[j].id != opts[k].id
    requires NoDuplicates(ids)
    ensures SumOf(Filter(opts, ChosenBy(ids)), OptionPriceOf) == IdsPrice(opts, ids)
  {
    if |opts| == 0 {
      IdsPriceNoOptions(opts, ids);
    } else {
      GroupExtra(opts[1..], ids);
      IdsPriceCons(opts, ids);
    }
  }

  /** With no options every selected id is unknown and costs nothing. */
  lemma {:induction false} IdsPriceNoOptions(opts: seq<ModifierOption>, ids: seq<string>)
    requires |opts| == 0
    ensures IdsPrice(opts, ids) == 0
  {
    if |ids| > 0 {
      IdsPriceNoOptions(opts, ids[1..]);
    }
  }

  /** Splitting off the first option: it contributes its price once if its id is selected. */
  lemma {:induction false} IdsPriceCons(opts: seq<ModifierOption>, ids: seq<string>)
    requires |opts| > 0
    requires forall k :: 1 <= k < |opts| ==> opts[0].id != opts[k].id
    requires NoDuplicates(ids)
    ensures IdsPrice(opts, ids) == (if opts[0].id in ids then opts[0].price else 0) + IdsPrice(opts[1..], ids)
  {
    if |ids| > 0 {
      var x := ids[0];
      assert NoDuplicates(ids[1..]) by {
        forall i, j | 0 <= i < j < |ids[1..]| ensures ids[1..][i] != ids[1..][j] {
          assert ids[1..][i] == ids[i + 1] && ids[1..][j] == ids[j + 1];
        }
      }
      IdsPriceCons(opts, ids[1..]);
      OptionPriceCons(opts, x);
      if x == opts[0].id {
        assert opts[0].id !in ids[1..] by {
          forall j | 0 <= j < |ids[1..]| ensures ids[1..][j] != x {
            assert ids[1..][j] == ids[j + 1];
          }
        }
        assert FindOption(opts[1..], x).None? by {
          forall j | 0 <= j < |opts[1..]| ensures opts[1..][j].id != x {
            assert opts[1..][j] == opts[j + 1];
          }
        }
      } else {
        assert (opts[0].id in ids) == (opts[0].id in ids[1..]) by {
          assert ids == [x] + ids[1..];
        }
      }
    }
  }

  /** The price of an id is the first option's price when that option
      carries it, and otherwise its price among the remaining options. */
  lemma OptionPriceCons(opts: seq<ModifierOption>, id: string)
    requires |opts| > 0
    ensures OptionPrice(opts, id) == if opts[0].id == id then opts[0].price else OptionPrice(opts[1..], id)
  {
    if opts[0].id != id {
      match FindOption(opts[1..], id)
      case None =>
        assert forall j :: 1 <= j < |opts| ==> opts[j] == opts[1..][j - 1];
      case Some(k) =>
        assert FindOption(opts, id) == Some(k + 1) by {
          assert forall j :: 1 <= j <= k ==> opts[j] == opts[1..][j - 1];
        }
    }
  }

  // ---------------------------------------------------------------------
  // Worked examples
  // ---------------------------------------------------------------------

  /** A 10% promotion on 12345 gives 1234: the percentage is rounded down. */
  lemma PercentageRoundsDown()
    ensures ApplyRate(Percentage, 10, 12345) == 1234
  {
  }

  /** A fixed 50000 on an eligible 30000 gives exactly 30000. */
  lemma FixedAmountCapped()
    ensures ApplyRate(FixedAmount, 50000, 30000) == 30000
  {
  }

  /** Balance 500 with 300 left after the promotion: 300 points are used. */
  lemma PointsClamped()
    ensures PointsToUse(true, true, 500, 300, 0) == 300
  {
  }

  /** Subtotal 100000, 10% off (10000) and 20000 points: the charge is 70000,
      and the points cap is taken from the 90000 left after the promotion. */
  lemma PromotionThenPoints()
    ensures ApplyRate(Percentage, 10, 100000) == 10000
    ensures PointsToUse(true, true, 20000, 100000, 10000) == 20000
    ensures PointsToUse(true, true, 95000, 100000, 10000) == 90000
    ensures FinalTotal(100000, 10000, 20000) == 70000
  {
  }

  function SampleProduct(id: int, price: int, category: string): Product
  {
    Product(id, "item", price, category, None, false, None, [])
  }

  function SampleLine(id: int, price: int, category: string, quantity: int): Line
  {
    var p := SampleProduct(id, price, category);
    Line(Item(p, None, None, []), Key(id, None), quantity, price)
  }

  /** Two iced drinks at 15000 and one pastry at 10000 with 10% off the
      "Iced" category: eligible 30000, discount 3000, final total 37000. */
  lemma CategoryPromotionExample(now: int)
    ensures var cart := [SampleLine(1, 15000, "Iced", 2), SampleLine(2, 10000, "Pastry", 1)];
      var promo := Promotion("ICED10", Percentage, 10, CategoryScope, None, None, now, None, true,
                             Some([PromotionTarget(None, Some("Iced"))]));
      && CartTotal(cart) == 40000
      && EligibleAmount(promo, cart) == Ok(30000)
      && CalculateDiscount(promo, cart, now) == Ok(3000)
      && FinalTotal(CartTotal(cart), 3000, 0) == 37000
  {
    var cart := [SampleLine(1, 15000, "Iced", 2), SampleLine(2, 10000, "Pastry", 1)];
    var promo := Promotion("ICED10", Percentage, 10, CategoryScope, None, None, now, None, true,
                           Some([PromotionTarget(None, Some("Iced"))]));
    var keep := InCategory(TargetCategory(promo));
    assert cart[1..][1..] == [];
    assert Filter(cart, keep) == [cart[0]] by {
      assert Filter(cart[1..], keep) == Filter(cart[1..][1..], keep);
    }
    assert LineTotal(cart[0]) == 30000;
    assert [cart[0]][1..] == [];
    assert SumOf([cart[0]], LineTotal) == LineTotal(cart[0]) + SumOf([cart[0]][1..], LineTotal);
    assert CartTotal([cart[0]]) == 30000;
    assert LineTotal(cart[1]) == 10000;
    assert SumOf(cart[1..], LineTotal) == LineTotal(cart[1]) + SumOf(cart[1..][1..], LineTotal);
  }

  /** An expired promotion is refused, so nothing is discounted and the charge is the subtotal. */
  lemma ExpiredPromotionExample(p: Promotion, cart: seq<Line>, now: int)
    requires p.isActive && p.startsAt <= now && p.endsAt.Some? && p.endsAt.value < now
    ensures CalculateDiscount(p, cart, now) == Err(Expired)
    ensures var st := ApplyPromo(PromoState(0, None, None), p.code, (c: string) => Some(p), cart, now);
      Trim(p.code) != "" ==> st.discount == 0 && st.error == Some(Expired)
  {
  }
}

=== FILE: decimal.dfy ===
/** Decimal text of integers (`String(n)`, `padStart`, `slice(-2)`) and
    JavaScript's `parseInt`, as used for order ids, order search and the
    admin price field. */
module Decimal {
  import opened Types
  import opened Seqs

  /** The value of a character read as a digit in bases up to 36 (`0`–`9`,
      then `a`–`z` or `A`–`Z`), or 36 for any other character. */
  function DigitVal(c: char): (d: nat)
    ensures d <= 36
  {
    if '0' <= c <= '9' then c as int - '0' as int
    else if 'a' <= c <= 'z' then c as int - 'a' as int + 10
    else if 'A' <= c <= 'Z' then c as int - 'A' as int + 10
    else 36
  }

  predicate IsDigitIn(c: char, radix: nat)
  {
    DigitVal(c) < radix
  }

  predicate AllDigitsIn(s: string, radix: nat)
  {
    forall i :: 0 <= i < |s| ==> IsDigitIn(s[i], radix)
  }

  function Pow(radix: nat, k: nat): nat
  {
    if k == 0 then 1 else radix * Pow(radix, k - 1)
  }

  /** The value of a digit string, most significant digit first. */
  function ValueIn(s: string, radix: nat): nat
    requires AllDigitsIn(s, radix)
  {
    if |s| == 0 then 0
    else ValueIn(s[..|s| - 1], radix) * radix + DigitVal(s[|s| - 1])
  }

  /** A string of `k` digits is worth less than `radix^k`. */
  lemma {:induction false} ValueInBound(s: string, radix: nat)
    requires AllDigitsIn(s, radix)
    ensures ValueIn(s, radix) < Pow(radix, |s|)
  {
    if |s| > 0 {
      ValueInBound(s[..|s| - 1], radix);
      DigitStepBound(ValueIn(s[..|s| - 1], radix), DigitVal(s[|s| - 1]), Pow(radix, |s| - 1), radix);
    }
  }

  /** One more digit below the radix keeps a value below the next power. */
  lemma DigitStepBound(v: nat, d: nat, p: nat, radix: nat)
    requires v < p && d < radix
    ensures v * radix + d < radix * p
  {
    LeMulRight(v + 1, p, radix);
  }

  lemma LeMulRight(a: int, b: int, c: nat)
    requires a <= b
    ensures a * c <= b * c
  {
  }

  /** Reading the concatenation of two digit strings shifts the first by the
      length of the second. */
  lemma {:induction false} ValueInAppend(a: string, b: string, radix: nat)
    requires AllDigitsIn(a, radix) && AllDigitsIn(b, radix)
    ensures AllDigitsIn(a + b, radix)
    ensures ValueIn(a + b, radix) == ValueIn(a, radix) * Pow(radix, |b|) + ValueIn(b, radix)
  {
    if |b| == 0 {
      assert a + b == a;
    } else {
      var b' := b[..|b| - 1];
      var last := b[|b| - 1];
      assert (a + b)[..|a + b| - 1] == a + b';
      assert (a + b)[|a + b| - 1] == last;
      assert AllDigitsIn(b', radix);
      ValueInAppend(a, b', radix);
      var va, vb', p' := ValueIn(a, radix), ValueIn(b', radix), Pow(radix, |b'|);
      assert ValueIn(a + b, radix) == ValueIn(a + b', radix) * radix + DigitVal(last);
      assert ValueIn(a + b', radix) == va * p' + vb';
      assert ValueIn(b, radix) == vb' * radix + DigitVal(last);
      assert Pow(radix, |b|) == radix * p';
      ShiftDistributes(va, p', vb', radix);
    }
  }

  lemma ShiftDistributes(x: int, p: int, y: int, r: int)
    ensures (x * p + y) * r == x * (r * p) + y * r
  {
  }

  function DigitChar(d: nat): (c: char)
    requires d < 10
    ensures IsDigitIn(c, 10) && DigitVal(c) == d
  {
    ('0' as int + d) as char
  }

  /** `String(n)` for a non-negative integer: shortest decimal text, no leading zeros. */
  function ToDecimal(n: nat): (s: string)
    ensures 1 <= |s| && AllDigitsIn(s, 10)
    ensures ValueIn(s, 10) == n
    ensures |s| > 1 ==> s[0] != '0'
  {
    if n < 10 then [DigitChar(n)]
    else
      var p := ToDecimal(n / 10);
      var s := p + [DigitChar(n % 10)];
      assert s[..|s| - 1] == p;
      s
  }

  /** `String(n)` for any integer. */
  function IntToString(n: int): string
  {
    if n < 0 then "-" + ToDecimal(-n) else ToDecimal(n)
  }

  /** `String(n).padStart(2, '0')` for n < 100. */
  function Pad2(n: nat): (s: string)
    requires n < 100
    ensures |s| == 2 && AllDigitsIn(s, 10) && ValueIn(s, 10) == n
  {
    var d := ToDecimal(n);
    if |d| < 2 then
      var s := "0" + d;
      ValueInAppend("0", d, 10);
      s
    else
      assert |d| == 2 by {
        if |d| > 2 {
          ValueInAppend(d[..1], d[1..], 10);
          assert d == d[..1] + d[1..];
          assert ValueIn(d[..1], 10) >= 1 by {
            assert d[..1][..0] == [];
          }
          assert Pow(10, |d[1..]|) >= 100 by { PowMonotone(10, 2, |d[1..]|); }
          MulAtLeast(ValueIn(d[..1], 10), Pow(10, |d[1..]|));
        }
      }
      d
  }

  lemma PowMonotone(radix: nat, j: nat, k: nat)
    requires 1 <= radix && j <= k
    ensures Pow(radix, j) <= Pow(radix, k)
    decreases k
  {
    if j < k {
      PowMonotone(radix, j, k - 1);
      assert Pow(radix, k) == radix * Pow(radix, k - 1);
      LeMulRight(1, radix, Pow(radix, k - 1));
    }
  }

  lemma MulAtLeast(a: nat, b: nat)
    requires a >= 1
    ensures a * b >= b
  {
    LeMulRight(1, a, b);
  }

  /** `s.slice(-2)`: the last two characters, or all of a shorter string. */
  function Last2(s: string): (r: string)
    ensures |r| == if |s| >= 2 then 2 else |s|
    ensures r == s[|s| - |r|..]
  {
    if |s| >= 2 then s[|s| - 2..] else s
  }

  /** The last two digits of a digit string are worth its value modulo 100. */
  lemma Last2Value(s: string)
    requires AllDigitsIn(s, 10)
    ensures AllDigitsIn(Last2(s), 10) && ValueIn(Last2(s), 10) == ValueIn(s, 10) % 100
  {
    var r := Last2(s);
    assert AllDigitsIn(r, 10);
    ValueInBound(r, 10);
    if |s| >= 2 {
      var pre := s[..|s| - 2];
      assert s == pre + r;
      ValueInAppend(pre, r, 10);
      assert Pow(10, 2) == 100 by {
        assert Pow(10, 2) == 10 * Pow(10, 1) == 10 * 10;
      }
      ModOfShift100(ValueIn(pre, 10), ValueIn(r, 10));
    } else {
      assert r == s;
      assert Pow(10, |r|) <= 10 by {
        if |r| == 1 { assert Pow(10, 1) == 10; } else { assert Pow(10, 0) == 1; }
      }
    }
  }

  lemma ModOfShift100(x: nat, y: nat)
    requires 0 <= y < 100
    ensures (x * 100 + y) % 100 == y
  {
  }

  /** Length of the longest prefix of `s` made of digits of the radix. */
  function DigitRun(s: string, radix: nat): (n: nat)
    ensures n <= |s| && AllDigitsIn(s[..n], radix)
    ensures n < |s| ==> !IsDigitIn(s[n], radix)
  {
    if |s| == 0 || !IsDigitIn(s[0], radix) then 0
    else
      var n := 1 + DigitRun(s[1..], radix);
      assert forall i :: 1 <= i < n ==> s[..n][i] == s[1..][..n - 1][i - 1];
      n
  }

  /** `parseInt(s)` without a radix argument: leading whitespace is skipped,
      an optional sign is read, a `0x`/`0X` prefix selects base 16, then the
      longest run of digits is read. `None` stands for `NaN` (no digits). */
  function ParseInt(s: string): Option<int>
  {
    var t := TrimStart(s);
    var negative := |t| > 0 && t[0] == '-';
    var u := if |t| > 0 && (t[0] == '-' || t[0] == '+') then t[1..] else t;
    var hex := |u| >= 2 && u[0] == '0' && (u[1] == 'x' || u[1] == 'X');
    var radix := if hex then 16 else 10;
    var body := if hex then u[2..] else u;
    var n := DigitRun(body, radix);
    if n == 0 then None
    else
      var v: int := ValueIn(body[..n], radix);
      Some(if negative then -v else v)
  }

  /** A decimal digit is neither whitespace, nor a sign, nor a letter. */
  lemma DecimalDigitIsPlain(c: char)
    requires IsDigitIn(c, 10)
    ensures '0' <= c <= '9'
    ensures !IsJsWhitespace(c) && c != '-' && c != '+' && c != 'x' && c != 'X'
  {
  }

  /** A string that opens with a decimal digit and no `0x` prefix is read
      in base 10 up to its first non-digit. */
  lemma ParseIntPlain(s: string)
    requires |s| > 0 && IsDigitIn(s[0], 10)
    requires |s| >= 2 ==> !(s[0] == '0' && (s[1] == 'x' || s[1] == 'X'))
    ensures ParseInt(s) == Some(ValueIn(s[..DigitRun(s, 10)], 10))
  {
    DecimalDigitIsPlain(s[0]);
    assert TrimStart(s) == s;
  }

  /** `parseInt` reads back the decimal text of every non-negative integer,
      whatever text follows it that does not continue the number. */
  lemma ParseIntToDecimal(n: nat, rest: string)
    requires |rest| > 0 ==> !IsDigitIn(rest[0], 10) && rest[0] != 'x' && rest[0] != 'X'
    ensures ParseInt(ToDecimal(n) + rest) == Some(n)
  {
    var d := ToDecimal(n);
    var s := d + rest;
    assert s[0] == d[0];
    if |s| >= 2 && s[0] == '0' {
      assert |d| == 1;
      assert s[1] == rest[0];
    }
    ParseIntPlain(s);
    DigitRunStopsAt(d, rest, 10);
    assert s[..|d|] == d;
  }

  /** The digit run of a digit string followed by a non-digit ends exactly there. */
  lemma {:induction false} DigitRunStopsAt(d: string, rest: string, radix: nat)
    requires AllDigitsIn(d, radix)
    requires |rest| > 0 ==> !IsDigitIn(rest[0], radix)
    ensures DigitRun(d + rest, radix) == |d|
  {
    if |d| > 0 {
      assert (d + rest)[1..] == d[1..] + rest;
      DigitRunStopsAt(d[1..], rest, radix);
    } else {
      assert d + rest == rest;
    }
  }

  /** On a string made only of decimal digits and not starting with `0x`,
      `parseInt` is the digit value. */
  lemma ParseIntDigits(s: string)
    requires |s| > 0 && AllDigitsIn(s, 10)
    requires |s| >= 2 ==> !(s[0] == '0' && (s[1] == 'x' || s[1] == 'X'))
    ensures ParseInt(s) == Some(ValueIn(s, 10))
  {
    ParseIntPlain(s);
    DigitRunStopsAt(s, "", 10);
    assert s + "" == s;
    assert s[..|s|] == s;
  }
}

=== FILE: loyalty.dfy ===
/** The loyalty figures on the profile page (src/pages/Profile.tsx): the
    per-order earned/used tally, the ledger totals and balance, the points
    still pending on unfinished orders, and the tier. */
module Loyalty {
  import opened Types
  import opened Seqs
  import Checkout
  import OrderHistory

  /** `entry_type` of a `points_ledger` row. */
  datatype EntryType = Earn | Redeem | Expire | Adjustment | Refund

  /** A `points_ledger` row; `order_id` may be null. */
  datatype LedgerRow = LedgerRow(orderId: Option<int>, kind: EntryType, delta: int)

  /** The `{ earned, used }` record kept per order. */
  datatype Tally = Tally(earned: int, used: int)

  function Max0(x: int): int
  {
    if x > 0 then x else 0
  }

  function Abs(x: int): int
  {
    if x < 0 then -x else x
  }

  predicate NonNegative(t: Tally)
  {
    t.earned >= 0 && t.used >= 0
  }

  /** One row's effect on its order's tally: an earn adds its positive
      part, a redeem adds its size to `used`, a refund takes back from
      `used` (positive delta) or `earned` (negative delta) without going
      below 0, and the other entry types change nothing. */
  function ApplyRow(t: Tally, row: LedgerRow): (r: Tally)
    ensures NonNegative(t) ==> NonNegative(r)
    ensures row.kind == Earn ==> r.used == t.used && r.earned - t.earned == Max0(row.delta)
    ensures row.kind == Redeem ==> r.earned == t.earned && r.used - t.used == Abs(row.delta)
    ensures row.kind == Refund && row.delta > 0 ==>
      r.earned == t.earned && (r.used == t.used - row.delta || (r.used == 0 && t.used < row.delta))
    ensures row.kind == Refund && row.delta < 0 ==>
      r.used == t.used && (r.earned == t.earned + row.delta || (r.earned == 0 && t.earned < -row.delta))
    ensures row.kind == Refund && NonNegative(t) ==> r.earned <= t.earned && r.used <= t.used
    ensures row.kind == Refund && row.delta == 0 ==> r == t
    ensures row.kind == Expire || row.kind == Adjustment ==> r == t
  {
    match row.kind
    case Earn => t.(earned := t.earned + Max0(row.delta))
    case Redeem => t.(used := t.used + Abs(row.delta))
    case Refund =>
      if row.delta > 0 then t.(used := Max0(t.used - row.delta))
      else if row.delta < 0 then t.(earned := Max0(t.earned - Abs(row.delta)))
      else t
    case Expire => t
    case Adjustment => t
  }

  /** A refund of exactly what was redeemed puts `used` back. */
  lemma RefundUndoesRedeem(t: Tally, id: Option<int>, points: int)
    requires NonNegative(t) && points > 0
    ensures ApplyRow(ApplyRow(t, LedgerRow(id, Redeem, -points)), LedgerRow(id, Refund, points)) == t
  {
  }

  /** A negative refund of exactly what was earned puts `earned` back. */
  lemma RefundUndoesEarn(t: Tally, id: Option<int>, points: int)
    requires NonNegative(t) && points > 0
    ensures ApplyRow(ApplyRow(t, LedgerRow(id, Earn, points)), LedgerRow(id, Refund, -points)) == t
  {
  }

  /** `map.get(id) || { earned: 0, used: 0 }` */
  function TallyOf(m: map<int, Tally>, id: int): Tally
  {
    if id in m then m[id] else Tally(0, 0)
  }

  /** `pointsByOrder`: the rows in ledger order, rows with a falsy
      `order_id` skipped; every other row records its order's tally, even
      when its entry type changes nothing. */
  function PointsByOrder(ledger: seq<LedgerRow>): (r: map<int, Tally>)
    ensures forall id :: id in r ==> NonNegative(r[id])
    ensures forall id :: id in r <==> id != 0 && exists i :: 0 <= i < |ledger| && ledger[i].orderId == Some(id)
  {
    if |ledger| == 0 then map[]
    else
      var init := ledger[..|ledger| - 1];
      var row := ledger[|ledger| - 1];
      var m := PointsByOrder(init);
      assert forall i :: 0 <= i < |init| ==> init[i] == ledger[i];
      if !Truthy(row.orderId) then m
      else m[row.orderId.value := ApplyRow(TallyOf(m, row.orderId.value), row)]
  }

  /** An independent reading of one order's tally: the rows of that order
      alone, applied in order from `{ 0, 0 }`. */
  function TallyRows(rows: seq<LedgerRow>): Tally
  {
    if |rows| == 0 then Tally(0, 0)
    else ApplyRow(TallyRows(rows[..|rows| - 1]), rows[|rows| - 1])
  }

  function ForOrder(id: int): LedgerRow -> bool
  {
    (row: LedgerRow) => row.orderId == Some(id)
  }

  /** Each order's tally depends only on that order's own rows. */
  lemma {:induction false} PointsByOrderPerOrder(ledger: seq<LedgerRow>, id: int)
    requires id != 0
    ensures TallyOf(PointsByOrder(ledger), id) == TallyRows(Filter(ledger, ForOrder(id)))
  {
    if |ledger| > 0 {
      var init := ledger[..|ledger| - 1];
      var row := ledger[|ledger| - 1];
      PointsByOrderPerOrder(init, id);
      assert ledger == init + [row];
      FilterAppend(init, [row], ForOrder(id));
      assert [row][1..] == [];
      var f := Filter(init, ForOrder(id));
      if row.orderId == Some(id) {
        assert Filter(ledger, ForOrder(id)) == f + [row];
        assert (f + [row])[..|f|] == f;
      } else {
        assert Filter(ledger, ForOrder(id)) == f;
      }
    }
  }

  /** The figures shown for one order (the order list's fallback): the
      order's tally if it has ledger rows, otherwise nothing earned and the
      order's own `points_used`, at least 0. */
  function OrderPoints(byOrder: map<int, Tally>, o: OrderHistory.OrderView): (r: Tally)
    ensures (forall id :: id in byOrder ==> NonNegative(byOrder[id])) ==> NonNegative(r)
    ensures o.id in byOrder ==> r == byOrder[o.id]
    ensures o.id !in byOrder ==> r.earned == 0 && r.used == Max0(o.pointsUsed.GetOr(0))
  {
    if o.id in byOrder then byOrder[o.id] else Tally(0, Max0(o.pointsUsed.GetOr(0)))
  }

  /** An order with ledger rows shows the tally of exactly those rows; an
      order without any (or with the falsy id 0) shows the fallback. */
  lemma OrderPointsFromLedger(ledger: seq<LedgerRow>, o: OrderHistory.OrderView)
    ensures o.id != 0 && (exists i :: 0 <= i < |ledger| && ledger[i].orderId == Some(o.id)) ==>
      OrderPoints(PointsByOrder(ledger), o) == TallyRows(Filter(ledger, ForOrder(o.id)))
    ensures o.id == 0 || (forall i :: 0 <= i < |ledger| ==> ledger[i].orderId != Some(o.id)) ==>
      OrderPoints(PointsByOrder(ledger), o) == Tally(0, Max0(o.pointsUsed.GetOr(0)))
  {
    if o.id != 0 {
      PointsByOrderPerOrder(ledger, o.id);
    }
  }

  // ---------------------------------------------------------------------
  // Ledger totals

  predicate IsGain(row: LedgerRow)
  {
    row.delta > 0
  }

  predicate IsLoss(row: LedgerRow)
  {
    row.delta < 0
  }

  function Delta(row: LedgerRow): int
  {
    row.delta
  }

  function AbsDelta(row: LedgerRow): int
  {
    Abs(row.delta)
  }

  /** Σ of the positive deltas. */
  function Earned(ledger: seq<LedgerRow>): int
  {
    SumOf(Filter(ledger, IsGain), Delta)
  }

  /** Σ of the sizes of the negative deltas. */
  function Used(ledger: seq<LedgerRow>): int
  {
    SumOf(Filter(ledger, IsLoss), AbsDelta)
  }

  /** Points earned less points used is the plain sum of the deltas. */
  lemma {:induction false} EarnedLessUsed(ledger: seq<LedgerRow>)
    ensures Earned(ledger) - Used(ledger) == SumOf(ledger, Delta)
    ensures Earned(ledger) >= 0 && Used(ledger) >= 0
  {
    if |ledger| > 0 {
      EarnedLessUsed(ledger[1..]);
    }
  }

  /** `total_price || 0`, one point per 200 rupiah rounded down, at least 0. */
  function PendingFor(o: OrderHistory.OrderView): int
  {
    Max0(o.totalPrice.GetOr(0) / 200)
  }

  predicate IsPending(o: OrderHistory.OrderView)
  {
    o.status == "pending"
  }

  /** The four figures of the loyalty card. */
  datatype Summary = Summary(balance: int, earned: int, used: int, pending: int)

  /** Appending a ledger row adds its positive part to the points earned
      and the size of its negative part to the points used. */
  lemma {:induction false} EarnedUsedAppend(ledger: seq<LedgerRow>, row: LedgerRow)
    ensures Earned(ledger + [row]) == Earned(ledger) + Max0(row.delta)
    ensures Used(ledger + [row]) == Used(ledger) + Max0(-row.delta)
  {
    FilterAppend(ledger, [row], IsGain);
    FilterAppend(ledger, [row], IsLoss);
    SumOfAppend(Filter(ledger, IsGain), Filter([row], IsGain), Delta);
    SumOfAppend(Filter(ledger, IsLoss), Filter([row], IsLoss), AbsDelta);
    assert [row][1..] == [];
  }

  /** The loyalty card: earned and used are the ledger totals, the balance
      their difference floored at 0, and pending the estimate summed over
      the pending orders. */
  function Summarize(ledger: seq<LedgerRow>, orders: seq<OrderHistory.OrderView>): (r: Summary)
    ensures r.earned == Earned(ledger) && r.used == Used(ledger)
    ensures r.pending == SumOf(Filter(orders, IsPending), PendingFor)
    ensures r.earned >= 0 && r.used >= 0 && r.pending >= 0
    ensures r.balance == Max0(SumOf(ledger, Delta))
    ensures r.balance <= r.earned
  {
    EarnedLessUsed(ledger);
    SumOfNonNegative(Filter(orders, IsPending), PendingFor);
    var earned := Earned(ledger);
    var used := Used(ledger);
    Summary(Max0(earned - used), earned, used, SumOf(Filter(orders, IsPending), PendingFor))
  }

  /** A pending order placed at checkout is expected to earn exactly the
      estimate the checkout page showed for it. */
  lemma PendingMatchesCheckoutEstimate(o: OrderHistory.OrderView, cartTotal: int, discount: int, points: int)
    requires o.totalPrice == Some(Checkout.FinalTotal(cartTotal, discount, points))
    ensures PendingFor(o) == Checkout.EstimatedPointsEarned(Checkout.FinalTotal(cartTotal, discount, points))
  {
  }

  // ---------------------------------------------------------------------
  // Tier

  datatype Tier = Bronze | Silver | Gold

  function Rank(t: Tier): nat
  {
    match t
    case Bronze => 0
    case Silver => 1
    case Gold => 2
  }

  /** `loyaltyTier`: Gold from 5000 points earned, Silver from 2000. */
  function LoyaltyTier(earned: int): (r: Tier)
    ensures r == Gold <==> earned >= 5000
    ensures r == Silver <==> 2000 <= earned < 5000
    ensures r == Bronze <==> earned < 2000
  {
    if earned >= 5000 then Gold
    else if earned >= 2000 then Silver
    else Bronze
  }

  /** Earning more never lowers the tier. */
  lemma TierMonotone(a: int, b: int)
    requires a <= b
    ensures Rank(LoyaltyTier(a)) <= Rank(LoyaltyTier(b))
  {
  }
}

=== FILE: modifier_editor.dfy ===
/** The admin editor for a product's modifier groups
    (src/components/common/ModifierModal.tsx): every edit maps the list of
    groups to a new list, touching only the group (and option) it names.
    `Date.now().toString()` ids are a `stamp` parameter. */
module ModifierEditor {
  import opened Types
  import opened Seqs
  import ProductModal

  const NewCategoryName: string := "New Category (e.g. Sugar)"
  const NewOptionName: string := "Option Name"

  /** The group `addModifierCategory` creates: required, single choice, no options. */
  function NewCategory(stamp: string): ModifierGroup
  {
    ModifierGroup(stamp, NewCategoryName, true, Single, [])
  }

  /** `addModifierCategory`: one new group at the end, the others untouched. */
  function AddCategory(list: seq<ModifierGroup>, stamp: string): (r: seq<ModifierGroup>)
    ensures |r| == |list| + 1 && r[..|list|] == list
    ensures r[|list|].id == stamp && r[|list|].name == NewCategoryName
    ensures r[|list|].isRequired && r[|list|].kind == Single && r[|list|].options == []
  {
    list + [NewCategory(stamp)]
  }

  /** A `keyof ProductModifier` together with the value written to it. */
  datatype GroupField =
    | GroupId(id: string)
    | GroupName(name: string)
    | Required(isRequired: bool)
    | Kind(kind: SelectionType)
    | Options(options: seq<ModifierOption>)

  /** `{ ...m, [field]: value }` */
  function SetGroupField(m: ModifierGroup, f: GroupField): (r: ModifierGroup)
    ensures f.GroupId? ==> r.id == f.id && r.(id := m.id) == m
    ensures f.GroupName? ==> r.name == f.name && r.(name := m.name) == m
    ensures f.Required? ==> r.isRequired == f.isRequired && r.(isRequired := m.isRequired) == m
    ensures f.Kind? ==> r.kind == f.kind && r.(kind := m.kind) == m
    ensures f.Options? ==> r.options == f.options && r.(options := m.options) == m
  {
    match f
    case GroupId(v) => m.(id := v)
    case GroupName(v) => m.(name := v)
    case Required(v) => m.(isRequired := v)
    case Kind(v) => m.(kind := v)
    case Options(v) => m.(options := v)
  }

  /** `updateModifierCategory`: every group with id `id` takes the new value
      in that one field; every other group is left as it was, in place. */
  function UpdateCategory(list: seq<ModifierGroup>, id: string, f: GroupField): (r: seq<ModifierGroup>)
    ensures |r| == |list|
    ensures forall i :: 0 <= i < |list| && list[i].id != id ==> r[i] == list[i]
    ensures forall i :: 0 <= i < |list| && list[i].id == id ==> r[i] == SetGroupField(list[i], f)
  {
    seq(|list|, i requires 0 <= i < |list| => if list[i].id == id then SetGroupField(list[i], f) else list[i])
  }

  /** Writing the same field twice keeps only the second value, unless the
      first write moved the group away from `id`. */
  lemma UpdateCategoryLastWins(list: seq<ModifierGroup>, id: string, f: GroupField, g: GroupField)
    requires !f.GroupId? && f.GroupName? == g.GroupName? && f.Required? == g.Required?
    requires f.Kind? == g.Kind? && f.Options? == g.Options?
    ensures UpdateCategory(UpdateCategory(list, id, f), id, g) == UpdateCategory(list, id, g)
  {
    var a := UpdateCategory(UpdateCategory(list, id, f), id, g);
    var b := UpdateCategory(list, id, g);
    forall i | 0 <= i < |list|
      ensures a[i] == b[i]
    {
      if list[i].id == id {
        assert UpdateCategory(list, id, f)[i].id == id;
      }
    }
  }

  /** `addOptionToCategory`: a new option `{ stamp, 'Option Name', 0 }` at
      the end of the matching groups' options; nothing else changes. */
  function AddOption(list: seq<ModifierGroup>, categoryId: string, stamp: string): (r: seq<ModifierGroup>)
    ensures |r| == |list|
    ensures forall i :: 0 <= i < |list| && list[i].id != categoryId ==> r[i] == list[i]
    ensures forall i :: 0 <= i < |list| && list[i].id == categoryId ==>
      && r[i].options == list[i].options + [ModifierOption(stamp, NewOptionName, 0)]
      && r[i].(options := list[i].options) == list[i]
  {
    seq(|list|, i requires 0 <= i < |list| =>
      if list[i].id == categoryId
      then list[i].(options := list[i].options + [ModifierOption(stamp, NewOptionName, 0)])
      else list[i])
  }

  /** A `keyof ModifierOption` together with the value written to it. The
      price field receives `parseInt` of the input; only a numeric result
      is modelled (an emptied or non-numeric box, which gives `NaN`, is not). */
  datatype OptionField = OptionId(id: string) | OptionName(name: string) | OptionPrice(price: int)

  /** `{ ...opt, [field]: value }` */
  function SetOptionField(o: ModifierOption, f: OptionField): (r: ModifierOption)
    ensures f.OptionId? ==> r.id == f.id && r.(id := o.id) == o
    ensures f.OptionName? ==> r.name == f.name && r.(name := o.name) == o
    ensures f.OptionPrice? ==> r.price == f.price && r.(price := o.price) == o
  {
    match f
    case OptionId(v) => o.(id := v)
    case OptionName(v) => o.(name := v)
    case OptionPrice(v) => o.(price := v)
  }

  /** The options of one group after `updateOption`. */
  function UpdateOptions(opts: seq<ModifierOption>, optionId: string, f: OptionField): (r: seq<ModifierOption>)
    ensures |r| == |opts|
    ensures forall j :: 0 <= j < |opts| && opts[j].id != optionId ==> r[j] == opts[j]
    ensures forall j :: 0 <= j < |opts| && opts[j].id == optionId ==> r[j] == SetOptionField(opts[j], f)
  {
    seq(|opts|, j requires 0 <= j < |opts| => if opts[j].id == optionId then SetOptionField(opts[j], f) else opts[j])
  }

  /** `updateOption`: only options with id `optionId` inside groups with id
      `categoryId` change, and only in the one field. */
  function UpdateOption(list: seq<ModifierGroup>, categoryId: string, optionId: string, f: OptionField): (r: seq<ModifierGroup>)
    ensures |r| == |list|
    ensures forall i :: 0 <= i < |list| && list[i].id != categoryId ==> r[i] == list[i]
    ensures forall i :: 0 <= i < |list| && list[i].id == categoryId ==>
      && r[i].(options := list[i].options) == list[i]
      && r[i].options == UpdateOptions(list[i].options, optionId, f)
  {
    seq(|list|, i requires 0 <= i < |list| =>
      if list[i].id == categoryId
      then list[i].(options := UpdateOptions(list[i].options, optionId, f))
      else list[i])
  }

  /** Writing the same option field twice keeps only the second value. The
      option's id is not one of those fields, so the second write finds the
      same options as the first. */
  lemma UpdateOptionLastWins(list: seq<ModifierGroup>, categoryId: string, optionId: string, f: OptionField, g: OptionField)
    requires !f.OptionId? && f.OptionName? == g.OptionName? && f.OptionPrice? == g.OptionPrice?
    ensures UpdateOption(UpdateOption(list, categoryId, optionId, f), categoryId, optionId, g)
      == UpdateOption(list, categoryId, optionId, g)
  {
    var once := UpdateOption(list, categoryId, optionId, f);
    var a := UpdateOption(once, categoryId, optionId, g);
    var b := UpdateOption(list, categoryId, optionId, g);
    forall i | 0 <= i < |list|
      ensures a[i] == b[i]
    {
      if list[i].id == categoryId {
        var opts := list[i].options;
        assert once[i].id == categoryId;
        forall j | 0 <= j < |opts|
          ensures a[i].options[j] == b[i].options[j]
        {
          if opts[j].id == optionId {
            assert once[i].options[j].id == optionId;
          }
        }
      }
    }
  }

  /** A price typed as a non-negative number keeps every add-on price non-negative. */
  lemma UpdateOptionKeepsPricesNonNegative(list: seq<ModifierGroup>, categoryId: string, optionId: string, f: OptionField)
    requires ProductModal.NonNegativePrices(list)
    requires f.OptionPrice? ==> f.price >= 0
    ensures ProductModal.NonNegativePrices(UpdateOption(list, categoryId, optionId, f))
  {
  }

  function OptionOtherThan(optionId: string): ModifierOption -> bool
  {
    (o: ModifierOption) => o.id != optionId
  }

  /** `removeOption`: the matching groups lose every option with that id and
      keep the rest in order; other groups are untouched. */
  function RemoveOption(list: seq<ModifierGroup>, categoryId: string, optionId: string): (r: seq<ModifierGroup>)
    ensures |r| == |list|
    ensures forall i :: 0 <= i < |list| && list[i].id != categoryId ==> r[i] == list[i]
    ensures forall i :: 0 <= i < |list| && list[i].id == categoryId ==>
      && r[i].(options := list[i].options) == list[i]
      && (forall o :: o in r[i].options <==> o in list[i].options && o.id != optionId)
      && IsSubsequence(r[i].options, list[i].options)
    ensures forall i :: 0 <= i < |list| && list[i].id == categoryId ==>
      forall o :: multiset(r[i].options)[o] == if o.id != optionId then multiset(list[i].options)[o] else 0
  {
    var r := seq(|list|, i requires 0 <= i < |list| =>
      if list[i].id == categoryId
      then list[i].(options := Filter(list[i].options, OptionOtherThan(optionId)))
      else list[i]);
    assert forall i :: 0 <= i < |list| && list[i].id == categoryId ==>
      IsSubsequence(r[i].options, list[i].options) by {
      forall i | 0 <= i < |list| && list[i].id == categoryId
        ensures IsSubsequence(r[i].options, list[i].options)
      {
        FilterIsSubsequence(list[i].options, OptionOtherThan(optionId));
      }
    }
    forall i | 0 <= i < |list| && list[i].id == categoryId {
      FilterCounts(list[i].options, OptionOtherThan(optionId));
    }
    r
  }

  /** An option just added and then removed leaves the groups as if only the removal had happened. */
  lemma AddThenRemoveOption(list: seq<ModifierGroup>, categoryId: string, stamp: string)
    ensures RemoveOption(AddOption(list, categoryId, stamp), categoryId, stamp) == RemoveOption(list, categoryId, stamp)
  {
    var added := AddOption(list, categoryId, stamp);
    var a := RemoveOption(added, categoryId, stamp);
    var b := RemoveOption(list, categoryId, stamp);
    forall i | 0 <= i < |list|
      ensures a[i] == b[i]
    {
      if list[i].id == categoryId {
        var tail := [ModifierOption(stamp, NewOptionName, 0)];
        FilterAppend(list[i].options, tail, OptionOtherThan(stamp));
        assert Filter(tail, OptionOtherThan(stamp)) == [];
      }
    }
  }

  function GroupOtherThan(categoryId: string): ModifierGroup -> bool
  {
    (m: ModifierGroup) => m.id != categoryId
  }

  /** `removeCategory`: exactly the groups with that id go, every copy of
      the others stays, and the rest keep their order. */
  function RemoveCategory(list: seq<ModifierGroup>, categoryId: string): (r: seq<ModifierGroup>)
    ensures forall m :: m in r <==> m in list && m.id != categoryId
    ensures forall m :: multiset(r)[m] == if m.id != categoryId then multiset(list)[m] else 0
    ensures IsSubsequence(r, list)
    ensures (forall i :: 0 <= i < |list| ==> list[i].id != categoryId) ==> r == list
  {
    FilterIsSubsequence(list, GroupOtherThan(categoryId));
    FilterCounts(list, GroupOtherThan(categoryId));
    if forall i :: 0 <= i < |list| ==> list[i].id != categoryId then
      FilterAll(list, GroupOtherThan(categoryId));
      Filter(list, GroupOtherThan(categoryId))
    else
      Filter(list, GroupOtherThan(categoryId))
  }

  /** A group just added and then removed leaves the list as if only the removal had happened. */
  lemma AddThenRemoveCategory(list: seq<ModifierGroup>, stamp: string)
    ensures RemoveCategory(AddCategory(list, stamp), stamp) == RemoveCategory(list, stamp)
  {
    FilterAppend(list, [NewCategory(stamp)], GroupOtherThan(stamp));
    assert Filter([NewCategory(stamp)], GroupOtherThan(stamp)) == [];
  }

  /** The editor's own additions cost nothing, so the add-on prices the
      product modal charges stay non-negative through any of them. */
  lemma AddsKeepPricesNonNegative(list: seq<ModifierGroup>, categoryId: string, stamp: string)
    requires ProductModal.NonNegativePrices(list)
    ensures ProductModal.NonNegativePrices(AddCategory(list, stamp))
    ensures ProductModal.NonNegativePrices(AddOption(list, categoryId, stamp))
    ensures ProductModal.NonNegativePrices(RemoveOption(list, categoryId, stamp))
    ensures ProductModal.NonNegativePrices(RemoveCategory(list, categoryId))
  {
    AddOptionKeepsPrices(list, categoryId, stamp);
    RemoveOptionKeepsPrices(list, categoryId, stamp);
    RemoveCategoryKeepsPrices(list, categoryId);
  }

  lemma AddOptionKeepsPrices(list: seq<ModifierGroup>, categoryId: string, stamp: string)
    requires ProductModal.NonNegativePrices(list)
    ensures ProductModal.NonNegativePrices(AddOption(list, categoryId, stamp))
  {
    var r := AddOption(list, categoryId, stamp);
    forall i, j | 0 <= i < |r| && 0 <= j < |r[i].options|
      ensures r[i].options[j].price >= 0
    {
      if list[i].id == categoryId && j == |list[i].options| {
      } else {
        assert r[i].options[j] == list[i].options[j];
      }
    }
  }

  lemma RemoveOptionKeepsPrices(list: seq<ModifierGroup>, categoryId: string, optionId: string)
    requires ProductModal.NonNegativePrices(list)
    ensures ProductModal.NonNegativePrices(RemoveOption(list, categoryId, optionId))
  {
    var r := RemoveOption(list, categoryId, optionId);
    forall i, j | 0 <= i < |r| && 0 <= j < |r[i].options|
      ensures r[i].options[j].price >= 0
    {
      var o := r[i].options[j];
      assert o in r[i].options;
      assert o in list[i].options;
    }
  }

  lemma RemoveCategoryKeepsPrices(list: seq<ModifierGroup>, categoryId: string)
    requires ProductModal.NonNegativePrices(list)
    ensures ProductModal.NonNegativePrices(RemoveCategory(list, categoryId))
  {
    var r := RemoveCategory(list, categoryId);
    forall i, j | 0 <= i < |r| && 0 <= j < |r[i].options|
      ensures r[i].options[j].price >= 0
    {
      assert r[i] in r;
    }
  }
}

=== FILE: order_detail.dfy ===
/** The add-on text of an ordered item in the order detail dialog
    (src/components/common/OrderDetailModal.tsx): one line per selection
    entry whose group is known and whose ids name at least one option. */
module OrderDetail {
  import opened Types
  import opened Seqs
  import ProductModal

  /** `groups.find(g => g.id === groupId)`: the first group with that id. */
  function FindGroup(groups: seq<ModifierGroup>, id: string): (r: Option<ModifierGroup>)
    ensures r.Some? ==> r.value in groups && r.value.id == id
    ensures r.None? <==> forall i :: 0 <= i < |groups| ==> groups[i].id != id
  {
    match FindFirst(groups, GroupWithId(id))
    case None => None
    case Some(k) => Some(groups[k])
  }

  function GroupWithId(id: string): ModifierGroup -> bool
  {
    (g: ModifierGroup) => g.id == id
  }

  /** The names of the selected ids, in selection order: each id is looked
      up with `find`, and an id with no option or an option with an empty
      name (both falsy) gives no label. */
  function Labels(opts: seq<ModifierOption>, ids: seq<string>): (r: seq<string>)
    ensures |r| <= |ids|
    ensures forall i :: 0 <= i < |r| ==> r[i] != ""
    ensures forall i :: 0 <= i < |r| ==> exists j :: 0 <= j < |opts| && opts[j].name == r[i] && opts[j].id in ids
  {
    if |ids| == 0 then []
    else
      var rest := Labels(opts, ids[1..]);
      match ProductModal.FindOption(opts, ids[0])
      case None => rest
      case Some(k) => if opts[k].name == "" then rest else [opts[k].name] + rest
  }

  /** Labels of two runs of ids are the labels of each, in order. */
  lemma {:induction false} LabelsAppend(opts: seq<ModifierOption>, a: seq<string>, b: seq<string>)
    ensures Labels(opts, a + b) == Labels(opts, a) + Labels(opts, b)
  {
    if |a| == 0 {
      assert a + b == b;
    } else {
      assert (a + b)[0] == a[0] && (a + b)[1..] == a[1..] + b;
      LabelsAppend(opts, a[1..], b);
    }
  }

  /** Ids that name no option in the group give no labels at all. */
  lemma {:induction false} UnknownIdsNoLabels(opts: seq<ModifierOption>, ids: seq<string>)
    requires forall i, j :: 0 <= i < |ids| && 0 <= j < |opts| ==> opts[j].id != ids[i]
    ensures Labels(opts, ids) == []
  {
    if |ids| > 0 {
      UnknownIdsNoLabels(opts, ids[1..]);
    }
  }

  /** The line for one entry, or none (`null`, dropped by `.filter(Boolean)`). */
  function EntryText(groups: seq<ModifierGroup>, e: Entry): (r: Option<string>)
    ensures r.Some? ==> exists g :: g in groups && g.id == e.groupId && StartsWith(r.value, g.name + ": ")
    ensures FindGroup(groups, e.groupId).None? ==> r.None?
  {
    match FindGroup(groups, e.groupId)
    case None => None
    case Some(g) =>
      var labels := Labels(g.options, e.optionIds);
      if |labels| == 0 then None
      else
        var line := g.name + ": " + Join(labels, ", ");
        assert line[..|g.name + ": "|] == g.name + ": ";
        Some(line)
  }

  /** The `map` over the entries followed by `.filter(Boolean)`. */
  function RenderLines(groups: seq<ModifierGroup>, sel: Selections): (r: seq<string>)
    ensures |r| <= |sel|
    ensures forall i :: 0 <= i < |r| ==> exists g :: g in groups && StartsWith(r[i], g.name + ": ")
    ensures |groups| == 0 ==> r == []
  {
    if |sel| == 0 then []
    else
      var rest := RenderLines(groups, sel[1..]);
      match EntryText(groups, sel[0])
      case None => rest
      case Some(line) => [line] + rest
  }

  /** Lines follow entry order: rendering two runs of entries is rendering each. */
  lemma {:induction false} RenderLinesAppend(groups: seq<ModifierGroup>, a: Selections, b: Selections)
    ensures RenderLines(groups, a + b) == RenderLines(groups, a) + RenderLines(groups, b)
  {
    if |a| == 0 {
      assert a + b == b;
    } else {
      assert (a + b)[0] == a[0] && (a + b)[1..] == a[1..] + b;
      RenderLinesAppend(groups, a[1..], b);
    }
  }

  /** An entry whose group the product does not have, or whose ids name
      none of the group's options, adds no line. */
  lemma SkippedEntry(groups: seq<ModifierGroup>, e: Entry, rest: Selections)
    requires FindGroup(groups, e.groupId).None?
      || (forall i, j :: 0 <= i < |e.optionIds| && 0 <= j < |FindGroup(groups, e.groupId).value.options| ==>
            FindGroup(groups, e.groupId).value.options[j].id != e.optionIds[i])
    ensures RenderLines(groups, [e] + rest) == RenderLines(groups, rest)
  {
    assert ([e] + rest)[1..] == rest;
    if FindGroup(groups, e.groupId).Some? {
      UnknownIdsNoLabels(FindGroup(groups, e.groupId).value.options, e.optionIds);
    }
  }

  /** A known group with a named option renders `<group>: <labels>`. */
  lemma OneEntryLine(groups: seq<ModifierGroup>, e: Entry, k: nat)
    requires 0 <= k < |groups| && groups[k].id == e.groupId
    requires forall j :: 0 <= j < k ==> groups[j].id != e.groupId
    requires |Labels(groups[k].options, e.optionIds)| > 0
    ensures RenderLines(groups, [e]) == [groups[k].name + ": " + Join(Labels(groups[k].options, e.optionIds), ", ")]
  {
    assert FindGroup(groups, e.groupId) == Some(groups[k]) by {
      FirstGroupFound(groups, e.groupId, k);
    }
    assert [e][1..] == [];
  }

  lemma FirstGroupFound(groups: seq<ModifierGroup>, id: string, k: nat)
    requires 0 <= k < |groups| && groups[k].id == id
    requires forall j :: 0 <= j < k ==> groups[j].id != id
    ensures FindGroup(groups, id) == Some(groups[k])
  {
  }

  /** `renderModifierText(item)`: `item.modifiers || {}` over
      `item.products?.modifiers || []`. */
  function RenderModifierText(modifiers: Option<Selections>, groups: Option<seq<ModifierGroup>>): (r: seq<string>)
    ensures modifiers.None? || groups.None? ==> r == []
    ensures |r| <= |modifiers.GetOr([])|
  {
    RenderLines(groups.GetOr([]), modifiers.GetOr([]))
  }
}

=== FILE: order_history.dfy ===
/** The order history on the profile page (src/pages/Profile.tsx): the
    status filter and text search, the four sort orders, the clean-up of
    stored selections, and "buy again", which puts a past order back into
    the cart. */
module OrderHistory {
  import opened Types
  import opened Seqs
  import opened Cart
  import Sorting
  import Decimal
  import SelectionRecord

  /** A JSON value as stored in a `jsonb` column or produced by `JSON.parse`
      (numbers restricted to integers). */
  datatype Json =
    | JNull
    | JBool(b: bool)
    | JNumber(n: int)
    | JString(s: string)
    | JArray(items: seq<Json>)
    | JObject(members: seq<Member>)

  /** One key/value pair of an object, in `Object.entries` order. */
  datatype Member = Member(key: string, value: Json)

  /** One `order_items` row joined with its product (`products`), which may be gone. */
  datatype OrderLine = OrderLine(
    product: Option<Product>,
    quantity: Option<int>,
    modifiers: Json,
    notes: Option<string>)

  /** An `orders` row with its lines. `created_at` is an instant in milliseconds. */
  datatype OrderView = OrderView(
    id: int,
    status: string,
    createdAt: int,
    totalPrice: Option<int>,
    pointsUsed: Option<int>,
    items: seq<OrderLine>)

  // ---------------------------------------------------------------------
  // Filter and search

  predicate StatusMatches(o: OrderView, status: string)
  {
    status == "all" || o.status == status
  }

  function ByStatus(status: string): OrderView -> bool
  {
    (o: OrderView) => StatusMatches(o, status)
  }

  /** `item.products?.name || ''` */
  function ProductName(line: OrderLine): string
  {
    if line.product.Some? then line.product.value.name else ""
  }

  /** The item names joined by spaces and lower-cased. */
  function ItemText(o: OrderView): string
  {
    Lower(Join(seq(|o.items|, i requires 0 <= i < |o.items| => ProductName(o.items[i])), " "))
  }

  /** An empty query matches everything; otherwise it must occur in the
      order id or in the item text. */
  predicate QueryMatches(o: OrderView, q: string)
  {
    q == "" || Contains(Lower(Decimal.IntToString(o.id)), q) || Contains(ItemText(o), q)
  }

  function BySearch(q: string): OrderView -> bool
  {
    (o: OrderView) => QueryMatches(o, q)
  }

  /** `searchOrder.trim().toLowerCase()` */
  function Query(search: string): string
  {
    Lower(Trim(search))
  }

  // ---------------------------------------------------------------------
  // Sorting

  datatype SortType = Newest | Oldest | Highest | Lowest

  /** `total_price`, where a missing value subtracts as 0. */
  function Total(o: OrderView): int
  {
    o.totalPrice.GetOr(0)
  }

  /** When `a` may come before `b`: the comparator of each sort order is
      `<= 0` on the pair. */
  function Before(sort: SortType): (OrderView, OrderView) -> bool
  {
    match sort
    case Newest => (a: OrderView, b: OrderView) => a.createdAt >= b.createdAt
    case Oldest => (a: OrderView, b: OrderView) => a.createdAt <= b.createdAt
    case Highest => (a: OrderView, b: OrderView) => Total(a) >= Total(b)
    case Lowest => (a: OrderView, b: OrderView) => Total(a) <= Total(b)
  }

  lemma BeforeIsTotalPreorder(sort: SortType)
    ensures Sorting.TotalPreorder(Before(sort))
  {
  }

  /** `filteredOrders`: the orders passing the status filter and the search,
      reordered by the chosen sort; orders the sort ranks level (the same
      instant, or the same total) stay in the order they were fetched in. */
  function FilteredOrders(orders: seq<OrderView>, search: string, status: string, sort: SortType): (r: seq<OrderView>)
    ensures multiset(r) == multiset(Filter(Filter(orders, ByStatus(status)), BySearch(Query(search))))
    ensures Sorting.Sorted(r, Before(sort))
    ensures forall o :: o in r <==> o in orders && StatusMatches(o, status) && QueryMatches(o, Query(search))
    ensures forall k ::
      Filter(r, Sorting.LevelWith(Before(sort), k))
        == Filter(Filter(Filter(orders, ByStatus(status)), BySearch(Query(search))), Sorting.LevelWith(Before(sort), k))
  {
    BeforeIsTotalPreorder(sort);
    var kept := Filter(Filter(orders, ByStatus(status)), BySearch(Query(search)));
    var r := Sorting.SortBy(kept, Before(sort));
    assert forall o :: o in r <==> o in kept by {
      forall o ensures o in r <==> o in kept {
        assert o in r <==> o in multiset(r);
        assert o in kept <==> o in multiset(kept);
      }
    }
    r
  }

  /** With the filter on "all" and a blank search box, the list is every
      order, only reordered. */
  lemma ShowAllIsPermutation(orders: seq<OrderView>, search: string, sort: SortType)
    requires Trim(search) == ""
    ensures multiset(FilteredOrders(orders, search, "all", sort)) == multiset(orders)
  {
    FilterAll(orders, ByStatus("all"));
    assert Query(search) == "";
    FilterAll(orders, BySearch(""));
  }

  // ---------------------------------------------------------------------
  // Stored selections

  /** `String(v)` for a JSON value; an array joins its elements with commas,
      `null` elements giving the empty string. */
  function JsString(j: Json): string
  {
    match j
    case JNull => "null"
    case JBool(b) => if b then "true" else "false"
    case JNumber(n) => Decimal.IntToString(n)
    case JString(s) => s
    case JArray(items) =>
      Join(seq(|items|, i requires 0 <= i < |items| => if items[i].JNull? then "" else JsString(items[i])), ",")
    case JObject(_) => "[object Object]"
  }

  /** `value.map(v => String(v))` */
  function Strings(items: seq<Json>): (r: seq<string>)
    ensures |r| == |items| && forall i :: 0 <= i < |items| ==> r[i] == JsString(items[i])
  {
    seq(|items|, i requires 0 <= i < |items| => JsString(items[i]))
  }

  /** `!raw` for a JSON value. */
  predicate Falsy(j: Json)
  {
    j.JNull? || j == JBool(false) || j == JNumber(0) || j == JString("")
  }

  /** The keys of an object are distinct. */
  predicate DistinctMemberKeys(members: seq<Member>)
  {
    forall i, j :: 0 <= i < j < |members| ==> members[i].key != members[j].key
  }

  /** The `forEach` over `Object.entries(parsed)`, keeping array values. */
  function Collect(members: seq<Member>): (r: Selections)
    ensures SelectionRecord.UniqueKeys(r)
  {
    if |members| == 0 then []
    else
      var last := members[|members| - 1];
      var acc := Collect(members[..|members| - 1]);
      if last.value.JArray? then SelectionRecord.SetGroup(acc, last.key, Strings(last.value.items))
      else acc
  }

  /** The value a key ends up with, read off the members directly: the
      strings of the last array-valued member with that key. */
  function ArrayValueFor(members: seq<Member>, k: string): Option<seq<string>>
  {
    if |members| == 0 then None
    else
      var last := members[|members| - 1];
      if last.key == k && last.value.JArray? then Some(Strings(last.value.items))
      else ArrayValueFor(members[..|members| - 1], k)
  }

  lemma {:induction false} CollectLookup(members: seq<Member>, k: string)
    ensures SelectionRecord.Lookup(Collect(members), k) == ArrayValueFor(members, k)
  {
    if |members| > 0 {
      CollectLookup(members[..|members| - 1], k);
    }
  }

  /** With distinct keys, each key maps to its own member's strings when
      that member is an array, and is absent otherwise. */
  lemma {:induction false} ArrayValueForDistinct(members: seq<Member>, i: nat)
    requires DistinctMemberKeys(members) && i < |members|
    ensures ArrayValueFor(members, members[i].key) ==
      (if members[i].value.JArray? then Some(Strings(members[i].value.items)) else None)
  {
    var n := |members| - 1;
    if i < n {
      var init := members[..n];
      assert init[i] == members[i];
      assert members[n].key != members[i].key;
      assert DistinctMemberKeys(init) by {
        forall a, b | 0 <= a < b < |init| ensures init[a].key != init[b].key {
          assert init[a] == members[a] && init[b] == members[b];
        }
      }
      ArrayValueForDistinct(init, i);
    } else if !members[n].value.JArray? {
      AbsentKeyNoValue(members[..n], members[n].key);
    }
  }

  /** `normalizeSelections(raw)` with `JSON.parse` as `parse`, which yields
      `None` where the real one throws. */
  function NormalizeSelections(raw: Json, parse: string -> Option<Json>): (r: Selections)
    ensures SelectionRecord.UniqueKeys(r)
    ensures Falsy(raw) ==> r == []
    ensures raw.JString? && parse(raw.s).None? ==> r == []
    ensures !raw.JString? && !raw.JObject? ==> r == []
  {
    if Falsy(raw) then []
    else
      var parsed := if raw.JString? then parse(raw.s).GetOr(JObject([])) else raw;
      // `null`, a boolean, number or string, and an array all give `{}`
      if !parsed.JObject? then [] else Collect(parsed.members)
  }

  /** An object with distinct keys keeps exactly its array-valued members,
      each as the strings of its elements. */
  lemma NormalizeObject(members: seq<Member>, parse: string -> Option<Json>, i: nat)
    requires DistinctMemberKeys(members) && i < |members|
    ensures SelectionRecord.Lookup(NormalizeSelections(JObject(members), parse), members[i].key) ==
      (if members[i].value.JArray? then Some(Strings(members[i].value.items)) else None)
  {
    CollectLookup(members, members[i].key);
    ArrayValueForDistinct(members, i);
  }

  /** Keys that are not in the object are not in the result. */
  lemma {:induction false} NormalizeNoNewKeys(members: seq<Member>, parse: string -> Option<Json>, k: string)
    requires forall i :: 0 <= i < |members| ==> members[i].key != k
    ensures SelectionRecord.Lookup(NormalizeSelections(JObject(members), parse), k).None?
  {
    CollectLookup(members, k);
    AbsentKeyNoValue(members, k);
  }

  lemma {:induction false} AbsentKeyNoValue(members: seq<Member>, k: string)
    requires forall i :: 0 <= i < |members| ==> members[i].key != k
    ensures ArrayValueFor(members, k).None?
  {
    if |members| > 0 {
      AbsentKeyNoValue(members[..|members| - 1], k);
    }
  }

  // ---------------------------------------------------------------------
  // Buy again

  /** `Number(orderItem.quantity || 0)` */
  function Qty(line: OrderLine): int
  {
    line.quantity.GetOr(0)
  }

  /** A line is put back unless its product is gone, is marked unavailable,
      or its quantity is below 1. */
  predicate Addable(line: OrderLine)
  {
    line.product.Some? && line.product.value.isAvailable != Some(false) && Qty(line) >= 1
  }

  /** The product handed to `addToCart`: the product itself with the
      normalised selections and the line's notes as its modifiers. */
  function CartItemFor(line: OrderLine, parse: string -> Option<Json>): (item: Item)
    requires line.product.Some?
    ensures item.product == line.product.value && item.basePrice.None?
    ensures item.modifiers.Some? && item.modifiers.value.selections == NormalizeSelections(line.modifiers, parse)
    ensures line.notes.Some? ==> item.modifiers.value.notes == line.notes.value
    ensures line.notes.None? ==> item.modifiers.value.notes == ""
    ensures item.groups == line.product.value.modifiers
  {
    var p := line.product.value;
    Item(p, None, Some(Modifiers(NormalizeSelections(line.modifiers, parse), line.notes.GetOr(""))), p.modifiers)
  }

  /** Two order lines put back land on the same cart line exactly when they
      name the same product id with the same normalised selections and the
      same `notes || ''`. */
  lemma PutBackKeysAgree(a: OrderLine, b: OrderLine, parse: string -> Option<Json>)
    requires a.product.Some? && b.product.Some?
    ensures KeyOf(CartItemFor(a, parse)) == KeyOf(CartItemFor(b, parse)) <==>
      && a.product.value.id == b.product.value.id
      && NormalizeSelections(a.modifiers, parse) == NormalizeSelections(b.modifiers, parse)
      && a.notes.GetOr("") == b.notes.GetOr("")
  {
    var ia, ib := CartItemFor(a, parse), CartItemFor(b, parse);
    GenerateCartIdSeparates(ia.product, ia.modifiers, ib.product, ib.modifiers);
  }

  datatype Progress = Progress(cart: seq<Line>, added: int, skipped: nat)

  /** The units the addable lines put under `key`. */
  function UnitsUnder(lines: seq<OrderLine>, parse: string -> Option<Json>, key: Key): int
    decreases |lines|
  {
    if |lines| == 0 then 0
    else
      var last := lines[|lines| - 1];
      UnitsUnder(lines[..|lines| - 1], parse, key) +
        (if Addable(last) && KeyOf(CartItemFor(last, parse)) == key then Qty(last) else 0)
  }

  /** Some addable line of `lines` is put back as exactly `item`. */
  predicate PutBack(lines: seq<OrderLine>, parse: string -> Option<Json>, item: Item)
  {
    exists i :: 0 <= i < |lines| && Addable(lines[i]) && CartItemFor(lines[i], parse) == item
  }

  /** The cart after one line of the loop. */
  function PutLine(c: seq<Line>, line: OrderLine, parse: string -> Option<Json>): seq<Line>
  {
    if Addable(line) then AddToCart(c, CartItemFor(line, parse), Qty(line)) else c
  }

  /** The `forEach` over the order's lines, front to back: each addable line
      goes through `addToCart` as its product with the normalised selections
      and notes, every other line is skipped. What the cart then holds is
      stated by `AddAllUnits` and `AddAllLines`. */
  function AddAll(cart: seq<Line>, lines: seq<OrderLine>, parse: string -> Option<Json>): (r: Progress)
    ensures r.added == SumOf(Filter(lines, Addable), Qty)
    ensures r.skipped == |lines| - |Filter(lines, Addable)|
    ensures Valid(cart) ==> Valid(r.cart) && CartCount(r.cart) == CartCount(cart) + r.added
    decreases |lines|
  {
    if |lines| == 0 then Progress(cart, 0, 0)
    else
      var init := lines[..|lines| - 1];
      var last := lines[|lines| - 1];
      var p := AddAll(cart, init, parse);
      assert lines == init + [last];
      FilterAppend(init, [last], Addable);
      SumOfAppend(Filter(init, Addable), Filter([last], Addable), Qty);
      assert [last][1..] == [];
      PutLineKeepsValid(p.cart, last, parse);
      var c := PutLine(p.cart, last, parse);
      if Addable(last) then Progress(c, p.added + Qty(last), p.skipped)
      else Progress(c, p.added, p.skipped + 1)
  }

  lemma PutLineKeepsValid(c: seq<Line>, line: OrderLine, parse: string -> Option<Json>)
    ensures Valid(c) ==> Valid(PutLine(c, line, parse))
    ensures Valid(c) ==> CartCount(PutLine(c, line, parse)) == CartCount(c) + (if Addable(line) then Qty(line) else 0)
  {
    if Addable(line) {
      AddKeepsValid(c, CartItemFor(line, parse), Qty(line));
    }
  }

  /** The loop's last line is put on the cart the earlier lines left. */
  lemma AddAllLast(cart: seq<Line>, lines: seq<OrderLine>, parse: string -> Option<Json>)
    requires |lines| > 0
    ensures AddAll(cart, lines, parse).cart ==
      PutLine(AddAll(cart, lines[..|lines| - 1], parse).cart, lines[|lines| - 1], parse)
  {
  }

  /** Going from `cart` to `c` by putting back `lines` raised the units
      under every key by the addable lines' quantities under it, and every
      addable line's key is in `c`. */
  ghost predicate UnitsRaised(cart: seq<Line>, lines: seq<OrderLine>, parse: string -> Option<Json>, c: seq<Line>)
  {
    && (forall key :: QtyAt(c, key) == QtyAt(cart, key) + UnitsUnder(lines, parse, key))
    && (forall i :: 0 <= i < |lines| && Addable(lines[i]) ==> Find(c, KeyOf(CartItemFor(lines[i], parse))).Some?)
  }

  /** Going from `cart` to `c` by putting back `lines` kept every old line's
      item and key in place, and every line beyond them holds the item some
      addable line put back. */
  ghost predicate LinesKept(cart: seq<Line>, lines: seq<OrderLine>, parse: string -> Option<Json>, c: seq<Line>)
  {
    && |cart| <= |c|
    && (forall j :: 0 <= j < |cart| ==> c[j].item == cart[j].item && c[j].cartId == cart[j].cartId)
    && (forall j :: |cart| <= j < |c| ==> PutBack(lines, parse, c[j].item))
  }

  /** Buy again raises each key's units by exactly what the order's
      addable lines carry under that key, and finds every one of them. */
  lemma {:induction false} AddAllUnits(cart: seq<Line>, lines: seq<OrderLine>, parse: string -> Option<Json>)
    ensures UnitsRaised(cart, lines, parse, AddAll(cart, lines, parse).cart)
    decreases |lines|
  {
    if |lines| > 0 {
      var init := lines[..|lines| - 1];
      var last := lines[|lines| - 1];
      AddAllUnits(cart, init, parse);
      assert lines == init + [last];
      AddAllLast(cart, lines, parse);
      UnitsStep(cart, init, last, lines, parse, AddAll(cart, init, parse).cart, AddAll(cart, lines, parse).cart);
    }
  }

  /** Buy again leaves the cart's lines in place and only appends items
      built from the order's addable lines. */
  lemma {:induction false} AddAllLines(cart: seq<Line>, lines: seq<OrderLine>, parse: string -> Option<Json>)
    ensures LinesKept(cart, lines, parse, AddAll(cart, lines, parse).cart)
    decreases |lines|
  {
    if |lines| > 0 {
      var init := lines[..|lines| - 1];
      var last := lines[|lines| - 1];
      AddAllLines(cart, init, parse);
      assert lines == init + [last];
      AddAllLast(cart, lines, parse);
      LinesStep(cart, init, last, lines, parse, AddAll(cart, init, parse).cart, AddAll(cart, lines, parse).cart);
    }
  }

  lemma UnitsStep(cart: seq<Line>, init: seq<OrderLine>, last: OrderLine, lines: seq<OrderLine>,
                  parse: string -> Option<Json>, c: seq<Line>, r: seq<Line>)
    requires lines == init + [last]
    requires UnitsRaised(cart, init, parse, c)
    requires r == PutLine(c, last, parse)
    ensures UnitsRaised(cart, lines, parse, r)
  {
    QtyStep(cart, init, last, lines, parse, c);
    FoundStep(init, last, lines, parse, c);
  }

  lemma LinesStep(cart: seq<Line>, init: seq<OrderLine>, last: OrderLine, lines: seq<OrderLine>,
                  parse: string -> Option<Json>, c: seq<Line>, r: seq<Line>)
    requires lines == init + [last]
    requires LinesKept(cart, init, parse, c)
    requires r == PutLine(c, last, parse)
    ensures LinesKept(cart, lines, parse, r)
  {
    PutBackGrows(init, last, parse);
    if Addable(last) {
      AddStep(c, CartItemFor(last, parse), Qty(last), cart, lines, parse);
    }
  }

  /** One more line raises the units under its own key by its quantity. */
  lemma QtyStep(cart: seq<Line>, init: seq<OrderLine>, last: OrderLine, lines: seq<OrderLine>,
                parse: string -> Option<Json>, c: seq<Line>)
    requires lines == init + [last]
    requires forall key :: QtyAt(c, key) == QtyAt(cart, key) + UnitsUnder(init, parse, key)
    ensures forall key :: QtyAt(PutLine(c, last, parse), key) == QtyAt(cart, key) + UnitsUnder(lines, parse, key)
  {
    assert lines[..|lines| - 1] == init && lines[|lines| - 1] == last;
    forall key
      ensures QtyAt(PutLine(c, last, parse), key) == QtyAt(cart, key) + UnitsUnder(lines, parse, key)
    {
      if Addable(last) {
        AddToCartQtyAt(c, CartItemFor(last, parse), Qty(last), key);
      }
    }
  }

  /** Every addable line, old or new, is found in the cart after one more line. */
  lemma FoundStep(init: seq<OrderLine>, last: OrderLine, lines: seq<OrderLine>,
                  parse: string -> Option<Json>, c: seq<Line>)
    requires lines == init + [last]
    requires forall i :: 0 <= i < |init| && Addable(init[i]) ==> Find(c, KeyOf(CartItemFor(init[i], parse))).Some?
    ensures forall i :: 0 <= i < |lines| && Addable(lines[i]) ==>
      Find(PutLine(c, last, parse), KeyOf(CartItemFor(lines[i], parse))).Some?
  {
    var r := PutLine(c, last, parse);
    if Addable(last) {
      AddToCartKeeps(c, CartItemFor(last, parse), Qty(last));
    }
    forall i | 0 <= i < |lines| && Addable(lines[i])
      ensures Find(r, KeyOf(CartItemFor(lines[i], parse))).Some?
    {
      if i < |init| {
        assert lines[i] == init[i];
      } else {
        assert lines[i] == last;
      }
    }
  }

  /** A line put back from the first lines is put back from all of them. */
  lemma PutBackGrows(init: seq<OrderLine>, last: OrderLine, parse: string -> Option<Json>)
    ensures forall item :: PutBack(init, parse, item) ==> PutBack(init + [last], parse, item)
    ensures Addable(last) ==> PutBack(init + [last], parse, CartItemFor(last, parse))
  {
    var lines := init + [last];
    forall item | PutBack(init, parse, item) ensures PutBack(lines, parse, item) {
      var i :| 0 <= i < |init| && Addable(init[i]) && CartItemFor(init[i], parse) == item;
      assert lines[i] == init[i];
    }
    if Addable(last) {
      assert lines[|init|] == last;
    }
  }

  /** One `addToCart` of the loop keeps the old lines in place and appends
      only the item put back. */
  lemma AddStep(c: seq<Line>, item: Item, q: int, cart: seq<Line>,
                lines: seq<OrderLine>, parse: string -> Option<Json>)
    requires |cart| <= |c|
    requires forall j :: 0 <= j < |cart| ==> c[j].item == cart[j].item && c[j].cartId == cart[j].cartId
    requires forall j :: |cart| <= j < |c| ==> PutBack(lines, parse, c[j].item)
    requires PutBack(lines, parse, item)
    ensures var r := AddToCart(c, item, q);
      && |cart| <= |r|
      && (forall j :: 0 <= j < |cart| ==> r[j].item == cart[j].item && r[j].cartId == cart[j].cartId)
      && (forall j :: |cart| <= j < |r| ==> PutBack(lines, parse, r[j].item))
      && Find(r, KeyOf(item)).Some?
      && (forall key :: Find(c, key).Some? ==> Find(r, key).Some?)
  {
    AddToCartKeeps(c, item, q);
  }

  lemma AddKeepsValid(cart: seq<Line>, item: Item, quantity: int)
    ensures Valid(cart) ==> Valid(AddToCart(cart, item, quantity))
    ensures Valid(cart) ==> CartCount(AddToCart(cart, item, quantity)) == CartCount(cart) + quantity
  {
    if Valid(cart) {
      AddToCartValid(cart, item, quantity);
      AddToCartCount(cart, item, quantity);
    }
  }

  datatype BuyAgainOutcome =
    | NoItems
    | Added(cart: seq<Line>, added: int, skipped: nat)
    | NothingAvailable(skipped: nat)

  /** `handleBuyAgain(order)`; the cart only changes on the `Added` outcome. */
  function BuyAgain(cart: seq<Line>, o: OrderView, parse: string -> Option<Json>): (r: BuyAgainOutcome)
    ensures |o.items| == 0 <==> r.NoItems?
    ensures r.Added? <==> (exists i :: 0 <= i < |o.items| && Addable(o.items[i]))
    ensures r.Added? ==> r.added == SumOf(Filter(o.items, Addable), Qty) && r.added > 0
    ensures r.Added? ==> r.skipped == |o.items| - |Filter(o.items, Addable)|
    ensures r.Added? && Valid(cart) ==> Valid(r.cart) && CartCount(r.cart) == CartCount(cart) + r.added
    ensures r.NothingAvailable? ==> r.skipped == |o.items|
    ensures r.Added? ==> UnitsRaised(cart, o.items, parse, r.cart)
    ensures r.Added? ==> LinesKept(cart, o.items, parse, r.cart)
  {
    if |o.items| == 0 then NoItems
    else
      var p := AddAll(cart, o.items, parse);
      AddedIffAddable(o.items);
      AddAllUnits(cart, o.items, parse);
      AddAllLines(cart, o.items, parse);
      if p.added > 0 then Added(p.cart, p.added, p.skipped)
      else
        assert Filter(o.items, Addable) == [];
        NothingAvailable(p.skipped)
  }

  /** Every line put back adds at least one unit, so something is added
      exactly when some line is addable. */
  lemma {:induction false} AddedIffAddable(lines: seq<OrderLine>)
    ensures SumOf(Filter(lines, Addable), Qty) >= |Filter(lines, Addable)|
    ensures SumOf(Filter(lines, Addable), Qty) > 0 <==> exists i :: 0 <= i < |lines| && Addable(lines[i])
  {
    if |lines| > 0 {
      AddedIffAddable(lines[1..]);
      if Addable(lines[0]) {
        assert Filter(lines, Addable) == [lines[0]] + Filter(lines[1..], Addable);
      } else {
        assert (exists i :: 0 <= i < |lines| && Addable(lines[i])) ==>
          exists i :: 0 <= i < |lines[1..]| && Addable(lines[1..][i]) by {
          if exists i :: 0 <= i < |lines| && Addable(lines[i]) {
            var i :| 0 <= i < |lines| && Addable(lines[i]);
            assert lines[1..][i - 1] == lines[i];
          }
        }
      }
    }
  }
}

=== FILE: product_modal.dfy ===
/** The customisation dialog of src/components/menu/ProductModal.tsx:
    radio/checkbox toggling of modifier options, the required-group check,
    the live price, the quantity stepper and the item handed to the cart. */
module ProductModal {
  import opened Types
  import opened Seqs
  import opened SelectionRecord
  import opened Cart

  /** `toggleSelection(modId, optId, isSingle, isRequired)`. A single group
      behaves as a radio button (an optional one may be cleared by choosing
      its option again); a multi group as a set of checkboxes. */
  function Toggle(sel: Selections, groupId: string, optId: string, single: bool, required: bool): (r: Selections)
    ensures forall g :: g != groupId ==> Lookup(r, g) == Lookup(sel, g)
    ensures Lookup(r, groupId).Some?
    ensures Lookup(sel, groupId).Some? ==>
      |r| == |sel| && forall j :: 0 <= j < |sel| ==> r[j].groupId == sel[j].groupId
    ensures Lookup(sel, groupId).None? ==>
      |r| == |sel| + 1 && r[..|sel|] == sel && r[|sel|].groupId == groupId
    ensures forall j :: 0 <= j < |sel| && sel[j].groupId != groupId ==> j < |r| && r[j] == sel[j]
    ensures UniqueKeys(sel) ==> UniqueKeys(r)
    ensures NoDuplicates(Selected(sel, groupId)) ==> NoDuplicates(Selected(r, groupId))
    ensures single && required ==> Selected(r, groupId) == [optId]
    ensures single && !required && optId in Selected(sel, groupId) ==> Selected(r, groupId) == []
    ensures single && !required && optId !in Selected(sel, groupId) ==> Selected(r, groupId) == [optId]
    ensures !single && optId in Selected(sel, groupId) ==>
      && IsSubsequence(Selected(r, groupId), Selected(sel, groupId))
      && forall x :: x in Selected(r, groupId) <==> x in Selected(sel, groupId) && x != optId
    ensures !single && optId !in Selected(sel, groupId) ==>
      Selected(r, groupId) == Selected(sel, groupId) + [optId]
  {
    var current := Selected(sel, groupId);
    if single then
      if !required && optId in current then SetGroup(sel, groupId, [])
      else SetGroup(sel, groupId, [optId])
    else if optId in current then
      var kept := Filter(current, (x: string) => x != optId);
      FilterIsSubsequence(current, (x: string) => x != optId);
      FilterNoDuplicates(current, (x: string) => x != optId);
      SetGroup(sel, groupId, kept)
    else
      SetGroup(sel, groupId, current + [optId])
  }

  /** A single-choice group never holds more than one option after a toggle. */
  lemma SingleHoldsAtMostOne(sel: Selections, groupId: string, optId: string, required: bool)
    ensures |Selected(Toggle(sel, groupId, optId, true, required), groupId)| <= 1
  {
  }

  /** Ticking a checkbox and unticking it again restores every group's selection. */
  lemma ToggleMultiTwice(sel: Selections, groupId: string, optId: string, required: bool)
    requires optId !in Selected(sel, groupId)
    ensures var r := Toggle(Toggle(sel, groupId, optId, false, required), groupId, optId, false, required);
      forall g :: Selected(r, g) == Selected(sel, g)
  {
    var once := Toggle(sel, groupId, optId, false, required);
    var current := Selected(sel, groupId);
    assert Selected(once, groupId) == current + [optId];
    var p := (x: string) => x != optId;
    FilterAppend(current, [optId], p);
    FilterAll(current, p);
    assert Filter([optId], p) == [];
  }

  /** `isValid`: every required group has at least one selected option. */
  function IsValid(groups: seq<ModifierGroup>, sel: Selections): (r: bool)
    ensures r <==> forall i :: 0 <= i < |groups| && groups[i].isRequired ==> |Selected(sel, groups[i].id)| > 0
  {
    if |groups| == 0 then true
    else (!groups[0].isRequired || |Selected(sel, groups[0].id)| > 0) && IsValid(groups[1..], sel)
  }

  /** Choosing an option of a required radio group satisfies that group
      without disturbing any other group's status. */
  lemma ToggleRequiredSingle(groups: seq<ModifierGroup>, sel: Selections, groupId: string, optId: string)
    requires forall i :: 0 <= i < |groups| && groups[i].isRequired && groups[i].id != groupId ==>
      |Selected(sel, groups[i].id)| > 0
    ensures IsValid(groups, Toggle(sel, groupId, optId, true, true))
  {
    var r := Toggle(sel, groupId, optId, true, true);
    forall i | 0 <= i < |groups| && groups[i].isRequired
      ensures |Selected(r, groups[i].id)| > 0
    {
      if groups[i].id != groupId {
        assert Lookup(r, groups[i].id) == Lookup(sel, groups[i].id);
      }
    }
  }

  function HasId(id: string): ModifierOption -> bool
  {
    (o: ModifierOption) => o.id == id
  }

  /** `options.find(o => o.id === id)`, as the index of the first match. */
  function FindOption(opts: seq<ModifierOption>, id: string): (r: Option<nat>)
    ensures r.Some? ==> r.value < |opts| && opts[r.value].id == id
    ensures r.Some? ==> forall j :: 0 <= j < r.value ==> opts[j].id != id
    ensures r.None? <==> forall j :: 0 <= j < |opts| ==> opts[j].id != id
  {
    FindFirst(opts, HasId(id))
  }

  /** `if (option) addonsTotal += option.price`: the price of the first
      option with that id, 0 when there is none. */
  function OptionPrice(opts: seq<ModifierOption>, id: string): int
  {
    match FindOption(opts, id)
    case None => 0
    case Some(k) => opts[k].price
  }

  /** The add-on price of a list of selected ids inside one group. */
  function IdsPrice(opts: seq<ModifierOption>, ids: seq<string>): int
  {
    if |ids| == 0 then 0 else OptionPrice(opts, ids[0]) + IdsPrice(opts, ids[1..])
  }

  /** `addonsTotal`: over every group of the product, the prices of its
      selected ids that name one of its options. */
  function Addons(groups: seq<ModifierGroup>, sel: Selections): int
  {
    if |groups| == 0 then 0
    else IdsPrice(groups[0].options, Selected(sel, groups[0].id)) + Addons(groups[1..], sel)
  }

  /** A selected id that names no option of its group adds nothing. */
  lemma {:induction false} UnknownIdAddsNothing(opts: seq<ModifierOption>, ids: seq<string>, x: string)
    requires forall j :: 0 <= j < |opts| ==> opts[j].id != x
    ensures IdsPrice(opts, ids + [x]) == IdsPrice(opts, ids)
  {
    if |ids| > 0 {
      assert (ids + [x])[1..] == ids[1..] + [x];
      UnknownIdAddsNothing(opts, ids[1..], x);
    } else {
      assert IdsPrice(opts, [x]) == OptionPrice(opts, x) + IdsPrice(opts, []);
    }
  }

  /** Every option price in every group is non-negative. */
  predicate NonNegativePrices(groups: seq<ModifierGroup>)
  {
    forall i, j :: 0 <= i < |groups| && 0 <= j < |groups[i].options| ==> groups[i].options[j].price >= 0
  }

  lemma {:induction false} IdsPriceNonNegative(opts: seq<ModifierOption>, ids: seq<string>)
    requires forall j :: 0 <= j < |opts| ==> opts[j].price >= 0
    ensures IdsPrice(opts, ids) >= 0
  {
    if |ids| > 0 {
      IdsPriceNonNegative(opts, ids[1..]);
    }
  }

  /** With non-negative option prices the add-ons never lower the price. */
  lemma {:induction false} AddonsNonNegative(groups: seq<ModifierGroup>, sel: Selections)
    requires NonNegativePrices(groups)
    ensures Addons(groups, sel) >= 0
  {
    if |groups| > 0 {
      assert forall j :: 0 <= j < |groups[0].options| ==> groups[0].options[j].price >= 0 by {
        assert forall j :: 0 <= j < |groups[0].options| ==> groups[0].options[j].price >= 0 ==> true;
        forall j | 0 <= j < |groups[0].options| ensures groups[0].options[j].price >= 0 {
          assert 0 < |groups|;
        }
      }
      IdsPriceNonNegative(groups[0].options, Selected(sel, groups[0].id));
      assert NonNegativePrices(groups[1..]) by {
        forall i, j | 0 <= i < |groups[1..]| && 0 <= j < |groups[1..][i].options|
          ensures groups[1..][i].options[j].price >= 0
        {
          assert groups[1..][i] == groups[i + 1];
        }
      }
      AddonsNonNegative(groups[1..], sel);
    }
  }

  /** What the dialog is opened with: a catalog product, or (when editing)
      a cart line's fields spread over it. */
  datatype Opened = Opened(
    product: Product,
    basePrice: Option<int>,
    cartId: Option<Key>,
    groupsData: Option<seq<ModifierGroup>>,
    quantity: Option<int>,
    modifiers: Option<Modifiers>)

  /** The dialog's state: `quantity`, `selections` and `notes`. */
  datatype ModalState = ModalState(quantity: int, selections: Selections, notes: string)

  /** `modifiersData || modifiers || []`: an array is truthy even when empty. */
  function Groups(o: Opened): seq<ModifierGroup>
  {
    o.groupsData.GetOr(o.product.modifiers)
  }

  /** `basePrice ?? price`: the price before add-ons. */
  function Base(o: Opened): int
  {
    o.basePrice.GetOr(o.product.price)
  }

  /** The reset effect when the dialog opens: quantity `quantity || 1`;
      an edited line brings back its selections and notes, a product starts empty. */
  function Open(o: Opened): (st: ModalState)
    ensures Truthy(o.quantity) ==> st.quantity == o.quantity.value
    ensures !Truthy(o.quantity) ==> st.quantity == 1
    ensures st.quantity != 0
    ensures o.cartId.None? ==> st.selections == [] && st.notes == ""
    ensures o.cartId.Some? && o.modifiers.Some? ==>
      st.selections == o.modifiers.value.selections && st.notes == o.modifiers.value.notes
    ensures o.cartId.Some? && o.modifiers.None? ==> st.selections == [] && st.notes == ""
  {
    var q := if Truthy(o.quantity) then o.quantity.value else 1;
    if o.cartId.Some? && o.modifiers.Some? then
      ModalState(q, o.modifiers.value.selections, o.modifiers.value.notes)
    else
      ModalState(q, [], "")
  }

  /** The unit price shown and billed: base price plus add-ons. */
  function UnitPrice(o: Opened, st: ModalState): int
  {
    Base(o) + Addons(Groups(o), st.selections)
  }

  /** The dynamic price effect: `(basePrice + addonsTotal) * quantity`. */
  function TotalPrice(o: Opened, st: ModalState): (r: int)
    ensures st.quantity >= 1 && NonNegativePrices(Groups(o)) ==> r >= Base(o) * st.quantity
  {
    if st.quantity >= 1 && NonNegativePrices(Groups(o)) then
      AddonsNonNegative(Groups(o), st.selections);
      MulMonotone(Base(o), UnitPrice(o, st), st.quantity);
      UnitPrice(o, st) * st.quantity
    else
      UnitPrice(o, st) * st.quantity
  }

  lemma MulMonotone(a: int, b: int, q: nat)
    requires a <= b
    ensures a * q <= b * q
  {
  }

  /** The minus button: `Math.max(1, quantity - 1)`. */
  function StepDown(q: int): (r: int)
    ensures r >= 1
    ensures q > 1 ==> r == q - 1
    ensures q <= 1 ==> r == 1
  {
    if q - 1 > 1 then q - 1 else 1
  }

  /** The plus button: `quantity + 1`. */
  function StepUp(q: int): (r: int)
    ensures r > q
    ensures r == q + 1
  {
    q + 1
  }

  /** The minus button takes back a press of the plus button from any
      quantity the dialog can show. */
  lemma StepDownUndoesStepUp(q: int)
    requires q >= 1
    ensures StepDown(StepUp(q)) == q
  {
  }

  /** Any sequence of presses (true = plus, false = minus) from a quantity of
      at least 1 stays at least 1. */
  function Press(q: int, presses: seq<bool>): int
    decreases |presses|
  {
    if |presses| == 0 then q
    else Press(if presses[0] then StepUp(q) else StepDown(q), presses[1..])
  }

  lemma {:induction false} PressKeepsPositive(q: int, presses: seq<bool>)
    requires q >= 1
    ensures Press(q, presses) >= 1
    decreases |presses|
  {
    if |presses| > 0 {
      PressKeepsPositive(if presses[0] then StepUp(q) else StepDown(q), presses[1..]);
    }
  }

  /** `finalItem`: the product with `price` set to `totalPrice / quantity`
      (the unit price, since the total is the unit price times the quantity),
      `basePrice` set to `basePrice || price`, and the selections and notes
      attached as `modifiers`. */
  function BuildItem(o: Opened, st: ModalState): (item: Item)
    ensures item.product.(price := o.product.price) == o.product
    ensures item.modifiers == Some(Modifiers(st.selections, st.notes))
    ensures item.groups == Groups(o)
    ensures item.basePrice.Some? && (Truthy(o.basePrice) ==> item.basePrice.value == o.basePrice.value)
    ensures !Truthy(o.basePrice) ==> item.basePrice == Some(o.product.price)
    ensures item.product.price * st.quantity == TotalPrice(o, st)
  {
    var unit := UnitPrice(o, st);
    var base := if Truthy(o.basePrice) then o.basePrice.value else o.product.price;
    Item(o.product.(price := unit), Some(base), Some(Modifiers(st.selections, st.notes)), Groups(o))
  }

  /** `handleAddToCart`: nothing happens while a required group is empty;
      otherwise an edited line first loses one unit through `removeFromCart`,
      then the item is added with the dialog's quantity. */
  function HandleAddToCart(cart: seq<Line>, o: Opened, st: ModalState): (r: seq<Line>)
    ensures !IsValid(Groups(o), st.selections) ==> r == cart
    ensures IsValid(Groups(o), st.selections) && o.cartId.None? ==>
      r == AddToCart(cart, BuildItem(o, st), st.quantity)
    ensures IsValid(Groups(o), st.selections) && o.cartId.Some? ==>
      r == AddToCart(RemoveFromCart(cart, ByCartId(o.cartId.value)), BuildItem(o, st), st.quantity)
  {
    if !IsValid(Groups(o), st.selections) then cart
    else
      var before := if o.cartId.Some? then RemoveFromCart(cart, ByCartId(o.cartId.value)) else cart;
      AddToCart(before, BuildItem(o, st), st.quantity)
  }

  /** Adding a product from the dialog raises the cart count by the dialog's
      quantity; when no line has the same choices, the new last line bills
      each unit at base price plus add-ons. */
  lemma AddFromMenu(cart: seq<Line>, o: Opened, st: ModalState)
    requires DistinctKeys(cart) && o.cartId.None?
    requires IsValid(Groups(o), st.selections)
    ensures var r := HandleAddToCart(cart, o, st);
      && CartCount(r) == CartCount(cart) + st.quantity
      && (Find(cart, KeyOf(BuildItem(o, st))).None? ==>
            |r| == |cart| + 1 && Price(r[|cart|]) * st.quantity == TotalPrice(o, st))
  {
    AddToCartCount(cart, BuildItem(o, st), st.quantity);
  }

  /** Re-confirming an edited line with unchanged choices removes one unit
      and then adds the dialog's quantity to the same line: starting from
      quantity q > 1 with the dialog at q, the line ends at 2q - 1. */
  lemma EditUnchangedLine(cart: seq<Line>, o: Opened, st: ModalState, k: nat)
    requires DistinctKeys(cart) && k < |cart| && cart[k].quantity > 1
    requires o.cartId == Some(cart[k].cartId)
    requires KeyOf(BuildItem(o, st)) == cart[k].cartId
    requires IsValid(Groups(o), st.selections)
    ensures var r := HandleAddToCart(cart, o, st);
      |r| == |cart| && r[k].quantity == cart[k].quantity - 1 + st.quantity
  {
    var key := cart[k].cartId;
    assert Find(cart, key) == Some(k);
    assert FindArg(cart, ByCartId(key)) == Some(k);
    var mid := RemoveFromCart(cart, ByCartId(key));
    assert mid[k].cartId == key;
    assert Find(mid, key) == Some(k);
  }
}

=== FILE: promotions.dfy ===
/** The promotion evaluator of src/pages/Checkout.tsx (`checkMinQuantity`
    and `calculateDiscount`): a chain of checks where the first failure
    wins, then a scope-dependent eligible amount and a percentage or fixed
    discount. A thrown `Error` is an `Err` carrying the reason. */
module Promotions {
  import opened Types
  import opened Seqs
  import opened Cart

  /** The reasons `calculateDiscount` throws, plus the failed code lookup. */
  datatype PromoError =
    | Inactive
    | NotStarted
    | Expired
    | MinOrderNotMet(minimum: int)
    | MinQuantityOrder(minimum: int)
    | MinQuantityCategory(minimum: int, target: Option<string>)
    | MinQuantityProduct(minimum: int)
    | InvalidCategorySetup
    | CategoryNotInCart(category: string)
    | InvalidProductSetup
    | ProductNotInCart
    | InvalidCode

  /** `promo.promotion_targets?.[0]` */
  function FirstTarget(p: Promotion): Option<PromotionTarget>
  {
    match p.targets
    case None => None
    case Some(ts) => if |ts| == 0 then None else Some(ts[0])
  }

  /** `promo.promotion_targets?.[0]?.target_category` */
  function TargetCategory(p: Promotion): Option<string>
  {
    match FirstTarget(p)
    case None => None
    case Some(t) => t.category
  }

  /** `promo.promotion_targets?.[0]?.target_product_id` */
  function TargetProductId(p: Promotion): Option<int>
  {
    match FirstTarget(p)
    case None => None
    case Some(t) => t.productId
  }

  /** `item.category === targetCategory`: an absent target matches no line. */
  function InCategory(c: Option<string>): Line -> bool
  {
    (l: Line) => c == Some(l.item.product.category)
  }

  /** `item.id === targetProductId` */
  function IsProduct(id: Option<int>): Line -> bool
  {
    (l: Line) => id == Some(l.item.product.id)
  }

  /** `promo.scope === 'order' || promo.scope === 'global'` */
  predicate WholeOrder(s: Scope)
  {
    s == OrderScope || s == GlobalScope
  }

  /** `checkMinQuantity(promo)`: skipped when `min_quantity` is falsy; the
      whole order compares `cartCount`; category and product scopes add up
      the quantities of the lines matching the first target; any other
      scope passes. */
  function CheckMinQuantity(p: Promotion, cart: seq<Line>): (r: Result<(), PromoError>)
    ensures !Truthy(p.minQuantity) ==> r.Ok?
    ensures Truthy(p.minQuantity) && WholeOrder(p.scope) ==>
      (r.Ok? <==> CartCount(cart) >= p.minQuantity.value)
    ensures Truthy(p.minQuantity) && p.scope == CategoryScope ==>
      (r.Ok? <==> CartCount(Filter(cart, InCategory(TargetCategory(p)))) >= p.minQuantity.value)
    ensures Truthy(p.minQuantity) && p.scope == ProductScope ==>
      (r.Ok? <==> CartCount(Filter(cart, IsProduct(TargetProductId(p)))) >= p.minQuantity.value)
    ensures p.scope.OtherScope? ==> r.Ok?
    ensures r.Err? ==> r.error in {
      MinQuantityOrder(p.minQuantity.value),
      MinQuantityCategory(p.minQuantity.value, TargetCategory(p)),
      MinQuantityProduct(p.minQuantity.value)}
  {
    if !Truthy(p.minQuantity) then Ok(())
    else
      var m := p.minQuantity.value;
      match p.scope
      case OrderScope => if CartCount(cart) < m then Err(MinQuantityOrder(m)) else Ok(())
      case GlobalScope => if CartCount(cart) < m then Err(MinQuantityOrder(m)) else Ok(())
      case CategoryScope =>
        var c := TargetCategory(p);
        if CartCount(Filter(cart, InCategory(c))) < m then Err(MinQuantityCategory(m, c)) else Ok(())
      case ProductScope =>
        if CartCount(Filter(cart, IsProduct(TargetProductId(p)))) < m then Err(MinQuantityProduct(m)) else Ok(())
      case OtherScope(_) => Ok(())
  }

  /** The base the discount applies to: the whole `cartTotal` for the order,
      Σ price × quantity over the lines matching the first target for a
      category or product, 0 for any other scope. A falsy target or no
      matching line is an error. */
  function EligibleAmount(p: Promotion, cart: seq<Line>): (r: Result<int, PromoError>)
    ensures WholeOrder(p.scope) ==> r == Ok(CartTotal(cart))
    ensures p.scope == CategoryScope ==>
      var c := TargetCategory(p);
      && (c.None? || c.value == "" ==> r == Err(InvalidCategorySetup))
      && (c.Some? && c.value != "" ==>
           (r.Err? <==> forall i :: 0 <= i < |cart| ==> cart[i].item.product.category != c.value))
      && (r.Err? && c.Some? && c.value != "" ==> r.error == CategoryNotInCart(c.value))
      && (r.Ok? ==> r.value == CartTotal(Filter(cart, InCategory(c))))
    ensures p.scope == ProductScope ==>
      var id := TargetProductId(p);
      && (id.None? || id.value == 0 ==> r == Err(InvalidProductSetup))
      && (id.Some? && id.value != 0 ==>
           (r.Err? <==> forall i :: 0 <= i < |cart| ==> cart[i].item.product.id != id.value))
      && (r.Err? && Truthy(id) ==> r.error == ProductNotInCart)
      && (r.Ok? ==> r.value == CartTotal(Filter(cart, IsProduct(id))))
    ensures p.scope.OtherScope? ==> r == Ok(0)
  {
    match p.scope
    case OrderScope => Ok(CartTotal(cart))
    case GlobalScope => Ok(CartTotal(cart))
    case CategoryScope =>
      var c := TargetCategory(p);
      if c.None? || c.value == "" then Err(InvalidCategorySetup)
      else
        var lines := Filter(cart, InCategory(c));
        assert forall i :: 0 <= i < |cart| ==> (cart[i] in lines <==> cart[i].item.product.category == c.value);
        if |lines| == 0 then Err(CategoryNotInCart(c.value))
        else
          assert lines[0] in cart;
          Ok(CartTotal(lines))
    case ProductScope =>
      var id := TargetProductId(p);
      if id.None? || id.value == 0 then Err(InvalidProductSetup)
      else
        var lines := Filter(cart, IsProduct(id));
        assert forall i :: 0 <= i < |cart| ==> (cart[i] in lines <==> cart[i].item.product.id == id.value);
        if |lines| == 0 then Err(ProductNotInCart)
        else
          assert lines[0] in cart;
          Ok(CartTotal(lines))
    case OtherScope(_) => Ok(0)
  }

  /** `Math.floor(eligible * value / 100)` for a percentage, `Math.floor(Math.min(value, eligible))`
      otherwise. The percentage is the exact floor (see README for the
      floating-point difference). */
  function ApplyRate(kind: PromoType, value: int, eligible: int): (r: int)
    ensures kind == Percentage ==> r * 100 <= eligible * value < r * 100 + 100
    ensures kind == FixedAmount ==> r <= eligible && r <= value && (r == value || r == eligible)
  {
    match kind
    case Percentage => (eligible * value) / 100
    case FixedAmount => if value < eligible then value else eligible
  }

  /** A percentage between 0 and 100 of a non-negative amount is a
      non-negative part of that amount. */
  lemma PercentageWithinEligible(value: int, eligible: int)
    requires 0 <= value <= 100 && 0 <= eligible
    ensures 0 <= ApplyRate(Percentage, value, eligible) <= eligible
  {
    var r := ApplyRate(Percentage, value, eligible);
    assert eligible * value <= eligible * 100 by {
      LeMul(value, 100, eligible);
    }
    assert 0 <= eligible * value by {
      LeMul(0, value, eligible);
    }
  }

  lemma LeMul(a: int, b: int, c: nat)
    requires a <= b
    ensures c * a <= c * b
  {
  }

  /** The promotion has ended: `ends_at` is set and lies before now. */
  predicate Ended(p: Promotion, now: int)
  {
    p.endsAt.Some? && p.endsAt.value < now
  }

  /** `promo.min_order_value && cartTotal < promo.min_order_value` */
  predicate BelowMinOrder(p: Promotion, cart: seq<Line>)
  {
    Truthy(p.minOrderValue) && CartTotal(cart) < p.minOrderValue.value
  }

  /** `calculateDiscount(promo)` at instant `now`. The checks run in a fixed
      order and the first one that fails decides the error: inactive, not
      started, expired, minimum order, minimum quantity, then the scope
      target; only when all pass is the rate applied to the eligible amount. */
  function CalculateDiscount(p: Promotion, cart: seq<Line>, now: int): (r: Result<int, PromoError>)
    ensures !p.isActive ==> r == Err(Inactive)
    ensures p.isActive && p.startsAt > now ==> r == Err(NotStarted)
    ensures p.isActive && p.startsAt <= now && Ended(p, now) ==> r == Err(Expired)
    ensures p.isActive && p.startsAt <= now && !Ended(p, now) && BelowMinOrder(p, cart) ==>
      r == Err(MinOrderNotMet(p.minOrderValue.value))
    ensures p.isActive && p.startsAt <= now && !Ended(p, now) && !BelowMinOrder(p, cart) ==>
      (CheckMinQuantity(p, cart).Err? ==> r == Err(CheckMinQuantity(p, cart).error))
    ensures
      && p.isActive && p.startsAt <= now && !Ended(p, now) && !BelowMinOrder(p, cart)
      && CheckMinQuantity(p, cart).Ok?
      ==>
        && (r.Ok? <==> EligibleAmount(p, cart).Ok?)
        && (r.Err? ==> r.error == EligibleAmount(p, cart).error)
    // what a successful evaluation guarantees
    ensures r.Ok? ==>
      && p.isActive && p.startsAt <= now && !Ended(p, now) && !BelowMinOrder(p, cart)
      && CheckMinQuantity(p, cart).Ok? && EligibleAmount(p, cart).Ok?
    ensures r.Ok? ==> r.value == ApplyRate(p.kind, p.value, EligibleAmount(p, cart).value)
    ensures r.Ok? && p.kind == FixedAmount ==>
      r.value == (if p.value < EligibleAmount(p, cart).value then p.value else EligibleAmount(p, cart).value)
    ensures r.Ok? && p.kind == Percentage ==>
      r.value * 100 <= EligibleAmount(p, cart).value * p.value < r.value * 100 + 100
  {
    if !p.isActive then Err(Inactive)
    else if p.startsAt > now then Err(NotStarted)
    else if Ended(p, now) then Err(Expired)
    else if BelowMinOrder(p, cart) then Err(MinOrderNotMet(p.minOrderValue.value))
    else match CheckMinQuantity(p, cart)
      case Err(e) => Err(e)
      case Ok(_) =>
        match EligibleAmount(p, cart)
        case Err(e) => Err(e)
        case Ok(eligible) => Ok(ApplyRate(p.kind, p.value, eligible))
  }

  /** Every line has a non-negative price and quantity. */
  predicate NonNegativeLines(cart: seq<Line>)
  {
    forall i :: 0 <= i < |cart| ==> Price(cart[i]) >= 0 && cart[i].quantity >= 0
  }

  /** Lines drawn from a cart of non-negative lines cost at least 0. */
  lemma DrawnLinesNonNegative(cart: seq<Line>, sub: seq<Line>)
    requires NonNegativeLines(cart)
    requires forall l :: l in sub ==> l in cart
    ensures CartTotal(sub) >= 0
  {
    forall i | 0 <= i < |sub|
      ensures LineTotal(sub[i]) >= 0
    {
      assert sub[i] in cart;
      var j :| 0 <= j < |cart| && cart[j] == sub[i];
      assert Price(cart[j]) >= 0 && cart[j].quantity >= 0;
    }
    SumOfNonNegative(sub, LineTotal);
  }

  /** The part of the cart a predicate picks out costs between 0 and the
      whole cart. */
  lemma FilteredTotalWithin(cart: seq<Line>, keep: Line -> bool)
    requires NonNegativeLines(cart)
    ensures 0 <= CartTotal(Filter(cart, keep)) <= CartTotal(cart)
  {
    SumOfFilterSplit(cart, keep, LineTotal);
    DrawnLinesNonNegative(cart, Filter(cart, Not(keep)));
    DrawnLinesNonNegative(cart, Filter(cart, keep));
  }

  /** With non-negative prices and quantities, the eligible amount never
      exceeds the cart total. */
  lemma EligibleWithinTotal(p: Promotion, cart: seq<Line>)
    requires NonNegativeLines(cart)
    requires EligibleAmount(p, cart).Ok?
    ensures 0 <= EligibleAmount(p, cart).value <= CartTotal(cart)
  {
    SumOfNonNegative(cart, LineTotal);
    match p.scope
    case CategoryScope => FilteredTotalWithin(cart, InCategory(TargetCategory(p)));
    case ProductScope => FilteredTotalWithin(cart, IsProduct(TargetProductId(p)));
    case _ =>
  }

  /** A successful discount is non-negative and at most the cart total when
      prices are non-negative and a percentage lies between 0 and 100 (a
      fixed amount is assumed non-negative). */
  lemma DiscountWithinTotal(p: Promotion, cart: seq<Line>, now: int)
    requires NonNegativeLines(cart) && 0 <= p.value
    requires p.kind == Percentage ==> p.value <= 100
    requires CalculateDiscount(p, cart, now).Ok?
    ensures 0 <= CalculateDiscount(p, cart, now).value <= CartTotal(cart)
  {
    var e := EligibleAmount(p, cart).value;
    EligibleWithinTotal(p, cart);
    if p.kind == Percentage {
      PercentageWithinEligible(p.value, e);
    }
  }
}

=== FILE: selections.dfy ===
/** The `Record<string, string[]>` of chosen option ids per modifier group,
    as an ordered sequence of entries (the enumeration order of a JavaScript
    object: keys in the order first written). */
module SelectionRecord {
  import opened Types
  import Seqs

  function ForGroup(groupId: string): Entry -> bool
  {
    (e: Entry) => e.groupId == groupId
  }

  /** Index of the entry for `groupId`, the first one if several. */
  function FindEntry(sel: Selections, groupId: string): (r: Option<nat>)
    ensures r.Some? ==> r.value < |sel| && sel[r.value].groupId == groupId
    ensures r.Some? ==> forall j :: 0 <= j < r.value ==> sel[j].groupId != groupId
    ensures r.None? <==> forall j :: 0 <= j < |sel| ==> sel[j].groupId != groupId
  {
    Seqs.FindFirst(sel, ForGroup(groupId))
  }

  /** `selections[groupId]`, undefined when the key is absent. */
  function Lookup(sel: Selections, groupId: string): Option<seq<string>>
  {
    match FindEntry(sel, groupId)
    case None => None
    case Some(k) => Some(sel[k].optionIds)
  }

  /** `selections[groupId] || []`: an array, even an empty one, is truthy. */
  function Selected(sel: Selections, groupId: string): seq<string>
  {
    Lookup(sel, groupId).GetOr([])
  }

  /** No key occurs twice, as in any JavaScript object. */
  predicate UniqueKeys(sel: Selections)
  {
    forall i, j :: 0 <= i < j < |sel| ==> sel[i].groupId != sel[j].groupId
  }

  /** `{ ...sel, [groupId]: ids }`: an existing key keeps its position and
      takes the new value; a new key is appended. */
  function SetGroup(sel: Selections, groupId: string, ids: seq<string>): (r: Selections)
    ensures Lookup(r, groupId) == Some(ids)
    ensures forall g :: g != groupId ==> Lookup(r, g) == Lookup(sel, g)
    ensures Lookup(sel, groupId).Some? ==> |r| == |sel|
    ensures Lookup(sel, groupId).Some? ==> forall j :: 0 <= j < |sel| ==> r[j].groupId == sel[j].groupId
    ensures forall j :: 0 <= j < |sel| && sel[j].groupId != groupId ==> j < |r| && r[j] == sel[j]
    ensures Lookup(sel, groupId).None? ==> r == sel + [Entry(groupId, ids)]
    ensures UniqueKeys(sel) ==> UniqueKeys(r)
  {
    match FindEntry(sel, groupId)
    case Some(k) =>
      var r := sel[k := Entry(groupId, ids)];
      assert forall j :: 0 <= j < |sel| ==> r[j].groupId == sel[j].groupId;
      assert forall g :: FindEntry(r, g) == FindEntry(sel, g) by {
        forall g ensures FindEntry(r, g) == FindEntry(sel, g) {
          KeysDecideFind(sel, r, g);
        }
      }
      r
    case None =>
      var r := sel + [Entry(groupId, ids)];
      assert forall g :: FindEntry(r, g) == FindAfterAppend(sel, Entry(groupId, ids), g) by {
        forall g ensures FindEntry(r, g) == FindAfterAppend(sel, Entry(groupId, ids), g) {
          FindEntryAppend(sel, Entry(groupId, ids), g);
        }
      }
      r
  }

  /** Where `FindEntry` lands once `e` is appended to `sel`. */
  function FindAfterAppend(sel: Selections, e: Entry, g: string): Option<nat>
  {
    if FindEntry(sel, g).Some? then FindEntry(sel, g)
    else if e.groupId == g then Some(|sel|)
    else None
  }

  lemma {:induction false} FindEntryAppend(sel: Selections, e: Entry, g: string)
    ensures FindEntry(sel + [e], g) == FindAfterAppend(sel, e, g)
  {
    if |sel| > 0 {
      assert (sel + [e])[1..] == sel[1..] + [e];
      FindEntryAppend(sel[1..], e, g);
    }
  }

  /** Two selections with the same keys at the same positions find the same entry. */
  lemma KeysDecideFind(a: Selections, b: Selections, g: string)
    requires |a| == |b| && forall j :: 0 <= j < |a| ==> a[j].groupId == b[j].groupId
    ensures FindEntry(a, g) == FindEntry(b, g)
  {
    match FindEntry(a, g)
    case None =>
    case Some(k) =>
      assert FindEntry(b, g).Some?;
  }
}

=== FILE: seqs.dfy ===
/** Sequence and string helpers shared by the storefront model: sums, filters,
    subsequences, joins and the few JavaScript string operations the pages use
    (`trim`, ASCII `toLowerCase`/`toUpperCase`, `includes`). */
module Seqs {
  import Types

  /** `find` as an index: the first position whose element satisfies `p`. */
  function FindFirst<T>(s: seq<T>, p: T -> bool): (r: Types.Option<nat>)
    ensures r.Some? ==> r.value < |s| && p(s[r.value])
    ensures r.Some? ==> forall j :: 0 <= j < r.value ==> !p(s[j])
    ensures r.None? <==> forall j :: 0 <= j < |s| ==> !p(s[j])
  {
    if |s| == 0 then Types.None
    else if p(s[0]) then Types.Some(0)
    else
      match FindFirst(s[1..], p)
      case None => Types.None
      case Some(k) => Types.Some(k + 1)
  }

  /** `reduce((acc, x) => acc + f(x), 0)` */
  function SumOf<T>(s: seq<T>, f: T -> int): int
  {
    if |s| == 0 then 0 else f(s[0]) + SumOf(s[1..], f)
  }

  lemma {:induction false} SumOfAppend<T>(a: seq<T>, b: seq<T>, f: T -> int)
    ensures SumOf(a + b, f) == SumOf(a, f) + SumOf(b, f)
  {
    if |a| == 0 {
      assert a + b == b;
    } else {
      assert (a + b)[1..] == a[1..] + b;
      SumOfAppend(a[1..], b, f);
    }
  }

  lemma {:induction false} SumOfNonNegative<T>(s: seq<T>, f: T -> int)
    requires forall i :: 0 <= i < |s| ==> f(s[i]) >= 0
    ensures SumOf(s, f) >= 0
  {
    if |s| > 0 {
      SumOfNonNegative(s[1..], f);
    }
  }

  /** Changing one position of a sequence changes its sum by the difference at that position. */
  lemma {:induction false} SumOfPointUpdate<T>(a: seq<T>, b: seq<T>, f: T -> int, k: int)
    requires |a| == |b| && 0 <= k < |a|
    requires forall j :: 0 <= j < |a| && j != k ==> a[j] == b[j]
    ensures SumOf(b, f) == SumOf(a, f) - f(a[k]) + f(b[k])
  {
    if k == 0 {
      assert a[1..] == b[1..];
    } else {
      SumOfPointUpdate(a[1..], b[1..], f, k - 1);
    }
  }

  /** Two functions that agree on every element give the same sum. */
  lemma {:induction false} SumOfCongruent<T>(s: seq<T>, f: T -> int, g: T -> int)
    requires forall i :: 0 <= i < |s| ==> f(s[i]) == g(s[i])
    ensures SumOf(s, f) == SumOf(s, g)
  {
    if |s| > 0 {
      SumOfCongruent(s[1..], f, g);
    }
  }

  /** `Array.prototype.filter`: keeps, in order, the elements satisfying `p`. */
  function Filter<T(==,!new)>(s: seq<T>, p: T -> bool): (r: seq<T>)
    ensures |r| <= |s|
    ensures forall x :: x in r <==> x in s && p(x)
  {
    if |s| == 0 then []
    else if p(s[0]) then [s[0]] + Filter(s[1..], p)
    else Filter(s[1..], p)
  }

  /** Concatenation is associative. */
  lemma ConcatAssoc<T>(a: seq<T>, b: seq<T>, c: seq<T>)
    ensures a + (b + c) == (a + b) + c
  {
  }

  /** Filtering a sequence with a given head keeps or drops the head, then filters the tail. */
  lemma FilterCons<T(!new)>(h: T, t: seq<T>, p: T -> bool)
    ensures Filter([h] + t, p) == (if p(h) then [h] else []) + Filter(t, p)
  {
    assert ([h] + t)[0] == h && ([h] + t)[1..] == t;
  }

  lemma {:induction false} FilterAppend<T(!new)>(a: seq<T>, b: seq<T>, p: T -> bool)
    ensures Filter(a + b, p) == Filter(a, p) + Filter(b, p)
  {
    if |a| == 0 {
      assert a + b == b;
    } else {
      assert (a + b)[1..] == a[1..] + b;
      FilterAppend(a[1..], b, p);
    }
  }

  /** Filtering with a predicate every element satisfies changes nothing. */
  lemma {:induction false} FilterAll<T(!new)>(s: seq<T>, p: T -> bool)
    requires forall i :: 0 <= i < |s| ==> p(s[i])
    ensures Filter(s, p) == s
  {
    if |s| > 0 {
      FilterAll(s[1..], p);
    }
  }

  /** A filter keeps every copy of an element it keeps and no copy of one it drops. */
  lemma {:induction false} FilterCounts<T(!new)>(s: seq<T>, p: T -> bool)
    ensures forall x :: multiset(Filter(s, p))[x] == if p(x) then multiset(s)[x] else 0
  {
    if |s| > 0 {
      FilterCounts(s[1..], p);
      assert s == [s[0]] + s[1..];
      assert multiset(s) == multiset{s[0]} + multiset(s[1..]);
      if p(s[0]) {
        assert multiset(Filter(s, p)) == multiset{s[0]} + multiset(Filter(s[1..], p));
      }
    }
  }

  /** Filtering out the single element at position `k` that fails `p` leaves
      the rest, in order. */
  lemma {:induction false} FilterDropsOne<T(!new)>(s: seq<T>, p: T -> bool, k: int)
    requires 0 <= k < |s| && !p(s[k])
    ensures (forall j :: 0 <= j < |s| && j != k ==> p(s[j])) ==>
      Filter(s, p) == s[..k] + s[k + 1..]
  {
    if forall j :: 0 <= j < |s| && j != k ==> p(s[j]) {
      if k == 0 {
        assert forall j :: 0 <= j < |s[1..]| ==> p(s[1..][j]) by {
          forall j | 0 <= j < |s[1..]| ensures p(s[1..][j]) {
            assert s[1..][j] == s[j + 1];
          }
        }
        FilterAll(s[1..], p);
      } else {
        var t := s[1..];
        assert t[k - 1] == s[k];
        assert forall j :: 0 <= j < |t| && j != k - 1 ==> p(t[j]) by {
          forall j | 0 <= j < |t| && j != k - 1 ensures p(t[j]) {
            assert t[j] == s[j + 1];
          }
        }
        FilterDropsOne(t, p, k - 1);
        assert p(s[0]);
        assert s == [s[0]] + t;
        FilterCons(s[0], t, p);
        ConcatAssoc([s[0]], t[..k - 1], t[k..]);
        assert s[..k] == [s[0]] + t[..k - 1];
        assert s[k + 1..] == t[k..];
      }
    }
  }

  /** The test that holds exactly where `p` fails. */
  function Not<T>(p: T -> bool): T -> bool
  {
    (x: T) => !p(x)
  }

  /** The matching and the non-matching parts of a sequence add up to the whole. */
  lemma {:induction false} SumOfFilterSplit<T(!new)>(s: seq<T>, p: T -> bool, f: T -> int)
    ensures SumOf(Filter(s, p), f) + SumOf(Filter(s, Not(p)), f) == SumOf(s, f)
  {
    if |s| > 0 {
      SumOfFilterSplit(s[1..], p, f);
    }
  }

  /** `a` can be obtained from `b` by deleting elements (order is preserved). */
  predicate IsSubsequence<T(==)>(a: seq<T>, b: seq<T>)
  {
    if |a| == 0 then true
    else if |b| == 0 then false
    else (a[0] == b[0] && IsSubsequence(a[1..], b[1..])) || IsSubsequence(a, b[1..])
  }

  lemma {:induction false} EmptyIsSubsequence<T>(b: seq<T>)
    ensures IsSubsequence([], b)
  {
  }

  lemma {:induction false} FilterIsSubsequence<T(!new)>(s: seq<T>, p: T -> bool)
    ensures IsSubsequence(Filter(s, p), s)
  {
    if |s| > 0 {
      FilterIsSubsequence(s[1..], p);
      var r := Filter(s, p);
      if p(s[0]) {
        assert r[0] == s[0] && r[1..] == Filter(s[1..], p);
      } else {
        assert r == Filter(s[1..], p);
        if |r| > 0 {
          assert IsSubsequence(r, s[1..]);
        }
      }
    }
  }

  /** `Array.prototype.join(sep)` on strings. */
  function Join(parts: seq<string>, sep: string): string
  {
    if |parts| == 0 then ""
    else if |parts| == 1 then parts[0]
    else parts[0] + sep + Join(parts[1..], sep)
  }

  /** Every character of a needle found in `hay` occurs in `hay`. */
  lemma {:induction false} ContainsHasChars(hay: string, needle: string, k: nat)
    requires k < |needle|
    ensures Contains(hay, needle) ==> needle[k] in hay
    decreases |hay|
  {
    if Contains(hay, needle) {
      if StartsWith(hay, needle) {
        assert hay[k] == needle[k];
      } else {
        ContainsHasChars(hay[1..], needle, k);
        assert needle[k] in hay[1..];
      }
    }
  }

  /** `s.startsWith(prefix)` */
  predicate StartsWith(s: string, prefix: string)
  {
    |prefix| <= |s| && s[..|prefix|] == prefix
  }

  /** `hay.includes(needle)`: some suffix of `hay` starts with `needle`. */
  predicate Contains(hay: string, needle: string)
    decreases |hay|
  {
    StartsWith(hay, needle) || (|hay| > 0 && Contains(hay[1..], needle))
  }

  /** Every string contains the needle found at any of its offsets. */
  lemma {:induction false} ContainsAt(hay: string, needle: string, k: nat)
    requires k <= |hay| && StartsWith(hay[k..], needle)
    ensures Contains(hay, needle)
    decreases k
  {
    if k > 0 {
      assert hay[1..][k - 1..] == hay[k..];
      ContainsAt(hay[1..], needle, k - 1);
    } else {
      assert hay[0..] == hay;
    }
  }

  /** A needle longer than the haystack is never contained. */
  lemma {:induction false} ContainsNeedsRoom(hay: string, needle: string)
    requires |needle| > |hay|
    ensures !Contains(hay, needle)
    decreases |hay|
  {
    if |hay| > 0 {
      ContainsNeedsRoom(hay[1..], needle);
    }
  }

  /** The characters `String.prototype.trim` removes: WhiteSpace and LineTerminator of ECMAScript. */
  predicate IsJsWhitespace(c: char)
  {
    c == ' ' || c == '\t' || c == '\n' || c == '\r' || c == '\U{000B}' || c == '\U{000C}'
    || c == '\U{00A0}' || c == '\U{1680}' || ('\U{2000}' <= c <= '\U{200A}')
    || c == '\U{2028}' || c == '\U{2029}' || c == '\U{202F}' || c == '\U{205F}'
    || c == '\U{3000}' || c == '\U{FEFF}'
  }

  function TrimStart(s: string): (r: string)
    ensures |r| <= |s| && r == s[|s| - |r|..]
    ensures |r| > 0 ==> !IsJsWhitespace(r[0])
    ensures forall i :: 0 <= i < |s| - |r| ==> IsJsWhitespace(s[i])
  {
    if |s| > 0 && IsJsWhitespace(s[0]) then
      var t := TrimStart(s[1..]);
      DropWhitespaceFront(s, t);
      t
    else s
  }

  /** Dropping one more leading whitespace character keeps `t` a suffix reached through whitespace only. */
  lemma DropWhitespaceFront(s: string, t: string)
    requires |s| > 0 && IsJsWhitespace(s[0])
    requires |t| <= |s| - 1 && t == s[1..][|s| - 1 - |t|..]
    requires forall i :: 0 <= i < |s| - 1 - |t| ==> IsJsWhitespace(s[1..][i])
    ensures t == s[|s| - |t|..]
    ensures forall i :: 0 <= i < |s| - |t| ==> IsJsWhitespace(s[i])
  {
    assert s[1..][|s| - 1 - |t|..] == s[|s| - |t|..];
    forall i | 0 < i < |s| - |t|
      ensures IsJsWhitespace(s[i])
    {
      assert s[i] == s[1..][i - 1];
    }
  }

  function TrimEnd(s: string): (r: string)
    ensures |r| <= |s| && r == s[..|r|]
    ensures |r| > 0 ==> !IsJsWhitespace(r[|r| - 1])
    ensures forall i :: |r| <= i < |s| ==> IsJsWhitespace(s[i])
  {
    if |s| > 0 && IsJsWhitespace(s[|s| - 1]) then
      var t := TrimEnd(s[..|s| - 1]);
      assert s[..|s| - 1][..|t|] == s[..|t|];
      t
    else s
  }

  /** Number of whitespace characters `trim` drops from the front of `s`. */
  function LeadingWhitespace(s: string): nat
  {
    |s| - |TrimStart(s)|
  }

  /** `s.trim()`: a contiguous piece of `s` with no whitespace at either end,
      obtained by dropping only whitespace. */
  function Trim(s: string): (r: string)
    ensures LeadingWhitespace(s) + |r| <= |s|
    ensures r == s[LeadingWhitespace(s)..LeadingWhitespace(s) + |r|]
    ensures forall i :: 0 <= i < LeadingWhitespace(s) ==> IsJsWhitespace(s[i])
    ensures forall i :: LeadingWhitespace(s) + |r| <= i < |s| ==> IsJsWhitespace(s[i])
    ensures |r| > 0 ==> !IsJsWhitespace(r[0]) && !IsJsWhitespace(r[|r| - 1])
  {
    var t := TrimStart(s);
    var r := TrimEnd(t);
    PrefixOfSuffix(s, t, r);
    r
  }

  /** A prefix `r` of a suffix `t` of `s` is a slice of `s`, and `s` past
      that slice is `t` past `r`. */
  lemma PrefixOfSuffix<T>(s: seq<T>, t: seq<T>, r: seq<T>)
    requires |t| <= |s| && t == s[|s| - |t|..]
    requires |r| <= |t| && r == t[..|r|]
    ensures r == s[|s| - |t|..|s| - |t| + |r|]
    ensures forall i :: |s| - |t| + |r| <= i < |s| ==> s[i] == t[i - (|s| - |t|)]
  {
  }

  /** `!s.trim()`: a string is blank exactly when every character is whitespace. */
  lemma {:induction false} TrimEmptyIffBlank(s: string)
    ensures Trim(s) == "" <==> forall i :: 0 <= i < |s| ==> IsJsWhitespace(s[i])
  {
    if Trim(s) != "" {
      var r := Trim(s);
      assert s[LeadingWhitespace(s)] == r[0];
    }
  }

  /** ASCII upper-case letters become lower-case; everything else is kept. */
  function LowerChar(c: char): char
  {
    if 'A' <= c <= 'Z' then (c as int + 32) as char else c
  }

  function UpperChar(c: char): char
  {
    if 'a' <= c <= 'z' then (c as int - 32) as char else c
  }

  function Lower(s: string): (r: string)
    ensures |r| == |s| && forall i :: 0 <= i < |s| ==> r[i] == LowerChar(s[i])
  {
    seq(|s|, i requires 0 <= i < |s| => LowerChar(s[i]))
  }

  function Upper(s: string): (r: string)
    ensures |r| == |s| && forall i :: 0 <= i < |s| ==> r[i] == UpperChar(s[i])
  {
    seq(|s|, i requires 0 <= i < |s| => UpperChar(s[i]))
  }

  /** The elements of `s` are pairwise distinct. */
  predicate NoDuplicates<T(==)>(s: seq<T>)
  {
    forall i, j :: 0 <= i < j < |s| ==> s[i] != s[j]
  }

  /** Filtering a duplicate-free sequence keeps it duplicate-free. */
  lemma {:induction false} FilterNoDuplicates<T(!new)>(s: seq<T>, p: T -> bool)
    ensures NoDuplicates(s) ==> NoDuplicates(Filter(s, p))
  {
    if |s| > 0 && NoDuplicates(s) {
      FilterNoDuplicates(s[1..], p);
      assert s[0] !in s[1..] by {
        forall j | 0 <= j < |s[1..]| ensures s[1..][j] != s[0] {
          assert s[1..][j] == s[j + 1];
        }
      }
    }
  }

  /** In a duplicate-free sequence every value occurs at most once. */
  lemma {:induction false} NoDuplicatesCount<T>(s: seq<T>, x: T)
    requires NoDuplicates(s)
    ensures multiset(s)[x] <= 1
  {
    if |s| > 0 {
      assert s == [s[0]] + s[1..];
      assert NoDuplicates(s[1..]) by {
        forall i, j | 0 <= i < j < |s[1..]| ensures s[1..][i] != s[1..][j] {
          assert s[1..][i] == s[i + 1] && s[1..][j] == s[j + 1];
        }
      }
      NoDuplicatesCount(s[1..], x);
      if s[0] == x {
        assert x !in s[1..] by {
          forall j | 0 <= j < |s[1..]| ensures s[1..][j] != x {
            assert s[1..][j] == s[j + 1];
          }
        }
      }
    }
  }

  /** A permutation of a duplicate-free sequence is duplicate-free. */
  lemma NoDuplicatesPermutation<T>(s: seq<T>, r: seq<T>)
    requires multiset(s) == multiset(r) && NoDuplicates(s)
    ensures NoDuplicates(r)
  {
    forall i, j | 0 <= i < j < |r|
      ensures r[i] != r[j]
    {
      if r[i] == r[j] {
        assert r == r[..j] + r[j..];
        assert r[i] in r[..j];
        assert r[j..][0] == r[j];
        assert multiset(r)[r[i]] == multiset(r[..j])[r[i]] + multiset(r[j..])[r[i]];
        NoDuplicatesCount(s, r[i]);
        assert false;
      }
    }
  }
}

=== FILE: sorting.dfy ===
/** A stable sort by a comparator, as `Array.prototype.sort` behaves when
    its comparator is a total preorder: the output is a permutation of the
    input, ordered by the comparator, elements the comparator ranks level
    keeping their order. */
module Sorting {
  import opened Seqs

  /** `le` is total and transitive. */
  ghost predicate TotalPreorder<T(!new)>(le: (T, T) -> bool)
  {
    && (forall a, b :: le(a, b) || le(b, a))
    && (forall a, b, c :: le(a, b) && le(b, c) ==> le(a, c))
  }

  predicate Sorted<T>(s: seq<T>, le: (T, T) -> bool)
  {
    forall i, j :: 0 <= i < j < |s| ==> le(s[i], s[j])
  }

  /** The elements `le` ranks level with `k`. */
  function LevelWith<T>(le: (T, T) -> bool, k: T): T -> bool
  {
    (x: T) => le(x, k) && le(k, x)
  }

  /** Inserts `x` after every element not above it: among the elements
      level with any `k`, `x` comes after those of `s`, which keep their order. */
  function Insert<T(==,!new)>(x: T, s: seq<T>, le: (T, T) -> bool): (r: seq<T>)
    requires TotalPreorder(le) && Sorted(s, le)
    ensures Sorted(r, le)
    ensures multiset(r) == multiset(s) + multiset{x}
    ensures forall k :: Filter(r, LevelWith(le, k)) == Filter(s, LevelWith(le, k)) + Filter([x], LevelWith(le, k))
  {
    if |s| == 0 || !le(s[0], x) then
      InsertFrontLevels(x, s, le);
      [x] + s
    else
      var t := Insert(x, s[1..], le);
      assert s == [s[0]] + s[1..];
      InsertHeadStaysFirst(x, s, t, le);
      InsertBehindLevels(x, s, t, le);
      [s[0]] + t
  }

  /** Placed in front, `x` still comes after everything level with it,
      because nothing in `s` is. */
  lemma InsertFrontLevels<T(!new)>(x: T, s: seq<T>, le: (T, T) -> bool)
    requires TotalPreorder(le) && Sorted(s, le)
    requires |s| == 0 || !le(s[0], x)
    ensures forall k :: Filter([x] + s, LevelWith(le, k)) == Filter(s, LevelWith(le, k)) + Filter([x], LevelWith(le, k))
  {
    assert [x] + [] == [x];
    forall k ensures Filter([x] + s, LevelWith(le, k)) == Filter(s, LevelWith(le, k)) + Filter([x], LevelWith(le, k)) {
      var p := LevelWith(le, k);
      FilterCons(x, s, p);
      FilterCons(x, [], p);
      if p(x) {
        NothingLevelBelow(x, s, le, k);
      }
    }
  }

  /** Keeping the head in front of the insertion into the tail keeps the
      level elements' order. */
  lemma InsertBehindLevels<T(!new)>(x: T, s: seq<T>, t: seq<T>, le: (T, T) -> bool)
    requires |s| > 0
    requires forall k :: Filter(t, LevelWith(le, k)) == Filter(s[1..], LevelWith(le, k)) + Filter([x], LevelWith(le, k))
    ensures forall k :: Filter([s[0]] + t, LevelWith(le, k)) == Filter(s, LevelWith(le, k)) + Filter([x], LevelWith(le, k))
  {
    var h, tail := s[0], s[1..];
    assert s == [h] + tail;
    forall k ensures Filter([h] + t, LevelWith(le, k)) == Filter(s, LevelWith(le, k)) + Filter([x], LevelWith(le, k)) {
      var p := LevelWith(le, k);
      assert Filter(t, p) == Filter(tail, p) + Filter([x], p);
      InsertBehindLevel(h, tail, s, t, Filter([x], p), p);
    }
  }

  lemma InsertBehindLevel<T(!new)>(h: T, tail: seq<T>, s: seq<T>, t: seq<T>, tx: seq<T>, p: T -> bool)
    requires s == [h] + tail
    requires Filter(t, p) == Filter(tail, p) + tx
    ensures Filter([h] + t, p) == Filter(s, p) + tx
  {
    FilterCons(h, t, p);
    FilterCons(h, tail, p);
    ConcatAssoc(if p(h) then [h] else [], Filter(tail, p), tx);
  }

  /** When `x` sorts before the head of `s`, nothing in `s` is level with
      a `k` that `x` is level with. */
  lemma NothingLevelBelow<T(!new)>(x: T, s: seq<T>, le: (T, T) -> bool, k: T)
    requires TotalPreorder(le) && Sorted(s, le)
    requires |s| == 0 || !le(s[0], x)
    requires le(x, k) && le(k, x)
    ensures Filter(s, LevelWith(le, k)) == []
  {
  }

  /** Every element of `t` (`s`'s tail with `x` added) is at or above `s[0]`. */
  lemma InsertHeadStaysFirst<T(!new)>(x: T, s: seq<T>, t: seq<T>, le: (T, T) -> bool)
    requires TotalPreorder(le) && Sorted(s, le) && |s| > 0 && le(s[0], x)
    requires multiset(t) == multiset(s[1..]) + multiset{x}
    ensures forall j :: 0 <= j < |t| ==> le(s[0], t[j])
  {
    forall j | 0 <= j < |t|
      ensures le(s[0], t[j])
    {
      assert t[j] in multiset(t);
      if t[j] != x {
        assert t[j] in multiset(s[1..]);
        var i :| 0 <= i < |s[1..]| && s[1..][i] == t[j];
        assert s[i + 1] == t[j];
      }
    }
  }

  /** The sort: a permutation of `s`, ordered by `le`, and stable (the
      elements level with any `k` keep their order in `s`). */
  function SortBy<T(==,!new)>(s: seq<T>, le: (T, T) -> bool): (r: seq<T>)
    requires TotalPreorder(le)
    ensures Sorted(r, le)
    ensures multiset(r) == multiset(s)
    ensures |r| == |s|
    ensures forall k :: Filter(r, LevelWith(le, k)) == Filter(s, LevelWith(le, k))
  {
    if |s| == 0 then []
    else
      var init, last := s[..|s| - 1], s[|s| - 1];
      var r := Insert(last, SortBy(init, le), le);
      assert s == init + [last];
      assert |r| == |multiset(r)|;
      forall k ensures Filter(r, LevelWith(le, k)) == Filter(s, LevelWith(le, k)) {
        FilterAppend(init, [last], LevelWith(le, k));
      }
      r
  }
}

=== FILE: types.dfy ===
/** The records the storefront works with (src/types/index.ts), with the
    optional TypeScript fields made explicit as `Option`, and the string-literal
    unions made into datatypes. All money is integer rupiah. */
module Types {

  datatype Option<+T> = None | Some(value: T) {
    /** `x ?? d` */
    function GetOr(d: T): T
    {
      match this
      case Some(v) => v
      case None => d
    }
  }

  /** What a throwing or early-returning step yields: a value, or the reason it stopped. */
  datatype Result<+T, +E> = Ok(value: T) | Err(error: E)

  /** `ModifierOption`: one choice inside a modifier group, with its add-on price. */
  datatype ModifierOption = ModifierOption(id: string, name: string, price: int)

  /** `'single' | 'multi'` */
  datatype SelectionType = Single | Multi

  /** `ProductModifier`: a group of options such as "Sugar" or "Milk". */
  datatype ModifierGroup = ModifierGroup(
    id: string,
    name: string,
    isRequired: bool,
    kind: SelectionType,
    options: seq<ModifierOption>)

  /** `BundleItem` joined with the child product's price (`products?.price`). */
  datatype BundleItem = BundleItem(
    id: int,
    parentProductId: int,
    childProductId: int,
    quantity: int,
    childPrice: Option<int>)

  /** `Product` as read from the catalog, including its modifier groups. */
  datatype Product = Product(
    id: int,
    name: string,
    price: int,
    category: string,
    isAvailable: Option<bool>,
    isBundle: bool,
    bundles: Option<seq<BundleItem>>,
    modifiers: seq<ModifierGroup>)

  /** One `[groupId, optionIds]` entry of a `Record<string, string[]>`;
      a record is the sequence of its entries in enumeration order. */
  datatype Entry = Entry(groupId: string, optionIds: seq<string>)

  type Selections = seq<Entry>

  /** `{ selections, notes }`, the customisation attached to a cart line. */
  datatype Modifiers = Modifiers(selections: Selections, notes: string)

  /** `'percentage' | 'fixed_amount'` */
  datatype PromoType = Percentage | FixedAmount

  /** The promotion scope; `global` is not a declared value but checkout treats it as `order`,
      and any other string is carried as `OtherScope`. */
  datatype Scope = OrderScope | GlobalScope | CategoryScope | ProductScope | OtherScope(name: string)

  /** `PromotionTarget`: each of its two fields is optional. */
  datatype PromotionTarget = PromotionTarget(productId: Option<int>, category: Option<string>)

  /** `Promotion`, with times as abstract instants (milliseconds) and
      `ends_at` optional because the checkout tests it for truthiness. */
  datatype Promotion = Promotion(
    code: string,
    kind: PromoType,
    value: int,
    scope: Scope,
    minOrderValue: Option<int>,
    minQuantity: Option<int>,
    startsAt: int,
    endsAt: Option<int>,
    isActive: bool,
    targets: Option<seq<PromotionTarget>>)

  /** A numeric field used as `if (field)`: set and not zero. */
  predicate Truthy(n: Option<int>)
  {
    n.Some? && n.value != 0
  }
}
